=== FILE: README.md ===
# vk-text-likeness, modelled in Dafny

vk-text-likeness predicts how a VK community's wall posts will be received. It collects the group's
members, their friends and the wall. It describes every user and post as a feature row: sex and
country flags, age, and averaged topic weights of the user's groups or the post text. From these it
builds a table of (user, post) rows, flagged with whether the user liked or reposted the post. Two
classifiers are trained on that table. Their predictions are then counted per post, into direct
(member) and non-direct (friend) likes and reposts. A driver class, `GroupPredict`, runs the stages
in a fixed order. It checkpoints every artifact to a pickle file and recomputes only what it cannot
load.

This project models that pipeline with the network, the topic model, the classifiers and pandas
stripped away. It does so for both generations of the code: the current `vk_text_likeness/`
package and the earlier `vk-text-likeness/` directory. What remains is pure functions over
sequences, sets and maps, and one state machine for the checkpoints.

| file | module | models |
|---|---|---|
| wrappers.dfy | `Wrappers` | `Option`, `Result` and the Python exceptions the model raises (`KeyError`, `ZeroDivisionError`, subscripting `None`) |
| text.dfy | `Text` | `str(n)`, `int(s)` on digit strings, `str.split` with a one-character separator |
| frames.dfy | `Frames` | frame cells and numbered column labels (`'user_lda' + str(i)`) |
| dedup.dfy | `Dedup` | first-seen deduplication by key, the shape of `get_all_users` and of an insertion-ordered dict |
| memo.dfy | `Memo` | the `cache_by_entity_id` decorator |
| lda_maker.dfy | `LdaMaker` | `_keep_only_russian_chars`, and the topic extractor as an uninterpreted `get` |
| users_data.dfy | `UsersData` | the current `RawUsersData` graph and `TableUsersData` rows |
| legacy_users.dfy | `LegacyUsers` | the earlier `users_data.py` and `subscribers_data.py` |
| wall_data.dfy | `WallData` | `TableWallData` rows, labels and corpus |
| action_data.dfy | `ActionData` | the training table of `ActionData` |
| predict_data.dfy | `PredictData` | the per-post rows of `PredictActionData` |
| predict_model.dfy | `PredictModel` | the column handling of `PredictActionModel` and the counters of `PredictStatsModel` |
| legacy_predict.dfy | `LegacyPredict` | the three-counter `PredictStatsModel` of the earlier `predict.py` |
| check.dfy | `Check` | the index intersection of `check` |
| checkpoint.dfy | `Checkpoint` | checkpoint file names, `_try_load_pickle` and `_save_pickle` |
| orchestrator.dfy | `Orchestrator` | the `_init_*` stage decisions of both `GroupPredict` classes |

Inputs the code obtains from outside are parameters:
- the fetched members and friend lists;
- the outcome of each `friends.get` call;
- the posts with their liker and reposter ids;
- the topic extractor `get`;
- the classifiers;
- the current year;
- the groups-error flag;
- what each fetch or fit produces;
- how each checkpoint write goes.

Where a Python expression raises on real data, the model returns `Failure` with that exception.
This covers a missing dict key, a division by zero, and subscripting `None`.

Three facts about the code that shape the model:
- `ActionData` keeps no (friend, post) deduplication set (vk_text_likeness/action_data.py:51-58);
- a post with no event is absent from the stats frame (vk_text_likeness/predict_model.py:52-55);
- the fetches have no batching, retry, cooldown or failure marker; a failed call is skipped
  (vk_text_likeness/users_data.py:38-45, 49-52).

The tables are built from the rows as they are meant to be: a user without described groups gets
the zero topic vector, and a post gets one weight per topic. The rows exactly as written, which
raise or come out misaligned, are modelled beside them (`ActionData.CellsAsWritten`,
`PredictData.PredictCellsAsWritten`). Lemmas show that where the written row is built and the topic
extractor lists every topic, the two rows agree.

## Model

| member | source | states |
|---|---|---|
| Memo.Invoke | vk_text_likeness/tools.py:5-11 | the wrapped function runs iff the entity id is not cached; the cache gains that id and keeps every old entry unchanged; the value returned is the cached one, the freshly computed one on a miss |
| Memo.Replay | vk_text_likeness/tools.py:1-13 | over a run of calls through one shared cache, one value per call; the cache ends up holding exactly the old ids plus the called ones and keeps every old entry |
| Memo.ReplayValues | vk_text_likeness/tools.py:5-11 | every call of the run returns the value the cache holds for its id |
| Memo.RanIds | vk_text_likeness/tools.py:8-11 | the wrapped function runs for an id iff some call has that id and it was not cached before |
| Memo.RanUnique | vk_text_likeness/tools.py:6-7 | the wrapped function never runs twice for one id, because the first run caches it |
| Memo.RunsOncePerId | vk_text_likeness/tools.py:5-11 | the number of times the wrapped function runs equals the number of distinct ids not already cached |
| Memo.FirstCallWins | vk_text_likeness/tools.py:8-11 | the value kept for a new id is what its first call computed, whatever later calls would compute |
| Memo.LeadingArgsIgnored | vk_text_likeness/tools.py:5-6 | calls that differ only in `self` or other leading arguments return the same values and leave the same cache |
| LdaMaker.KeepOnlyRussianChars | vk_text_likeness/lda_maker.py:46-53 | the output has the input's length; a character in 'а'..'я' or 'А'..'Я' is kept, every other one becomes a space |
| LdaMaker.KeepOnlyRussianCharsIdempotent | vk_text_likeness/lda_maker.py:46-53 | filtering twice equals filtering once |
| LdaMaker.YoIsBlanked | vk_text_likeness/lda_maker.py:49-52 | 'ё' and 'Ё' lie outside both ranges and are blanked |
| LdaMaker.AddPairs | vk_text_likeness/users_data.py:163-164 | after `result[k] += v` over the pairs, each slot holds its old value plus the sum of the weights given to that topic |
| LdaMaker.SetPairs | vk-text-likeness/users_data.py:119-120 | after `row[k] = v` over the pairs, each slot holds the weight of the last pair for that topic, or its old value if none |
| Text.Split | vk_text_likeness/users_data.py:124 | `split('.')` yields one more part than there are dots, and no part contains a dot |
| Text.SplitJoin | vk_text_likeness/users_data.py:124 | joining the parts with the separator gives the string back |
| Text.SplitLast | vk_text_likeness/users_data.py:126 | the last part, `bdate_parts[-1]`, is the text after the last dot |
| Text.ParseDecimalRoundTrip | vk_text_likeness/users_data.py:96 | `int(str(n)) == n`, so the numbered labels read back to their indices |
| Frames.NumberedLabels | vk_text_likeness/users_data.py:96 | `n` labels, the i-th being the prefix followed by `str(i)` |
| Frames.NumberedLabelsDistinct | vk_text_likeness/users_data.py:96 | the numbered labels never repeat |
| Dedup.DedupFromProps | vk_text_likeness/users_data.py:64-72 | the walk with a seen-set keeps exactly one element per new key, and it is the first element with that key |
| Dedup.DedupAppend | vk_text_likeness/users_data.py:67-71 | deduplicating a concatenation deduplicates the front, then the back against the front's keys |
| Dedup.FrontKept | vk_text_likeness/users_data.py:67-72 | a front with unique keys survives whole at the start of the result |
| Dedup.DedupFromOrdered | vk_text_likeness/predict_data.py:17-21 | the walk keeps its elements in the order their keys first occur in the input |
| UsersData.TagMembers | vk_text_likeness/users_data.py:31-32 | every fetched member is tagged `is_member = True`, and nothing else about it changes |
| UsersData.AppendUnder | vk_text_likeness/users_data.py:43 | appending to the defaultdict extends only that key's list, creating the key at the end on first use |
| UsersData.AttachFriends | vk_text_likeness/users_data.py:40-43 | one member's response adds, under that member, exactly the friends whose id is no member id, tagged `is_member = False` |
| UsersData.FriendsLoop | vk_text_likeness/users_data.py:37-45 | the loop builds a dict with unique keys; a key is present iff some kept friend landed under it; a failed call adds nothing |
| UsersData.FetchFriends | vk_text_likeness/users_data.py:34-45 | every listed friend is tagged a non-member, no friend's id is a member id, and each key lists the kept friends returned for that member id |
| UsersData.OwnFriendsOnly | vk_text_likeness/users_data.py:37-45 | with distinct member ids, a member's list is exactly its own kept friends, or empty if its call failed |
| UsersData.FailedCallNoEntry | vk_text_likeness/users_data.py:38-45 | a member whose `friends.get` raised `ApiError` has no key in the dict |
| UsersData.FindIn | vk_text_likeness/users_data.py:55-57 | a linear search finds a record iff the id occurs, and returns the first record with it |
| UsersData.FindUser | vk_text_likeness/users_data.py:54-62 | None iff the id is neither a member's nor a listed friend's; a member id always resolves to the member record |
| UsersData.FindUserIsFirst | vk_text_likeness/users_data.py:54-62 | `find_user` is the first match in the members followed by the friend lists in insertion order |
| UsersData.FindUserMembership | vk_text_likeness/users_data.py:54-62 | on the graph the fetch builds, a found record is tagged `is_member` exactly when its id is a member id |
| UsersData.GetAllUsers | vk_text_likeness/users_data.py:64-72 | no duplicate ids; the ids are exactly those of the members and the friend lists; each kept record is the first one seen with its id |
| UsersData.MembersComeFirst | vk_text_likeness/users_data.py:64-72 | a member id is represented by the member record, and with distinct member ids the list starts with all members in order |
| UsersData.FindUserMatchesAllUsers | vk_text_likeness/users_data.py:54-72 | `find_user` finds an id iff `get_all_users` lists it, and returns a record that the list holds |
| UsersData.UserAge | vk_text_likeness/users_data.py:121-131 | -1 unless `bdate` exists and has exactly two dots; otherwise the current year minus the digits after the last dot |
| UsersData.Demographics | vk_text_likeness/users_data.py:109-155 | `is_woman` iff sex is 1 and `is_man` iff sex is 2, so both are false when sex is absent and never both true; country flag c is true iff the country id is c, so at most one is true |
| UsersData.Descriptions | vk_text_likeness/users_data.py:160-167 | a document is used iff some group has it as its description; groups without one are skipped |
| UsersData.DescribedAtSpec | vk_text_likeness/users_data.py:160-162 | the positions of the described groups are listed in increasing order and none is missing |
| UsersData.DescriptionsInGroupOrder | vk_text_likeness/users_data.py:160-164 | one document per described group, the k-th being the description of the k-th described group, so a description shared by two groups is used twice |
| UsersData.UserTopicsAsWritten | vk_text_likeness/users_data.py:157-170 | KeyError iff the user has no `groups`; ZeroDivisionError iff no group has a description and there is a topic; otherwise the averaged vector |
| UsersData.UserTopics | vk_text_likeness/users_data.py:157-170 | `num_topics` slots; each slot times the number of described groups is the total weight their descriptions give that topic; the zero vector when no group is described |
| UsersData.AverageSkipsUndescribedGroups | vk_text_likeness/users_data.py:160-167 | an undescribed group is skipped, not averaged in as zeros |
| UsersData.UserLabels | vk_text_likeness/users_data.py:93-96 | the seven demographic names then `user_lda0..`, 7 + `num_topics` labels, all distinct |
| UsersData.UserFeatures | vk_text_likeness/users_data.py:87-91 | one cell per label: the seven demographic cells, then the topic vector |
| UsersData.UserRowAsWritten | vk_text_likeness/users_data.py:87-91 | the row raises exactly when the topic vector raises, and is the labelled row otherwise |
| UsersData.ZeroDivisionWitness | vk_text_likeness/users_data.py:168-169 | a user whose only group has no description gets ZeroDivisionError |
| UsersData.Corpus | vk_text_likeness/users_data.py:98-107 | a document is in the corpus iff some user that has `groups` has a group with that description |
| UsersData.CorpusAsWritten | vk_text_likeness/users_data.py:98-107 | raises iff some user lacks `groups`; otherwise the set of present descriptions |
| UsersData.CorpusKeyErrorWitness | vk_text_likeness/users_data.py:101 | one user without `groups` makes the corpus raise KeyError |
| LegacyUsers.DropMembers | vk-text-likeness/users_data.py:35-43 | a user survives iff its id is no member id, with all its copies; a single response user is kept or dropped on its own |
| LegacyUsers.DropMembersAppend | vk-text-likeness/users_data.py:36-43 | filtering a concatenation filters each part and keeps them in order, so survivors keep their response order |
| LegacyUsers.FilterFriends | vk-text-likeness/users_data.py:29-43 | the kept friends are all responses concatenated, minus those whose id is a member id, with duplicates kept; one response is filtered on its own |
| LegacyUsers.ConcatAppend | vk-text-likeness/users_data.py:31-33 | extending by the responses of two runs of members is extending by the first run's, then by the second's |
| LegacyUsers.FilterFriendsAppend | vk-text-likeness/users_data.py:29-43 | the friends of two runs of members are the first run's kept friends followed by the second's, so the order is member order, then response order |
| LegacyUsers.DuplicateFriendKept | vk-text-likeness/users_data.py:29-43 | a friend returned for two members appears twice |
| LegacyUsers.SubscriberFriends | vk-text-likeness/subscribers_data.py:27-31 | a user is listed iff some member's response contains it, with nothing filtered; the first member's response opens the list, and one response is the whole list |
| LegacyUsers.SubscriberFriendsAppend | vk-text-likeness/subscribers_data.py:28-31 | the list for two runs of members is the first run's list followed by the second's |
| LegacyUsers.SubscriberDuplicateKept | vk-text-likeness/subscribers_data.py:28-31 | a friend returned for two members is listed twice, in response order |
| LegacyUsers.ConcatMembers | vk-text-likeness/subscribers_data.py:27-31 | the concatenation holds every element of every list and nothing else |
| LegacyUsers.SubscriberFriendsKeepMembers | vk-text-likeness/subscribers_data.py:27-31 | a member returned as another member's friend stays in the friend list |
| LegacyUsers.FindUser | vk-text-likeness/users_data.py:50-57 | found with `is_member` True iff the id is a member id, and then it is the first member with that id; with False iff it is only a friend's, and then it is the first friend with that id; None iff it is neither |
| LegacyUsers.Selection | vk-text-likeness/users_data.py:65-70 | members then friends, each part only if its flag is set: position by position, the members up to the friends' offset and the friends after it |
| LegacyUsers.LegacyAge | vk-text-likeness/users_data.py:87-97 | NaN iff `bdate` is absent or does not have exactly two dots; otherwise the same age as the current code |
| LegacyUsers.OverwriteTopics | vk-text-likeness/users_data.py:115-121 | `num_topics` slots; each holds the weight of the last pair for its topic over all groups, or 0 |
| LegacyUsers.LastGroupWins | vk-text-likeness/users_data.py:117-120 | a later group's weight replaces an earlier one, and an untouched slot stays 0 |
| LegacyUsers.LegacyRow | vk-text-likeness/users_data.py:73-77 | the row exists iff sex, country, groups and every description are present; a missing sex raises `KeyError('sex')`, then a missing country `KeyError('country')`; a row is 7 demographic cells with the NaN-able age, then the overwrite topic vector |
| LegacyUsers.SubscriberRow | vk-text-likeness/subscribers_data.py:47-95 | the same row as the users table of that generation: it exists iff sex, country, groups and every description are present; `KeyError('sex')`, then `KeyError('country')`; the two sex cells, the NaN-able age, exactly one-hot country cells for codes 1-4, then the overwrite topic vector |
| LegacyUsers.RowsFor | vk-text-likeness/users_data.py:71 | succeeds iff every user's row does; then rows and index line up with the users |
| LegacyUsers.GetAll | vk-text-likeness/users_data.py:65-71 | succeeds iff every selected user's row does; the rows and ids are the members' when selected, then the friends' from the members' count on (from 0 without members) |
| WallData.WallLabels | vk_text_likeness/wall_data.py:61-62 | `text_len` then `post_lda0..`, 1 + `num_topics` distinct labels |
| WallData.WallCorpus | vk_text_likeness/wall_data.py:64-69 | one document per post, its text, in wall order |
| WallData.CorpusKeepsDuplicates | vk_text_likeness/wall_data.py:64-69 | two posts with one text give two copies |
| WallData.CorpusAppend | vk_text_likeness/wall_data.py:64-69 | the corpus of a longer wall extends the corpus of its prefix |
| WallData.PostRowAsWritten | vk_text_likeness/wall_data.py:57-59 | the text length, then the extractor's sparse pairs for the text, appended as they are |
| WallData.PostRowMisaligned | vk_text_likeness/wall_data.py:59 | with 15 topics and one returned pair, the row has 2 cells against 16 labels |
| WallData.PostFeatures | vk_text_likeness/wall_data.py:57-62 | one cell per label: the text length, then each topic's weight, 0 for topics the extractor left out |
| WallData.DenseAgreesWhenComplete | vk_text_likeness/wall_data.py:75-76 | when the extractor lists every topic once in order, the dense row carries the as-written row's weights |
| WallData.DenseRowWhenComplete | vk_text_likeness/wall_data.py:57-59 | in that case both rows have the same length and each dense cell is the weight of the as-written cell at that position |
| ActionData.RowFor | vk_text_likeness/action_data.py:48-49 | `is_liked` iff the user id is among the post's likes; `is_reposted` iff among its reposts |
| ActionData.WithGroups | vk_text_likeness/action_data.py:53-54 | a friend gets past the `continue` iff it has `groups` |
| ActionData.WithGroupsCounts | vk_text_likeness/action_data.py:52-54 | a friend with `groups` is kept as often as the list holds it; one without is never kept |
| ActionData.WithGroupsAppend | vk_text_likeness/action_data.py:52-54 | the loop keeps list order: filtering a concatenation filters each part in turn |
| ActionData.FriendRows | vk_text_likeness/action_data.py:52-58 | one non-member row per friend with groups, in order |
| ActionData.RowsForPost | vk_text_likeness/action_data.py:47-60 | one row per friend with `groups` after a repost by the member, none otherwise, then exactly one member row last with the member's flags for the post |
| ActionData.FriendBlock | vk_text_likeness/action_data.py:51-58 | the rows before the member's own row are exactly the friend rows, in friend order, when the member reposted, and nothing otherwise |
| ActionData.ComputeUser | vk_text_likeness/action_data.py:41-62 | no rows for a user without `groups`; at least one per post otherwise |
| ActionData.PostRowsLength | vk_text_likeness/action_data.py:47-60 | at least one row per post |
| ActionData.OneMemberRowPerPost | vk_text_likeness/action_data.py:47-60 | the member rows are exactly one per post, in wall order, with the post's flags |
| ActionData.FriendRowsOnlyAfterRepost | vk_text_likeness/action_data.py:51-58 | every non-member row is for a post the member reposted and names a friend of that member who has groups |
| ActionData.BuildTableConcat | vk_text_likeness/action_data.py:24-27 | the table is the per-member row lists concatenated in member order |
| ActionData.TableRowsSound | vk_text_likeness/action_data.py:41-62 | a member row names a member with groups and a wall post; a friend row names a friend with groups of a reposting member with groups |
| ActionData.FriendRowFlags | vk_text_likeness/action_data.py:55-58 | a friend row's flags are read off the post for the friend's own id |
| ActionData.TableRowsComplete | vk_text_likeness/action_data.py:41-60 | every member with groups has its row for every post |
| ActionData.TableFriendRowsComplete | vk_text_likeness/action_data.py:51-58 | every friend with groups of a member with groups that reposted a post has a non-member row for that post |
| ActionData.SharedFriendTwice | vk_text_likeness/action_data.py:52-58 | the same friend record, with groups, listed under two reposting members gets two rows for the post |
| ActionData.ActionLabels | vk_text_likeness/action_data.py:69-72 | `user_id`, the user labels, `post_id`, the post labels, then the three flag names |
| ActionData.ActionLabelsDistinct | vk_text_likeness/action_data.py:69-72 | no column name repeats, so pandas can address every column by name |
| ActionData.Cells | vk_text_likeness/action_data.py:64-67 | one cell per label: the user id, the user features, the post id, one weight per topic after the text length, then the three flags |
| ActionData.CellsAsWritten | vk_text_likeness/action_data.py:64-67 | raises exactly when the user's topic vector raises, with that exception; otherwise it is built only for a user with `groups`, and its length counts the extractor's pairs rather than the topics |
| ActionData.AsWrittenAligned | vk_text_likeness/action_data.py:64-72 | a built row has as many cells as there are labels iff the extractor returned one pair per topic |
| ActionData.AsWrittenRaisesWhereCellsDoNot | vk_text_likeness/action_data.py:65 | a member whose only group has no description makes the written row raise ZeroDivisionError, while the corrected row has one cell per label |
| ActionData.AsWrittenAgreesWhenComplete | vk_text_likeness/action_data.py:64-67 | when the extractor lists every topic once in order, the written row and the corrected one have the same length, ids, user features and flags, and the corrected post cells are the written pairs' weights |
| ActionData.CellsAgreeWhenComplete | vk_text_likeness/action_data.py:64-67 | the same agreement between `CellsAsWritten` and `Cells` for a training row |
| ActionData.ColumnsMatchLabels | vk_text_likeness/action_data.py:64-72 | at whichever position the labels name `user_id`, `post_id`, `is_member`, `is_liked` or `is_reposted`, the row holds that value |
| ActionData.GetAll | vk_text_likeness/action_data.py:15-18 | the table is built on the first call, then returned from the cache |
| ActionData.GetAllBuildsOnce | vk_text_likeness/action_data.py:15-18 | a second call returns the first table even when the inputs have changed |
| PredictData.Actors | vk_text_likeness/predict_data.py:17-21 | the dict keys are distinct, are exactly the likers and reposters, and list the likers first |
| PredictData.ActorsFirstSeen | vk_text_likeness/predict_data.py:17-21 | the dict keys come in order of first appearance in the like list followed by the repost list |
| PredictData.RowsForIds | vk_text_likeness/predict_data.py:22-24 | succeeds iff every id resolves to a user with groups; the rows carry the found record and the two flags; otherwise the failure is that of an unresolvable id |
| PredictData.PostBlock | vk_text_likeness/predict_data.py:16-24 | one row per distinct liker or reposter of the post |
| PredictData.PredictAll | vk_text_likeness/predict_data.py:14-25 | succeeds iff every post's block does |
| PredictData.GroupedByPost | vk_text_likeness/predict_data.py:16-24 | rows come grouped by post in wall order |
| PredictData.RowsSound | vk_text_likeness/predict_data.py:17-24 | every row is for a wall post, carries the flags of its user's id, is liked or reposted, and holds `find_user`'s record |
| PredictData.RowsComplete | vk_text_likeness/predict_data.py:17-24 | every liker or reposter of a post has a row for it |
| PredictData.UnknownUserRaises | vk_text_likeness/predict_data.py:23 | a liker that `find_user` cannot resolve makes the whole call raise |
| PredictData.PredictLabels | vk_text_likeness/predict_data.py:32-35 | `user_id`, the user labels, `post_id`, the post labels, `is_liked`, `is_reposted`, each block in its place |
| PredictData.PredictLabelsDropMember | vk_text_likeness/predict_data.py:32-35 | the prediction labels are the training labels with `is_member` taken out |
| PredictData.PredictLabelsDistinct | vk_text_likeness/predict_data.py:32-35 | no prediction column name repeats |
| PredictData.PredictCells | vk_text_likeness/predict_data.py:27-30 | one cell per label: the user id, the user features, the post id, one weight per topic after the text length, then the two flags |
| PredictData.PredictRowDropsMember | vk_text_likeness/predict_data.py:27-30 | a prediction row is the training row of the same user, post and flags with the `is_member` cell taken out |
| PredictData.PredictCellsAsWritten | vk_text_likeness/predict_data.py:27-30 | raises exactly when the user's topic vector raises; a built row lines up with the labels iff the extractor returned one pair per topic |
| PredictData.PredictCellsAgreeWhenComplete | vk_text_likeness/predict_data.py:27-30 | when the extractor lists every topic once in order, the written and corrected rows have the same length, ids, user features and flags, and the corrected post cells are the written pairs' weights |
| PredictModel.KeepColumns | vk_text_likeness/predict_model.py:16 | dropping columns keeps only cells of the row |
| PredictModel.NumberedKept | vk_text_likeness/predict_model.py:16 | no numbered topic label is among the dropped names |
| PredictModel.FeatureLabelsKept | vk_text_likeness/predict_model.py:16 | no user or post feature label is among the dropped names |
| PredictModel.FeatureRowIsFeatures | vk_text_likeness/predict_model.py:16 | dropping the five names leaves exactly the user features followed by the post features |
| PredictModel.TrainingSet | vk_text_likeness/predict_model.py:14-18 | one feature row per table row, with that row's flags as the two targets |
| PredictModel.PredictActions | vk_text_likeness/predict_model.py:20-24 | rows in order, `user_id`, `post_id` and `is_member` kept, the flags replaced by the classifiers' answers on the features |
| PredictModel.HasEventIffCounted | vk_text_likeness/predict_model.py:52 | a post has a liked or reposted row iff one of its four counters is non-zero |
| PredictModel.PredictStats | vk_text_likeness/predict_model.py:33-56 | a post is reported iff one of its rows is liked or reposted; each column counts its rows with that flag and that membership |
| PredictModel.LikesPartitioned | vk_text_likeness/predict_model.py:41-50 | direct plus non-direct likes equal the liked rows, and likewise for reposts |
| PredictModel.QuietPostAbsent | vk_text_likeness/predict_model.py:52-55 | a post without any event is absent from the output |
| PredictModel.EmptyBucketReadsZero | vk_text_likeness/predict_model.py:54-55 | a bucket with no events reads 0 |
| LegacyPredict.LegacyStats | vk-text-likeness/predict.py:29-49 | exactly three keys, each the count the loop accumulates |
| LegacyPredict.TallyCountsRows | vk-text-likeness/predict.py:37-45 | each counter is the number of prediction rows that pass its test: liked rows of members, reposted rows of members, liked rows of users in the friend list |
| LegacyPredict.OutsidersIgnored | vk-text-likeness/predict.py:37-45 | a user in neither id set contributes nothing |
| LegacyPredict.FriendRepostsIgnored | vk-text-likeness/predict.py:43-45 | the repost and direct-like counts see only member rows |
| LegacyPredict.BothSetsCountedTwice | vk-text-likeness/predict.py:38-42 | a liker in both sets counts as a direct and a non-direct like |
| Check.SharedIndex | vk_text_likeness/check.py:6 | kept ids are in both frames; each id of the true index keeps all its repeats from the prediction index, and others are dropped |
| Check.SharedIndexOrder | vk_text_likeness/check.py:6 | the filter keeps prediction order |
| Check.Compared | vk_text_likeness/check.py:6-10 | for each of the four columns in order, one (predicted, true) pair per shared id, taken at that id |
| Checkpoint.FileNameParts | vk_text_likeness/predict_main.py:102 | a file name is the artifact name, the decimal group id and `.pkl`, and the group id reads back |
| Checkpoint.FileNameInjective | vk_text_likeness/predict_main.py:102 | distinct digit-free names, or distinct groups, never share a file |
| Checkpoint.Load | vk_text_likeness/predict_main.py:100-108 | a value iff the file holds a complete pickle; None when it is missing, unreadable or corrupt; never raises |
| Checkpoint.Save | vk_text_likeness/predict_main.py:110-115 | only `IOError` is swallowed; a failed dump leaves a corrupt file, a failed open leaves the old one |
| Checkpoint.SaveLoadRoundTrip | vk_text_likeness/predict_main.py:100-115 | a completed save loads back unchanged |
| Checkpoint.SaveFrame | vk_text_likeness/predict_main.py:110-115 | a save touches no other file |
| Checkpoint.FailedDumpLosesCheckpoint | vk_text_likeness/predict_main.py:111-115 | a dump failing after the truncating open destroys the previous checkpoint |
| Orchestrator.FilesDistinct | vk_text_likeness/predict_main.py:102 | the seven artifacts of one group have distinct checkpoint files |
| Orchestrator.Stages | vk_text_likeness/predict_main.py:19-26 | the current order has eight steps with users-more third; the earlier one (vk_text_likeness/predict.py:18-24) has seven and no users-more step |
| Orchestrator.SaveArt | vk_text_likeness/predict_main.py:110-115 | a save never changes another artifact's checkpoint; without write faults a picklable artifact loads back and the process keeps running, while friend lists in a lambda `defaultdict` raise past the `IOError` handler and leave no checkpoint; a stopped process saves nothing |
| Orchestrator.LoadOrCompute | vk_text_likeness/predict_main.py:38-46 | the artifact is computed iff its checkpoint does not load, and is then saved; otherwise nothing is written |
| Orchestrator.UsersMore | vk_text_likeness/predict_main.py:48-59 | refetch iff the friends checkpoint does not load or the groups-error flag is set; then members and friends are saved, and the process exits 1 iff the flag is still set |
| Orchestrator.EarlierUsers | vk_text_likeness/predict.py:26-37 | refetch iff either the members or the friends checkpoint does not load; both are then saved |
| Orchestrator.ActionModels | vk_text_likeness/predict_main.py:84-95 | refit iff the refit test holds; both models are then saved; otherwise memory holds what loaded |
| Orchestrator.ActionModelsProvide | vk_text_likeness/predict_main.py:90-95 | without write faults, a refit leaves both model checkpoints loadable and loses none |
| Orchestrator.Step | vk_text_likeness/predict_main.py:19-26 | a stopped process does nothing; a running one enters the step and computes exactly when its checkpoints demand it |
| Orchestrator.StepFrame | vk_text_likeness/predict_main.py:28-95 | a step that does not compute writes nothing, and no step touches an artifact it does not handle |
| Orchestrator.StepStatus | vk_text_likeness/predict_main.py:51-59 | without write faults every step keeps running, except that users-more exits 1 iff it refetched and the flag stayed set; a step that recomputes and saves unpicklable friend lists raises and leaves no friends checkpoint |
| Orchestrator.StepProvides | vk_text_likeness/predict_main.py:28-95 | without write faults a step keeps every loadable checkpoint loadable and leaves its own artifacts loadable |
| Orchestrator.RunOrder | vk_text_likeness/predict_main.py:19-26 | the steps are entered in the listed order, all of them when the process does not stop |
| Orchestrator.StoppedStays | vk_text_likeness/predict_main.py:59 | after `exit(1)` or an escaping exception nothing else happens |
| Orchestrator.RunSaves | vk_text_likeness/predict_main.py:28-95 | with the intended refit test, picklable friend lists and no faults, every artifact a step provides ends up loadable |
| Orchestrator.RanOnResume | vk_text_likeness/predict_main.py:31-90 | with every checkpoint loadable, only the action-model step under the as-written test recomputes |
| Orchestrator.ResumeRun | vk_text_likeness/predict_main.py:28-95 | with every checkpoint loadable, the intended test recomputes nothing and writes nothing; the as-written test refits the models |
| Orchestrator.SecondRunComputesNothing | vk_text_likeness/predict_main.py:28-95 | with the intended test and picklable friend lists, a second run over the files a fault-free first run left computes nothing and changes no file |
| Orchestrator.FriendsNeverSaved | vk_text_likeness/predict.py:32-37 | with the friend lists in a lambda `defaultdict` and no friends checkpoint, a run of either constructor ends raising while saving them and leaves no friends checkpoint, so every later run refetches and raises again; as written this happens in the earlier constructor, and in the current one only once the missing refetch methods exist |
| Orchestrator.AsWrittenRefitsOnResume | vk_text_likeness/predict_main.py:90 | as written, a run that loads both models still refits them |
| Orchestrator.MissingRepostModel | vk_text_likeness/predict_main.py:90 | as written, a loaded like model with a missing repost model is not refit and leaves the repost model None; the intended test refits both |
| Orchestrator.ExitAfterGroupsError | vk_text_likeness/predict_main.py:58-59 | a refetch that leaves the flag set exits 1 when the friend lists can be pickled and raises while saving them otherwise; either way no later step runs |

## Left out

- Every `vk_api` request is an input: member and friend lists, each `friends.get` outcome, the posts with their liker and reposter ids. This covers `_fetch_members`, `_fetch_groups`, `_fetch_wall`, `_fetch_activity` and `VkTools.get_all` paging. `_fetch_activity` also tests `'likes'` where it means `'reposts'` and `'comments'` (vk_text_likeness/wall_data.py:36, 41); that code is not modelled.
- The gensim/nltk pipeline of `LdaMaker` (tokenising, stemming, stopwords, LDA fitting) is the uninterpreted `get` of `LdaMaker.TopicModel`. Its topic indices are assumed to lie below `num_topics`, as gensim guarantees.
- `RandomForestClassifier` is an uninterpreted function from feature rows to a flag. pandas frames are sequences of rows. joblib `Parallel` is the sequential, order-preserving map it amounts to.
- Weights are reals, not floating point. RMSE and the Pearson correlation of `check` are not modelled.
- vk_text_likeness/logs.py, main.py, main_cv.py and the top-level check.py are not part of this model. They hold timing, printing, argument parsing and cross-validation.
- `date.today()` is the parameter `currentYear`. `random.seed`, printing and the pickle format are not modelled. A checkpoint is an abstract value.
- `RawUsersData.fetch_more`, `RawUsersData.was_fetch_groups_error`, `RawWallData.get_who_liked` and `RawWallData.get_who_reposted` are called (vk_text_likeness/predict_main.py:51, 53, 58) but not defined in the code (vk_text_likeness/users_data.py:12-72, vk_text_likeness/wall_data.py:10-42). The groups-error flag, before and after the refetch, is a boolean input, and the refetched members and friends are an input of `Orchestrator.Env`.
- Orchestrator.UsersMore: models the current constructor's third step as if those four methods existed. As written, every run of that constructor raises `AttributeError` there: at line 51 when the friends checkpoint loads (`was_fetch_groups_error`), at line 53 when it does not (`get_who_liked`). So line 56 is never reached and no table or model step runs. The model does not represent that `AttributeError`.
- Orchestrator.ExitAfterGroupsError: the `exit(1)` at vk_text_likeness/predict_main.py:58-59 and the pickling failure before it are reachable only once the missing methods exist; as written the step has already raised `AttributeError` at line 51 or 53.
- ActionData.RowFor: reads the post's fetched liker and reposter lists. `_compute_user` reads `post['likes']['user_ids']` and `post['reposts']['user_ids']` (vk_text_likeness/action_data.py:48-49, 55-56), a key nothing in the code writes: `_fetch_activity` stores the fetched lists under `'users'` (vk_text_likeness/wall_data.py:31, 37). As written, unless the fetched post already carries `user_ids`, the first member with `groups` and at least one post raises `KeyError`. The model reads the training flags as if lines 48-49 and 55-56 read the fetched lists; the `KeyError` is not modelled. The same holds for `ActionData.ComputeUser` and `ActionData.BuildTable`.
- UsersData.UserAge: requires the year after the last dot to be a non-empty run of ASCII digits (`AgeParses`). That is narrower than what `int()` accepts: surrounding whitespace, a leading sign, underscores between digits and non-ASCII decimal digits also parse there. Those years, and the `ValueError` `int()` raises on the rest, are not modelled.
- LegacyUsers.LegacyAge: requires `AgeParses` for the same reason, so it is narrower than `int()` in the same way.
- PredictData.RowsForIds: reads `find_user(id)['user']` as the record `find_user` returns. The current `find_user` returns the user dict itself, so the extra subscript would raise `KeyError`.
- PredictData.Actors: takes the post's likers and reposters as id lists, the `'users'` lists that `get_all` reads (vk_text_likeness/predict_data.py:18-21); see `ActionData.RowFor:` for the training table's `['user_ids']`.
- `@lru_cache(maxsize=-1)` on `get_row` (vk_text_likeness/wall_data.py:57, vk-text-likeness/users_data.py:73) caches nothing, because a negative size counts as 0, so every row is computed afresh; the model computes rows as plain functions.
- LegacyPredict.LegacyStats: reads each predicted row as a record. `iterrows()` (vk-text-likeness/predict.py:37) yields `(index, row)` tuples, so `row['is_liked']` would raise `TypeError`; that is not modelled.
- The `PredictActionModel` of vk-text-likeness/predict.py calls `df.drop` without `axis=1` (lines 14, 19), so it drops rows rather than columns. It is not modelled; only that file's `PredictStatsModel` is (`LegacyPredict`). Both orchestrators, vk_text_likeness/predict_main.py and vk_text_likeness/predict.py, use the column-dropping `PredictActionModel` of vk_text_likeness/predict_model.py and are modelled at the level of their stage decisions.
- ActionData.Cells: models `get_row` with the corrected user and post parts, and `BuildTable` uses it. The row as written is `ActionData.CellsAsWritten`, which raises or is misaligned where the corrected row is not (see Findings).
- PredictData.PredictCells: likewise the corrected row; the row as written is `PredictData.PredictCellsAsWritten`.
- PredictData.RowsForIds: a resolved user with `groups` none of which is described makes `get_row` raise ZeroDivisionError as written; the rows here feed the corrected `PredictCells`, which does not raise.
- ActionData.SharedFriendTwice: takes one friend record with `groups` listed under two members. `_fetch_groups` (vk_text_likeness/users_data.py:47-52) walks `get_all_users()`, which keeps only the first record per id, so a second copy of a shared friend never gets `groups` and is skipped by the `continue`. The lemma shows the absence of deduplication in `_compute_user`, not a state the fetch reaches.
- Orchestrator.RunSaves: assumes the friend lists are picklable. As written they are a lambda `defaultdict` (vk_text_likeness/users_data.py:19, 35), which `pickle.dump` rejects (see Findings and `Orchestrator.FriendsNeverSaved`). It also assumes that every fetch and fit returns: `produce` of `Orchestrator.Env` is total. As written `table_users_data.fit()` raises `KeyError` for a user without `groups` (vk_text_likeness/users_data.py:101; `UsersData.CorpusAsWritten`). The action model's fit raises ZeroDivisionError through `get_row` for a user none of whose groups is described (vk_text_likeness/action_data.py:65; `ActionData.AsWrittenRaisesWhereCellsDoNot`). Either exception ends the run with the users LDA, or the like and repost models, unsaved. For the current constructor it further assumes the four missing refetch methods exist (see `Orchestrator.UsersMore:`).
- Orchestrator.SecondRunComputesNothing: assumes picklable friend lists, fits that return and, for the current constructor, the missing refetch methods, for the same reasons.
- Memo.Invoke: the wrapped function always returns a value. When it raises (vk_text_likeness/tools.py:9), the exception propagates before line 10 and the cache is left unchanged. No caller catches it. That path is not modelled.
- Orchestrator.Step: the first users step of the current constructor also fetches friends and groups in memory, and a later step may use them; only what is checkpointed is modelled.
- `PredictStatsModel.__init__` and `ActionData.__init__` only store references. Their steps are modelled as entering without computing.

## Findings

| source | as written | input that shows it | evidently intended | confidence | as-written member | corrected member |
|---|---|---|---|---|---|---|
| vk_text_likeness/predict_main.py:90 | refit when `like_model is None or repost_model` | both model checkpoints load: the models are refit on every resumed run; a loaded like model with a missing repost model skips the refit and keeps `repost_model` None | refit when either model is missing (`repost_model is None`) | high, not executed | Orchestrator.AsWrittenRefitsOnResume | Orchestrator.SecondRunComputesNothing |
| vk_text_likeness/users_data.py:168-169 | each slot divided by `lda_count` without a guard | a user whose only group has no description, with 15 topics: ZeroDivisionError | the zero vector when no group is described | high, not executed | UsersData.ZeroDivisionWitness | UsersData.UserTopics |
| vk_text_likeness/wall_data.py:59 | `[len(text)] + self._post_lda(post)` appends gensim's sparse `(topic, weight)` pairs | 15 topics, extractor returns `[(3, 0.9)]`: a 2-cell row against 16 labels | one weight per topic, 0 for omitted topics | high, not executed | WallData.PostRowMisaligned | WallData.PostFeatures |
| vk_text_likeness/predict.py:37 | `_save_pickle` of `member_friends`, a `defaultdict(lambda: [])` (vk_text_likeness/users_data.py:19, 35); `_save_pickle` catches only `IOError` (vk_text_likeness/predict.py:102-107); the current constructor saves the same dict at vk_text_likeness/predict_main.py:56, reached only once the missing refetch methods exist | any run of the earlier constructor that finds no members or no friends checkpoint: the pickling error escapes, the process stops before the table and model steps, and no friends checkpoint is written, so the next run does the same | a plain `dict` of friend lists, which pickles | high, not executed | Orchestrator.FriendsNeverSaved | Orchestrator.SecondRunComputesNothing |
| vk_text_likeness/action_data.py:65-66 | `get_row` joins the user and post rows as written | a member whose only group has no description: ZeroDivisionError while building the training table | the corrected user and post rows | high, not executed | ActionData.AsWrittenRaisesWhereCellsDoNot | ActionData.Cells |
| vk_text_likeness/users_data.py:101 | `user['groups']` for every user, though `_fetch_groups` swallows `ApiError` and leaves `groups` unset | one user whose groups fetch failed: KeyError, no corpus | skip users without `groups`, as `_compute_user` does | medium, not executed | UsersData.CorpusKeyErrorWitness | UsersData.Corpus |

=== FILE: action_data.dfy ===
/** `ActionData` of vk_text_likeness/action_data.py: the training table of (user, post) rows.
    Every member with groups gets one row per post; when the member reposted the post, each of
    the member's friends with groups gets a row for it too, placed before the member's row. */
module ActionData {
  import opened Wrappers
  import Frames
  import LdaMaker
  import UsersData
  import WallData

  type User = UsersData.User
  type Post = WallData.Post

  /** One emitted row before it is turned into cells: who, which post, and the three flags. */
  datatype ActionRow = ActionRow(user: User, post: Post, isMember: bool, isLiked: bool, isReposted: bool)

  /** The row `_compute_user` appends for a user and a post, with the flags read off the post. */
  function RowFor(u: User, p: Post, isMember: bool): (r: ActionRow)
    ensures r.user == u && r.post == p && r.isMember == isMember
    ensures r.isLiked <==> u.id in p.likes
    ensures r.isReposted <==> u.id in p.reposts
  {
    ActionRow(u, p, isMember, u.id in p.likes, u.id in p.reposts)
  }

  /** The friends the loop does not `continue` past: those with `groups`, in order. */
  function WithGroups(friends: seq<User>): (kept: seq<User>)
    ensures |kept| <= |friends|
    ensures forall x :: x in kept <==> x in friends && x.groups.Some?
  {
    if |friends| == 0 then []
    else
      var rest := WithGroups(friends[1..]);
      assert forall x :: x in friends <==> x == friends[0] || x in friends[1..];
      if friends[0].groups.Some? then [friends[0]] + rest else rest
  }

  /** The filter keeps every friend with groups as many times as the list has it, and drops
      the others. */
  lemma {:induction false} WithGroupsCounts(friends: seq<User>)
    ensures forall x :: multiset(WithGroups(friends))[x] == if x.groups.Some? then multiset(friends)[x] else 0
  {
    if |friends| > 0 {
      WithGroupsCounts(friends[1..]);
      assert friends == [friends[0]] + friends[1..];
    }
  }

  /** The filter keeps order: filtering two lists one after the other filters each in turn. */
  lemma {:induction false} WithGroupsAppend(a: seq<User>, b: seq<User>)
    ensures WithGroups(a + b) == WithGroups(a) + WithGroups(b)
  {
    if |a| == 0 {
      assert a + b == b;
    } else {
      assert (a + b)[0] == a[0] && (a + b)[1..] == a[1..] + b;
      WithGroupsAppend(a[1..], b);
    }
  }

  /** The friend rows for one post: one per friend with groups, flagged as a non-member. */
  function FriendRows(friends: seq<User>, p: Post): (rows: seq<ActionRow>)
    ensures |rows| == |WithGroups(friends)|
    ensures forall i :: 0 <= i < |rows| ==> rows[i] == RowFor(WithGroups(friends)[i], p, false)
  {
    var kept := WithGroups(friends);
    seq(|kept|, i requires 0 <= i < |kept| => RowFor(kept[i], p, false))
  }

  /** The rows of one member for one post: friend rows (only after a repost), then the
      member's own row. */
  function RowsForPost(d: UsersData.FriendLists, u: User, p: Post): (rows: seq<ActionRow>)
    ensures |rows| == 1 + (if u.id in p.reposts then |WithGroups(UsersData.FriendsOf(d, u.id))| else 0)
    ensures rows[|rows| - 1] == RowFor(u, p, true)
    ensures forall i :: 0 <= i < |rows| - 1 ==>
      !rows[i].isMember && rows[i].post == p && rows[i].user in UsersData.FriendsOf(d, u.id) &&
      rows[i].user.groups.Some? && u.id in p.reposts
  {
    var friends := if u.id in p.reposts then FriendRows(UsersData.FriendsOf(d, u.id), p) else [];
    assert forall i :: 0 <= i < |friends| ==> friends[i].user in WithGroups(UsersData.FriendsOf(d, u.id));
    friends + [RowFor(u, p, true)]
  }

  /** Before the member's own row come exactly the friend rows, and only after a repost. */
  lemma FriendBlock(d: UsersData.FriendLists, u: User, p: Post)
    ensures var rows := RowsForPost(d, u, p);
      rows[..|rows| - 1] == if u.id in p.reposts then FriendRows(UsersData.FriendsOf(d, u.id), p) else []
  {
    var friends := if u.id in p.reposts then FriendRows(UsersData.FriendsOf(d, u.id), p) else [];
    assert RowsForPost(d, u, p) == friends + [RowFor(u, p, true)];
    assert (friends + [RowFor(u, p, true)])[..|friends|] == friends;
  }

  /** The loop over the wall, post by post. */
  function PostRows(d: UsersData.FriendLists, u: User, posts: seq<Post>): seq<ActionRow>
  {
    if |posts| == 0 then [] else RowsForPost(d, u, posts[0]) + PostRows(d, u, posts[1..])
  }

  /** `_compute_user`: nothing for a user without groups, the post loop otherwise. */
  function ComputeUser(d: UsersData.FriendLists, u: User, posts: seq<Post>): (rows: seq<ActionRow>)
    ensures u.groups.None? ==> rows == []
    ensures u.groups.Some? ==> |rows| >= |posts|
  {
    if u.groups.None? then [] else
    PostRowsLength(d, u, posts);
    PostRows(d, u, posts)
  }

  lemma {:induction false} PostRowsLength(d: UsersData.FriendLists, u: User, posts: seq<Post>)
    ensures |PostRows(d, u, posts)| >= |posts|
  {
    if |posts| > 0 { PostRowsLength(d, u, posts[1..]); }
  }

  /** The rows flagged as member rows, in order. */
  function MemberRows(rows: seq<ActionRow>): (r: seq<ActionRow>)
    ensures forall x :: x in r <==> x in rows && x.isMember
  {
    if |rows| == 0 then []
    else
      assert forall x :: x in rows <==> x == rows[0] || x in rows[1..];
      (if rows[0].isMember then [rows[0]] else []) + MemberRows(rows[1..])
  }

  lemma {:induction false} MemberRowsConcat(a: seq<ActionRow>, b: seq<ActionRow>)
    ensures MemberRows(a + b) == MemberRows(a) + MemberRows(b)
  {
    if |a| > 0 {
      assert (a + b)[1..] == a[1..] + b;
      MemberRowsConcat(a[1..], b);
    } else {
      assert a + b == b;
    }
  }

  /** Each post yields exactly one member row, in wall order, with the flags read off the post. */
  lemma {:induction false} OneMemberRowPerPost(d: UsersData.FriendLists, u: User, posts: seq<Post>)
    ensures MemberRows(PostRows(d, u, posts)) == seq(|posts|, i requires 0 <= i < |posts| => RowFor(u, posts[i], true))
  {
    if |posts| > 0 {
      var rows := RowsForPost(d, u, posts[0]);
      var n := |rows| - 1;
      assert rows == rows[..n] + [rows[n]];
      MemberRowsNone(rows[..n]);
      MemberRowsConcat(rows[..n], [rows[n]]);
      assert MemberRows([rows[n]]) == [rows[n]] + MemberRows([]);
      MemberRowsConcat(rows, PostRows(d, u, posts[1..]));
      OneMemberRowPerPost(d, u, posts[1..]);
    }
  }

  lemma {:induction false} MemberRowsNone(rows: seq<ActionRow>)
    requires forall i :: 0 <= i < |rows| ==> !rows[i].isMember
    ensures MemberRows(rows) == []
  {
    if |rows| > 0 { MemberRowsNone(rows[1..]); }
  }

  /** Every non-member row of a member comes from a post the member reposted and names one of
      the member's friends who has groups. */
  lemma {:induction false} FriendRowsOnlyAfterRepost(d: UsersData.FriendLists, u: User, posts: seq<Post>)
    ensures forall r :: r in PostRows(d, u, posts) && !r.isMember ==>
      r.post in posts && u.id in r.post.reposts && r.user in UsersData.FriendsOf(d, u.id) && r.user.groups.Some?
    ensures forall r :: r in PostRows(d, u, posts) && r.isMember ==> r.post in posts && r == RowFor(u, r.post, true)
  {
    if |posts| > 0 {
      FriendRowsOnlyAfterRepost(d, u, posts[1..]);
      var head := RowsForPost(d, u, posts[0]);
      forall r | r in head ensures r.post == posts[0] && (r.isMember ==> r == RowFor(u, posts[0], true)) {
        var i :| 0 <= i < |head| && head[i] == r;
      }
    }
  }

  /** `fit`: the per-member row lists concatenated in `members` order. */
  function BuildTable(d: UsersData.FriendLists, members: seq<User>, posts: seq<Post>): seq<ActionRow>
  {
    if |members| == 0 then [] else ComputeUser(d, members[0], posts) + BuildTable(d, members[1..], posts)
  }

  /** Building the table for two runs of members gives the two tables one after the other. */
  lemma {:induction false} BuildTableConcat(d: UsersData.FriendLists, a: seq<User>, b: seq<User>, posts: seq<Post>)
    ensures BuildTable(d, a + b, posts) == BuildTable(d, a, posts) + BuildTable(d, b, posts)
  {
    if |a| == 0 {
      assert a + b == b;
    } else {
      assert (a + b)[0] == a[0] && (a + b)[1..] == a[1..] + b;
      BuildTableConcat(d, a[1..], b, posts);
    }
  }

  /** Where each row of the table comes from: a member row names a member with groups and a
      post of the wall; a friend row names a friend with groups of a member with groups who
      reposted that post. */
  lemma {:induction false} TableRowsSound(d: UsersData.FriendLists, members: seq<User>, posts: seq<Post>)
    ensures forall r :: r in BuildTable(d, members, posts) && r.isMember ==>
      r.user in members && r.user.groups.Some? && r.post in posts && r == RowFor(r.user, r.post, true)
    ensures forall r :: r in BuildTable(d, members, posts) && !r.isMember ==>
      r.post in posts && r.user.groups.Some? && !r.isLiked == (r.user.id !in r.post.likes) &&
      exists u :: u in members && u.groups.Some? && u.id in r.post.reposts && r.user in UsersData.FriendsOf(d, u.id)
  {
    if |members| > 0 {
      var u := members[0];
      var rest := members[1..];
      TableRowsSound(d, rest, posts);
      FriendRowsOnlyAfterRepost(d, u, posts);
      forall r | r in BuildTable(d, members, posts)
        ensures r.isMember ==> r.user in members && r.user.groups.Some? && r.post in posts && r == RowFor(r.user, r.post, true)
        ensures !r.isMember ==>
                  r.post in posts && r.user.groups.Some? && !r.isLiked == (r.user.id !in r.post.likes) &&
                  exists v :: v in members && v.groups.Some? && v.id in r.post.reposts && r.user in UsersData.FriendsOf(d, v.id)
      {
        if r in BuildTable(d, rest, posts) {
          if !r.isMember {
            var v :| v in rest && v.groups.Some? && v.id in r.post.reposts && r.user in UsersData.FriendsOf(d, v.id);
            assert v in members;
          }
        } else {
          assert r in ComputeUser(d, u, posts);
          assert u.groups.Some?;
          if !r.isMember {
            FriendRowFlags(d, u, posts, r);
          }
        }
      }
    }
  }

  /** The flags of a friend row are read off the post for the friend's own id. */
  lemma {:induction false} FriendRowFlags(d: UsersData.FriendLists, u: User, posts: seq<Post>, r: ActionRow)
    requires r in PostRows(d, u, posts)
    ensures r == RowFor(r.user, r.post, r.isMember)
  {
    var head := RowsForPost(d, u, posts[0]);
    if r in head {
      var i :| 0 <= i < |head| && head[i] == r;
      if u.id in posts[0].reposts && i < |head| - 1 {
        var friends := FriendRows(UsersData.FriendsOf(d, u.id), posts[0]);
        assert head[i] == friends[i];
      }
    } else {
      FriendRowFlags(d, u, posts[1..], r);
    }
  }

  /** A row of one member's block for one post is among that member's rows. */
  lemma {:induction false} InPostRows(d: UsersData.FriendLists, u: User, posts: seq<Post>, j: int, k: int)
    requires 0 <= j < |posts| && 0 <= k < |RowsForPost(d, u, posts[j])|
    ensures RowsForPost(d, u, posts[j])[k] in PostRows(d, u, posts)
  {
    var here := RowsForPost(d, u, posts[0]);
    assert PostRows(d, u, posts) == here + PostRows(d, u, posts[1..]);
    if j == 0 {
      assert (here + PostRows(d, u, posts[1..]))[k] == here[k];
    } else {
      assert posts[1..][j - 1] == posts[j];
      InPostRows(d, u, posts[1..], j - 1, k);
    }
  }

  /** A row computed for the `i`-th member is in the table. */
  lemma InTable(d: UsersData.FriendLists, members: seq<User>, posts: seq<Post>, i: int, row: ActionRow)
    requires 0 <= i < |members| && row in ComputeUser(d, members[i], posts)
    ensures row in BuildTable(d, members, posts)
  {
    var pre, u, post := members[..i], members[i], members[i + 1..];
    assert members == pre + [u] + post;
    BuildTableConcat(d, pre + [u], post, posts);
    BuildTableConcat(d, pre, [u], posts);
    SingleTable(d, u, posts);
    InMiddle(BuildTable(d, pre, posts), ComputeUser(d, u, posts), BuildTable(d, post, posts), row);
  }

  /** The table of one member is that member's rows. */
  lemma SingleTable(d: UsersData.FriendLists, u: User, posts: seq<Post>)
    ensures BuildTable(d, [u], posts) == ComputeUser(d, u, posts)
  {
    assert [u][1..] == [];
    assert BuildTable(d, [u], posts) == ComputeUser(d, u, posts) + BuildTable(d, [], posts);
  }

  /** What is in the middle part is in the whole. */
  lemma InMiddle<T>(a: seq<T>, c: seq<T>, b: seq<T>, x: T)
    requires x in c
    ensures x in a + c + b
  {
  }

  /** Every member with groups has its row for every post. */
  lemma {:induction false} TableRowsComplete(d: UsersData.FriendLists, members: seq<User>, posts: seq<Post>, i: int, j: int)
    requires 0 <= i < |members| && members[i].groups.Some? && 0 <= j < |posts|
    ensures RowFor(members[i], posts[j], true) in BuildTable(d, members, posts)
  {
    var u := members[i];
    var rows := RowsForPost(d, u, posts[j]);
    InPostRows(d, u, posts, j, |rows| - 1);
    Placed(d, members, posts, i, RowFor(u, posts[j], true));
  }

  /** A row among the post rows of a member with groups is in the table. */
  lemma Placed(d: UsersData.FriendLists, members: seq<User>, posts: seq<Post>, i: int, row: ActionRow)
    requires 0 <= i < |members| && members[i].groups.Some? && row in PostRows(d, members[i], posts)
    ensures row in BuildTable(d, members, posts)
  {
    assert ComputeUser(d, members[i], posts) == PostRows(d, members[i], posts);
    InTable(d, members, posts, i, row);
  }

  /** Every friend with groups of a member with groups who reposted a post has a non-member
      row for that post. */
  lemma {:induction false} TableFriendRowsComplete(d: UsersData.FriendLists, members: seq<User>, posts: seq<Post>,
                                                    i: int, j: int, f: User)
    requires 0 <= i < |members| && members[i].groups.Some? && 0 <= j < |posts|
    requires members[i].id in posts[j].reposts
    requires f in UsersData.FriendsOf(d, members[i].id) && f.groups.Some?
    ensures RowFor(f, posts[j], false) in BuildTable(d, members, posts)
  {
    var u := members[i];
    var kept := WithGroups(UsersData.FriendsOf(d, u.id));
    var k :| 0 <= k < |kept| && kept[k] == f;
    var rows := RowsForPost(d, u, posts[j]);
    FriendBlock(d, u, posts[j]);
    assert rows[..|rows| - 1][k] == RowFor(f, posts[j], false);
    assert rows[k] == RowFor(f, posts[j], false);
    InPostRows(d, u, posts, j, k);
    Placed(d, members, posts, i, RowFor(f, posts[j], false));
  }

  /** There is no (friend, post) deduplication: a friend shared by two members who both
      reposted a post gets two rows for it. */
  lemma SharedFriendTwice(a: User, b: User, f: User, p: Post)
    requires a.groups.Some? && b.groups.Some? && f.groups.Some?
    requires a.id != b.id && a.id in p.reposts && b.id in p.reposts
    ensures var d := [UsersData.FriendEntry(a.id, [f]), UsersData.FriendEntry(b.id, [f])];
      multiset(BuildTable(d, [a, b], [p]))[RowFor(f, p, false)] == 2
  {
    var d := [UsersData.FriendEntry(a.id, [f]), UsersData.FriendEntry(b.id, [f])];
    assert UsersData.FriendsOf(d, a.id) == [f];
    assert UsersData.FriendsOf(d[1..], b.id) == [f];
    assert UsersData.FriendsOf(d, b.id) == [f];
    assert WithGroups([f]) == [f] by { assert [f][1..] == []; }
    var fr := RowFor(f, p, false);
    assert RowsForPost(d, a, p) == [fr, RowFor(a, p, true)];
    assert RowsForPost(d, b, p) == [fr, RowFor(b, p, true)];
    assert PostRows(d, a, [p]) == RowsForPost(d, a, p) + PostRows(d, a, []);
    assert PostRows(d, b, [p]) == RowsForPost(d, b, p) + PostRows(d, b, []);
    assert [a, b][1..] == [b] && [b][1..] == [];
    assert ComputeUser(d, a, [p]) == [fr, RowFor(a, p, true)];
    assert ComputeUser(d, b, [p]) == [fr, RowFor(b, p, true)];
    assert BuildTable(d, [b], [p]) == ComputeUser(d, b, [p]) + BuildTable(d, [], [p]);
    var table := BuildTable(d, [a, b], [p]);
    assert table == ComputeUser(d, a, [p]) + BuildTable(d, [b], [p]);
    assert table == [fr, RowFor(a, p, true), fr, RowFor(b, p, true)];
  }

  /** The two topic models and the current year the rows are computed with. */
  datatype Featurizer = Featurizer(users: LdaMaker.TopicModel, posts: LdaMaker.TopicModel, currentYear: int)

  ghost predicate Ready(f: Featurizer)
  {
    LdaMaker.WellFormed(f.users) && LdaMaker.WellFormed(f.posts)
  }

  /** `get_labels`. */
  function ActionLabels(f: Featurizer): (labels: seq<string>)
    ensures |labels| == 13 + f.users.numTopics + f.posts.numTopics
    ensures labels[0] == "user_id" && labels[8 + f.users.numTopics] == "post_id"
    ensures labels[1..8 + f.users.numTopics] == UsersData.UserLabels(f.users.numTopics)
    ensures labels[9 + f.users.numTopics..|labels| - 3] == WallData.WallLabels(f.posts.numTopics)
    ensures labels[|labels| - 3..] == ["is_member", "is_liked", "is_reposted"]
  {
    var user := UsersData.UserLabels(f.users.numTopics);
    var post := WallData.WallLabels(f.posts.numTopics);
    var flags := ["is_member", "is_liked", "is_reposted"];
    var front := ["user_id"] + user + ["post_id"];
    var labels := front + post + flags;
    var nu := |user|;
    assert |front| == nu + 2 && front[0] == "user_id" && front[nu + 1] == "post_id" && front[1..nu + 1] == user;
    assert labels[..|front|] == front;
    assert labels[1..8 + f.users.numTopics] == user;
    assert labels[9 + f.users.numTopics..|labels| - 3] == post;
    assert labels[|labels| - 3..] == flags;
    labels
  }

  /** `get_row`, with the user and post features of the table classes. */
  function Cells(f: Featurizer, r: ActionRow): (cells: seq<Frames.Cell>)
    requires Ready(f)
    requires r.user.groups.Some? && UsersData.AgeParses(r.user)
    ensures |cells| == |ActionLabels(f)|
    ensures cells[0] == Frames.I(r.user.id)
    ensures cells[1..8 + f.users.numTopics] == UsersData.UserFeatures(f.users, f.currentYear, r.user)
    ensures cells[8 + f.users.numTopics] == Frames.I(r.post.id)
    ensures cells[9 + f.users.numTopics..|cells| - 3] == WallData.PostFeatures(f.posts, r.post)
    ensures cells[|cells| - 3..] == [Frames.B(r.isMember), Frames.B(r.isLiked), Frames.B(r.isReposted)]
  {
    var user := UsersData.UserFeatures(f.users, f.currentYear, r.user);
    var post := WallData.PostFeatures(f.posts, r.post);
    var cells := [Frames.I(r.user.id)] + user + [Frames.I(r.post.id)] + post
      + [Frames.B(r.isMember), Frames.B(r.isLiked), Frames.B(r.isReposted)];
    assert cells[1..8 + f.users.numTopics] == user;
    assert cells[9 + f.users.numTopics..|cells| - 3] == post;
    cells
  }

  /** What a user column name looks like: one of the seven fixed names, or `user_lda` and a number. */
  lemma UserLabelShape(nu: nat, x: string)
    requires x in UsersData.UserLabels(nu)
    ensures x in ["is_woman", "is_man", "age", "is_in_russia", "is_in_ukraine", "is_in_byelorussia", "is_in_kazakstan"]
      || (8 <= |x| && x[0] == 'u' && x[5] == 'l')
  {
    var labels := UsersData.UserLabels(nu);
    assert labels == labels[..7] + labels[7..];
    if x in labels[7..] {
      Frames.NumberedStart(x, "user_lda", nu);
      assert x[..8][0] == 'u' && x[..8][5] == 'l';
    }
  }

  /** What a post column name looks like: `text_len`, or `post_lda` and a number. */
  lemma PostLabelShape(np: nat, x: string)
    requires x in WallData.WallLabels(np)
    ensures x == "text_len" || (8 <= |x| && x[0] == 'p' && x[5] == 'l')
  {
    var labels := WallData.WallLabels(np);
    assert labels == [labels[0]] + labels[1..];
    if x in labels[1..] {
      Frames.NumberedStart(x, "post_lda", np);
      assert x[..8][0] == 'p' && x[..8][5] == 'l';
    }
  }

  /** The two id columns and the three flag columns are no user or post feature name. */
  lemma FixedNamesApart(nu: nat, np: nat, x: string)
    requires x in ["user_id", "post_id", "is_member", "is_liked", "is_reposted"]
    ensures x !in UsersData.UserLabels(nu) && x !in WallData.WallLabels(np)
  {
    if x in UsersData.UserLabels(nu) { UserLabelShape(nu, x); }
    if x in WallData.WallLabels(np) { PostLabelShape(np, x); }
  }

  /** No user feature name is a post feature name. */
  lemma FeatureNamesApart(nu: nat, np: nat, x: string)
    requires x in UsersData.UserLabels(nu)
    ensures x !in WallData.WallLabels(np)
  {
    UserLabelShape(nu, x);
    if x in WallData.WallLabels(np) { PostLabelShape(np, x); }
  }

  /** The table has no repeated column name. */
  lemma ActionLabelsDistinct(f: Featurizer)
    ensures Frames.Distinct(ActionLabels(f))
  {
    var nu, np := f.users.numTopics, f.posts.numTopics;
    var user, post := UsersData.UserLabels(nu), WallData.WallLabels(np);
    var flags := ["is_member", "is_liked", "is_reposted"];
    var a1 := ["user_id"] + user;
    var a2 := a1 + ["post_id"];
    var a3 := a2 + post;
    FixedNamesApart(nu, np, "user_id");
    FixedNamesApart(nu, np, "post_id");
    Frames.DistinctConcat(["user_id"], user);
    Frames.DistinctConcat(a1, ["post_id"]);
    forall x | x in a2 ensures x !in post {
      if x in user { FeatureNamesApart(nu, np, x); }
    }
    Frames.DistinctConcat(a2, post);
    forall x | x in flags ensures x !in a3 {
      FixedNamesApart(nu, np, x);
    }
    Frames.DistinctConcat(a3, flags);
    assert ActionLabels(f) == a3 + flags;
  }

  /** `get_row` as written: the user part raises as `UsersData.UserTopicsAsWritten` does, and
      the post part carries the extractor's pairs unexpanded. */
  function CellsAsWritten(f: Featurizer, u: User, p: Post, flags: seq<bool>): (r: Result<seq<Frames.Cell>, Fault>)
    requires Ready(f) && UsersData.AgeParses(u)
    ensures r.Failure? <==> UsersData.UserTopicsAsWritten(f.users, u).Failure?
    ensures r.Failure? ==> r.error == UsersData.UserTopicsAsWritten(f.users, u).error
    ensures r.Success? ==> u.groups.Some?
    ensures r.Success? ==> |r.value| == 10 + f.users.numTopics + |f.posts.get(p.text)| + |flags|
  {
    var user :- UsersData.UserRowAsWritten(f.users, f.currentYear, u);
    var post := WallData.PostRowAsWritten(f.posts, p);
    Success([Frames.I(u.id)] + user + [Frames.I(p.id)] + post + FlagCells(flags))
  }

  /** Boolean cells, one per flag. */
  function FlagCells(flags: seq<bool>): seq<Frames.Cell>
  {
    seq(|flags|, i requires 0 <= i < |flags| => Frames.B(flags[i]))
  }

  /** The agreement of `CellsAgreeWhenComplete`, for any flags after the post part. */
  lemma AsWrittenAgreesWhenComplete(f: Featurizer, u: User, p: Post, flags: seq<bool>)
    requires Ready(f) && u.groups.Some? && UsersData.AgeParses(u)
    requires CellsAsWritten(f, u, p, flags).Success?
    requires |f.posts.get(p.text)| == f.posts.numTopics
    requires forall j :: 0 <= j < f.posts.numTopics ==> f.posts.get(p.text)[j].0 == j
    ensures var c, n := CellsAsWritten(f, u, p, flags).value, 9 + f.users.numTopics;
      var d := [Frames.I(u.id)] + UsersData.UserFeatures(f.users, f.currentYear, u) + [Frames.I(p.id)]
        + WallData.PostFeatures(f.posts, p) + FlagCells(flags);
      |c| == |d| && c[..n] == d[..n] && c[|c| - |flags|..] == d[|d| - |flags|..] &&
      forall k :: n <= k < |c| - |flags| ==> d[k] == Frames.Dense(c[k])
  {
    var front := [Frames.I(u.id)] + UsersData.UserFeatures(f.users, f.currentYear, u) + [Frames.I(p.id)];
    WallData.DenseRowWhenComplete(f.posts, p);
    Frames.SpliceDense(front, WallData.PostRowAsWritten(f.posts, p), WallData.PostFeatures(f.posts, p), FlagCells(flags));
  }

  /** The flags of an action row, in column order. */
  function ActionFlags(r: ActionRow): seq<bool>
  {
    [r.isMember, r.isLiked, r.isReposted]
  }

  /** An as-written row that is built lines up with the labels exactly when the extractor
      returned one pair per topic for the post's text. */
  lemma AsWrittenAligned(f: Featurizer, r: ActionRow)
    requires Ready(f) && UsersData.AgeParses(r.user)
    requires CellsAsWritten(f, r.user, r.post, ActionFlags(r)).Success?
    ensures |CellsAsWritten(f, r.user, r.post, ActionFlags(r)).value| == |ActionLabels(f)|
      <==> |f.posts.get(r.post.text)| == f.posts.numTopics
  {
  }

  /** A member whose only group has no description: the corrected row is built, the
      as-written one raises. */
  lemma AsWrittenRaisesWhereCellsDoNot(f: Featurizer, p: Post)
    requires Ready(f) && f.users.numTopics == 15
    ensures var u := UsersData.User(7, Some(false), None, None, None, Some([UsersData.Group(None)]));
      var r := RowFor(u, p, true);
      CellsAsWritten(f, u, p, ActionFlags(r)) == Failure(ZeroDivisionError) &&
      |Cells(f, r)| == |ActionLabels(f)|
  {
    UsersData.ZeroDivisionWitness(f.users);
  }

  /** Where the as-written row is built and the extractor lists every topic once, in order,
      the corrected row has the same ids, user features and flags, and reads each of the
      as-written post pairs as its weight. */
  lemma {:induction false} CellsAgreeWhenComplete(f: Featurizer, r: ActionRow)
    requires Ready(f) && r.user.groups.Some? && UsersData.AgeParses(r.user)
    requires CellsAsWritten(f, r.user, r.post, ActionFlags(r)).Success?
    requires |f.posts.get(r.post.text)| == f.posts.numTopics
    requires forall j :: 0 <= j < f.posts.numTopics ==> f.posts.get(r.post.text)[j].0 == j
    ensures var c, n := CellsAsWritten(f, r.user, r.post, ActionFlags(r)).value, 9 + f.users.numTopics;
      |c| == |Cells(f, r)| && c[..n] == Cells(f, r)[..n] && c[|c| - 3..] == Cells(f, r)[|c| - 3..] &&
      forall k :: n <= k < |c| - 3 ==> Cells(f, r)[k] == Frames.Dense(c[k])
  {
    var flags := [r.isMember, r.isLiked, r.isReposted];
    assert ActionFlags(r) == flags;
    AsWrittenAgreesWhenComplete(f, r.user, r.post, flags);
    assert FlagCells(flags) == [Frames.B(r.isMember), Frames.B(r.isLiked), Frames.B(r.isReposted)];
    CellsLayout(f, r);
  }

  /** The corrected row block by block. */
  lemma CellsLayout(f: Featurizer, r: ActionRow)
    requires Ready(f)
    requires r.user.groups.Some? && UsersData.AgeParses(r.user)
    ensures Cells(f, r) == [Frames.I(r.user.id)] + UsersData.UserFeatures(f.users, f.currentYear, r.user) + [Frames.I(r.post.id)]
      + WallData.PostFeatures(f.posts, r.post) + [Frames.B(r.isMember), Frames.B(r.isLiked), Frames.B(r.isReposted)]
  {
  }

  /** Each named column of the labels holds the matching value of the row. */
  lemma ColumnsMatchLabels(f: Featurizer, r: ActionRow, k: int)
    requires Ready(f)
    requires r.user.groups.Some? && UsersData.AgeParses(r.user)
    requires 0 <= k < |ActionLabels(f)|
    ensures ActionLabels(f)[k] == "user_id" ==> Cells(f, r)[k] == Frames.I(r.user.id)
    ensures ActionLabels(f)[k] == "post_id" ==> Cells(f, r)[k] == Frames.I(r.post.id)
    ensures ActionLabels(f)[k] == "is_member" ==> Cells(f, r)[k] == Frames.B(r.isMember)
    ensures ActionLabels(f)[k] == "is_liked" ==> Cells(f, r)[k] == Frames.B(r.isLiked)
    ensures ActionLabels(f)[k] == "is_reposted" ==> Cells(f, r)[k] == Frames.B(r.isReposted)
  {
    var labels, cells := ActionLabels(f), Cells(f, r);
    var n := |cells|;
    ActionLabelsDistinct(f);
    assert labels[n - 3..][0] == labels[n - 3] && labels[n - 3..][1] == labels[n - 2] && labels[n - 3..][2] == labels[n - 1];
    assert cells[n - 3..][0] == cells[n - 3] && cells[n - 3..][1] == cells[n - 2] && cells[n - 3..][2] == cells[n - 1];
    var at := map["user_id" := 0, "post_id" := 8 + f.users.numTopics, "is_member" := n - 3, "is_liked" := n - 2, "is_reposted" := n - 1];
    if labels[k] in at {
      assert labels[at[labels[k]]] == labels[k];
    }
  }

  /** `get_all`: the table built on the first call and returned unchanged afterwards. */
  function GetAll(cached: Option<seq<ActionRow>>, d: UsersData.FriendLists, members: seq<User>, posts: seq<Post>)
    : (r: (seq<ActionRow>, Option<seq<ActionRow>>))
    ensures r.1 == Some(r.0)
    ensures cached.Some? ==> r.0 == cached.value
    ensures cached.None? ==> r.0 == BuildTable(d, members, posts)
  {
    if cached.Some? then (cached.value, cached) else
    var table := BuildTable(d, members, posts);
    (table, Some(table))
  }

  /** A second `get_all` returns the first table even when the inputs have changed since. */
  lemma GetAllBuildsOnce(d: UsersData.FriendLists, members: seq<User>, posts: seq<Post>,
                         d': UsersData.FriendLists, members': seq<User>, posts': seq<Post>)
    ensures var first := GetAll(None, d, members, posts);
      GetAll(first.1, d', members', posts').0 == BuildTable(d, members, posts)
  {
  }
}

=== FILE: check.dfy ===
/** vk_text_likeness/check.py: the rows on which predicted and true stats are compared. */
module Check {
  import PredictModel

  /** The index of the comparison: the prediction frame's index filtered to the labels the
      true frame also has, in prediction order and with repeats kept. */
  function SharedIndex(predIndex: seq<int>, trueIndex: seq<int>): (index: seq<int>)
    ensures forall x :: x in index ==> x in predIndex && x in trueIndex
    ensures forall x :: multiset(index)[x] == if x in trueIndex then multiset(predIndex)[x] else 0
  {
    if |predIndex| == 0 then []
    else
      var n := |predIndex| - 1;
      var rest := SharedIndex(predIndex[..n], trueIndex);
      assert predIndex == predIndex[..n] + [predIndex[n]];
      if predIndex[n] in trueIndex then rest + [predIndex[n]] else rest
  }

  /** Filtering commutes with concatenation, so the kept ids stay in prediction order. */
  lemma {:induction false} SharedIndexOrder(a: seq<int>, b: seq<int>, trueIndex: seq<int>)
    ensures SharedIndex(a + b, trueIndex) == SharedIndex(a, trueIndex) + SharedIndex(b, trueIndex)
  {
    if |b| == 0 {
      assert a + b == a;
    } else {
      var n := |b| - 1;
      assert (a + b)[..|a + b| - 1] == a + b[..n];
      assert (a + b)[|a + b| - 1] == b[n];
      SharedIndexOrder(a, b[..n], trueIndex);
    }
  }

  /** The four compared columns, in the order they are reported. */
  const Columns: seq<string> := ["direct_likes_count", "direct_reposts_count", "non_direct_likes_count", "non_direct_reposts_count"]

  /** The value of the `c`-th compared column of a stats row. */
  function Column(s: PredictModel.Stats, c: nat): (v: nat)
    requires c < |Columns|
    ensures c == 0 ==> v == s.directLikes
    ensures c == 1 ==> v == s.directReposts
    ensures c == 2 ==> v == s.nonDirectLikes
    ensures c == 3 ==> v == s.nonDirectReposts
  {
    if c == 0 then s.directLikes else if c == 1 then s.directReposts else if c == 2 then s.nonDirectLikes else s.nonDirectReposts
  }

  /** For each column in order, the (predicted, true) pairs at the shared index. */
  function Compared(predIndex: seq<int>, pred: map<int, PredictModel.Stats>, trueIndex: seq<int>, truth: map<int, PredictModel.Stats>)
    : (pairs: seq<seq<(nat, nat)>>)
    requires forall i :: 0 <= i < |predIndex| ==> predIndex[i] in pred
    requires forall i :: 0 <= i < |trueIndex| ==> trueIndex[i] in truth
    ensures |pairs| == |Columns|
    ensures forall c :: 0 <= c < |Columns| ==> |pairs[c]| == |SharedIndex(predIndex, trueIndex)|
    ensures forall c, k :: 0 <= c < |Columns| && 0 <= k < |pairs[c]| ==>
      var id := SharedIndex(predIndex, trueIndex)[k];
      id in pred && id in truth && pairs[c][k] == (Column(pred[id], c), Column(truth[id], c))
  {
    var index := SharedIndex(predIndex, trueIndex);
    assert forall k :: 0 <= k < |index| ==> index[k] in pred && index[k] in truth by {
      forall k | 0 <= k < |index| ensures index[k] in pred && index[k] in truth {
        assert index[k] in index;
        var i :| 0 <= i < |predIndex| && predIndex[i] == index[k];
        var j :| 0 <= j < |trueIndex| && trueIndex[j] == index[k];
      }
    }
    seq(|Columns|, c requires 0 <= c < |Columns| => ColumnPairs(index, pred, truth, c))
  }

  function ColumnPairs(index: seq<int>, pred: map<int, PredictModel.Stats>, truth: map<int, PredictModel.Stats>, c: nat)
    : (pairs: seq<(nat, nat)>)
    requires c < |Columns|
    requires forall k :: 0 <= k < |index| ==> index[k] in pred && index[k] in truth
    ensures |pairs| == |index|
    ensures forall k :: 0 <= k < |index| ==> pairs[k] == (Column(pred[index[k]], c), Column(truth[index[k]], c))
  {
    seq(|index|, k requires 0 <= k < |index| => (Column(pred[index[k]], c), Column(truth[index[k]], c)))
  }
}

=== FILE: checkpoint.dfy ===
/** The pickle checkpoints of `GroupPredict` (vk_text_likeness/predict_main.py and the
    earlier vk_text_likeness/predict.py): `_try_load_pickle` and `_save_pickle` over a store
    of named files. A file is either a complete pickle, unreadable (opening it raises
    `IOError`) or corrupt (it opens, but unpickling raises something else). */
module Checkpoint {
  import opened Wrappers
  import Text

  /** A pickled artifact, abstractly. */
  type Blob = nat

  datatype Stored = Intact(blob: Blob) | Unreadable | Corrupt

  /** A checkpoint file, by the artifact name and the group id it is formatted from. */
  datatype Path = Path(name: string, gid: nat)

  /** The working directory: file to contents; a missing file is a missing key. Keying on
      `Path` rather than on the formatted string is faithful for digit-free names, by
      `FileNameInjective`. */
  type Files = map<Path, Stored>

  predicate DigitFree(s: string)
  {
    forall i :: 0 <= i < |s| ==> !Text.IsDigit(s[i])
  }

  /** `'{}{}.pkl'.format(name, group_id)`. */
  function FileName(name: string, gid: nat): string
  {
    name + Text.Decimal(gid) + ".pkl"
  }

  /** A file name is the name, the decimal group id and the extension, and the group id reads
      back from between the other two. */
  lemma FileNameParts(name: string, gid: nat)
    ensures var f := FileName(name, gid);
      |f| == |name| + |Text.Decimal(gid)| + 4 && f[..|name|] == name && f[|f| - 4..] == ".pkl" &&
      Text.ParseDecimal(f[|name|..|f| - 4]) == Some(gid)
  {
    var f := FileName(name, gid);
    assert f[|name|..|f| - 4] == Text.Decimal(gid);
    Text.ParseDecimalRoundTrip(gid);
  }

  /** Digit-free names never collide, across names or across groups. */
  lemma FileNameInjective(n1: string, g1: nat, n2: string, g2: nat)
    requires DigitFree(n1) && DigitFree(n2)
    requires FileName(n1, g1) == FileName(n2, g2)
    ensures n1 == n2 && g1 == g2
  {
    var f := FileName(n1, g1);
    FileNameParts(n1, g1);
    FileNameParts(n2, g2);
    var d1, d2 := Text.Decimal(g1), Text.Decimal(g2);
    assert f == n1 + d1 + ".pkl" && f == n2 + d2 + ".pkl";
    FirstDigitAt(n1, d1 + ".pkl");
    FirstDigitAt(n2, d2 + ".pkl");
    assert n1 + d1 + ".pkl" == n1 + (d1 + ".pkl") && n2 + d2 + ".pkl" == n2 + (d2 + ".pkl");
    assert n1 == f[..|n1|] == n2;
    assert d1 == f[|n1|..|f| - 4] == d2;
    Text.DecimalInjective(g1, g2);
  }

  /** The position of the first digit of `s`, or `|s|` when there is none. */
  function FirstDigit(s: string): (k: nat)
    ensures k <= |s|
  {
    if |s| == 0 then 0 else if Text.IsDigit(s[0]) then 0 else 1 + FirstDigit(s[1..])
  }

  lemma {:induction false} FirstDigitAt(n: string, rest: string)
    requires DigitFree(n) && |rest| > 0 && Text.IsDigit(rest[0])
    ensures FirstDigit(n + rest) == |n|
  {
    if |n| > 0 {
      assert (n + rest)[0] == n[0];
      assert (n + rest)[1..] == n[1..] + rest;
      FirstDigitAt(n[1..], rest);
    } else {
      assert n + rest == rest;
    }
  }

  /** `_try_load_pickle`: the pickled value, or None when the file is missing, cannot be
      opened, or does not unpickle. It never raises. */
  function Load(files: Files, f: Path): (r: Option<Blob>)
    ensures r.Some? <==> f in files && files[f].Intact?
    ensures r.Some? ==> files[f] == Intact(r.value)
  {
    if f in files && files[f].Intact? then Some(files[f].blob) else None
  }

  /** How one `_save_pickle` call goes: the `open` fails with `IOError`; `pickle.dump` fails
      with `IOError` after `open` truncated the file; `pickle.dump` raises something else
      after the truncation; or the write completes. */
  datatype WriteFault = Written | OpenFailed | DumpIoFailed | DumpRaised

  datatype Saved = Saved(files: Files, raised: bool)

  /** `_save_pickle`: only `IOError` is swallowed; any other exception propagates. */
  function Save(files: Files, f: Path, blob: Blob, fault: WriteFault): (s: Saved)
    ensures s.raised <==> fault == DumpRaised
    ensures fault == Written ==> s.files == files[f := Intact(blob)]
    ensures fault == OpenFailed ==> s.files == files
    ensures fault == DumpIoFailed || fault == DumpRaised ==> s.files == files[f := Corrupt]
  {
    match fault
    case Written => Saved(files[f := Intact(blob)], false)
    case OpenFailed => Saved(files, false)
    case DumpIoFailed => Saved(files[f := Corrupt], false)
    case DumpRaised => Saved(files[f := Corrupt], true)
  }

  /** A completed save is loaded back unchanged. */
  lemma SaveLoadRoundTrip(files: Files, f: Path, blob: Blob)
    ensures Load(Save(files, f, blob, Written).files, f) == Some(blob)
  {
  }

  /** A save touches no other file. */
  lemma SaveFrame(files: Files, f: Path, blob: Blob, fault: WriteFault, g: Path)
    requires g != f
    ensures Load(Save(files, f, blob, fault).files, g) == Load(files, g)
  {
  }

  /** A dump that fails after the truncating `open` destroys the previous checkpoint even when
      the error is swallowed; a failed `open` leaves it in place. */
  lemma FailedDumpLosesCheckpoint(files: Files, f: Path, blob: Blob, fault: WriteFault)
    ensures fault == DumpIoFailed || fault == DumpRaised ==> Load(Save(files, f, blob, fault).files, f) == None
    ensures fault == OpenFailed ==> Load(Save(files, f, blob, fault).files, f) == Load(files, f)
  {
  }
}

=== FILE: dedup.dfy ===
/** First-seen deduplication by a key: the shape of both `get_all_users` (keyed by user id)
    and the insertion-ordered `defaultdict` of `PredictActionData.get_all` (keyed by itself). */
module Dedup {

  /** The set of keys of the elements of `xs`. */
  function Keys<T, K>(xs: seq<T>, key: T -> K): set<K>
  {
    set i | 0 <= i < |xs| :: key(xs[i])
  }

  /** No two elements of `xs` share a key. */
  predicate UniqueKeys<T, K(==)>(xs: seq<T>, key: T -> K)
  {
    forall i, j :: 0 <= i < j < |xs| ==> key(xs[i]) != key(xs[j])
  }

  /** The position of the first element of `xs` whose key is `k`. */
  function FirstIndex<T, K(==)>(xs: seq<T>, key: T -> K, k: K): (i: nat)
    requires k in Keys(xs, key)
    ensures i < |xs| && key(xs[i]) == k
    ensures forall j :: 0 <= j < i ==> key(xs[j]) != k
  {
    if key(xs[0]) == k then 0
    else
      assert k in Keys(xs[1..], key) by {
        var i :| 0 <= i < |xs| && key(xs[i]) == k;
        assert key(xs[1..][i - 1]) == k;
      }
      1 + FirstIndex(xs[1..], key, k)
  }

  lemma KeysCons<T, K>(xs: seq<T>, key: T -> K)
    requires |xs| > 0
    ensures Keys(xs, key) == {key(xs[0])} + Keys(xs[1..], key)
  {
    forall x | x in Keys(xs, key) ensures x in {key(xs[0])} + Keys(xs[1..], key) {
      var i :| 0 <= i < |xs| && key(xs[i]) == x;
      if i > 0 { assert key(xs[1..][i - 1]) == x; }
    }
    forall x | x in Keys(xs[1..], key) ensures x in Keys(xs, key) {
      var i :| 0 <= i < |xs[1..]| && key(xs[1..][i]) == x;
      assert key(xs[i + 1]) == x;
    }
  }

  lemma {:induction false} KeysConcat<T, K>(a: seq<T>, b: seq<T>, key: T -> K)
    ensures Keys(a + b, key) == Keys(a, key) + Keys(b, key)
  {
    if |a| > 0 {
      KeysCons(a + b, key);
      assert (a + b)[1..] == a[1..] + b;
      KeysConcat(a[1..], b, key);
      KeysCons(a, key);
    } else {
      assert a + b == b;
    }
  }

  lemma UniqueKeysCons<T, K>(xs: seq<T>, key: T -> K)
    requires |xs| > 0
    ensures UniqueKeys(xs, key) <==> key(xs[0]) !in Keys(xs[1..], key) && UniqueKeys(xs[1..], key)
  {
    if key(xs[0]) in Keys(xs[1..], key) {
      var i :| 0 <= i < |xs[1..]| && key(xs[1..][i]) == key(xs[0]);
      assert key(xs[i + 1]) == key(xs[0]);
    }
    if UniqueKeys(xs[1..], key) && key(xs[0]) !in Keys(xs[1..], key) {
      forall i, j | 0 <= i < j < |xs| ensures key(xs[i]) != key(xs[j]) {
        if i == 0 {
          assert key(xs[1..][j - 1]) == key(xs[j]);
        } else {
          assert xs[1..][i - 1] == xs[i] && xs[1..][j - 1] == xs[j];
        }
      }
    }
  }

  /** A key of the front is found first in the front. */
  lemma {:induction false} FirstIndexConcat<T, K>(a: seq<T>, b: seq<T>, key: T -> K, k: K)
    requires k in Keys(a, key)
    ensures k in Keys(a + b, key)
    ensures FirstIndex(a + b, key, k) == FirstIndex(a, key, k)
  {
    KeysConcat(a, b, key);
    if key(a[0]) != k {
      KeysCons(a, key);
      assert (a + b)[1..] == a[1..] + b;
      FirstIndexConcat(a[1..], b, key, k);
    }
  }

  /** A key absent from the front is found first in the back. */
  lemma {:induction false} FirstIndexConcatBack<T, K>(a: seq<T>, b: seq<T>, key: T -> K, k: K)
    requires k !in Keys(a, key) && k in Keys(b, key)
    ensures k in Keys(a + b, key)
    ensures FirstIndex(a + b, key, k) == |a| + FirstIndex(b, key, k)
  {
    KeysConcat(a, b, key);
    if |a| == 0 {
      assert a + b == b;
    } else {
      KeysCons(a, key);
      assert (a + b)[1..] == a[1..] + b;
      FirstIndexConcatBack(a[1..], b, key, k);
    }
  }

  /** Every element of `r` is the first element of `xs` with its key. */
  ghost predicate FirstSeen<T, K>(r: seq<T>, xs: seq<T>, key: T -> K)
  {
    forall i :: 0 <= i < |r| ==> key(r[i]) in Keys(xs, key) && r[i] == xs[FirstIndex(xs, key, key(r[i]))]
  }

  /** Walk `xs` left to right, keeping an element only when its key is not yet in `seen`,
      and adding the key of every kept element to `seen`. */
  function DedupFrom<T, K(==)>(xs: seq<T>, key: T -> K, seen: set<K>): seq<T>
  {
    if |xs| == 0 then []
    else if key(xs[0]) in seen then DedupFrom(xs[1..], key, seen)
    else [xs[0]] + DedupFrom(xs[1..], key, seen + {key(xs[0])})
  }

  /** The walk keeps one element per key not in `seen`, and that element is the first one
      with its key. */
  lemma {:induction false} DedupFromProps<T, K>(xs: seq<T>, key: T -> K, seen: set<K>)
    ensures UniqueKeys(DedupFrom(xs, key, seen), key)
    ensures Keys(DedupFrom(xs, key, seen), key) == Keys(xs, key) - seen
    ensures FirstSeen(DedupFrom(xs, key, seen), xs, key)
  {
    if |xs| > 0 {
      var k := key(xs[0]);
      var rest := DedupFrom(xs[1..], key, seen + {k});
      DedupFromProps(xs[1..], key, seen + {k});
      KeysCons(xs, key);
      assert FirstSeen(rest, xs, key) by {
        forall i | 0 <= i < |rest|
          ensures key(rest[i]) in Keys(xs, key) && rest[i] == xs[FirstIndex(xs, key, key(rest[i]))]
        {
          assert key(rest[i]) in Keys(rest, key);
          assert key(rest[i]) != k;
        }
      }
      if k !in seen {
        var r := [xs[0]] + rest;
        assert DedupFrom(xs, key, seen) == r;
        assert r[1..] == rest;
        KeysCons(r, key);
        UniqueKeysCons(r, key);
        assert FirstIndex(xs, key, k) == 0;
        assert FirstSeen(r, xs, key) by {
          forall i | 0 <= i < |r|
            ensures key(r[i]) in Keys(xs, key) && r[i] == xs[FirstIndex(xs, key, key(r[i]))]
          {
            if i > 0 { assert r[i] == rest[i - 1]; }
          }
        }
      } else {
        assert seen + {k} == seen;
        assert DedupFrom(xs, key, seen) == rest;
      }
    }
  }

  /** A key that the first element does not carry is found one step later than in the tail. */
  lemma FirstIndexTail<T, K>(xs: seq<T>, key: T -> K, k: K)
    requires |xs| > 0 && key(xs[0]) != k && k in Keys(xs[1..], key)
    ensures k in Keys(xs, key)
    ensures FirstIndex(xs, key, k) == 1 + FirstIndex(xs[1..], key, k)
  {
    KeysCons(xs, key);
  }

  /** The elements of `r` appear in the order in which their keys first occur in `xs`. */
  ghost predicate InFirstSeenOrder<T, K>(r: seq<T>, xs: seq<T>, key: T -> K)
  {
    forall i, j :: 0 <= i < j < |r| && key(r[i]) in Keys(xs, key) && key(r[j]) in Keys(xs, key) ==>
      FirstIndex(xs, key, key(r[i])) < FirstIndex(xs, key, key(r[j]))
  }

  /** The walk keeps its elements in first-occurrence order. */
  lemma {:induction false} DedupFromOrdered<T, K>(xs: seq<T>, key: T -> K, seen: set<K>)
    ensures InFirstSeenOrder(DedupFrom(xs, key, seen), xs, key)
  {
    if |xs| > 0 {
      var k := key(xs[0]);
      var rest := DedupFrom(xs[1..], key, if k in seen then seen else seen + {k});
      DedupFromOrdered(xs[1..], key, if k in seen then seen else seen + {k});
      DedupFromProps(xs[1..], key, if k in seen then seen else seen + {k});
      forall i | 0 <= i < |rest|
        ensures key(rest[i]) != k && key(rest[i]) in Keys(xs, key)
        ensures FirstIndex(xs, key, key(rest[i])) == 1 + FirstIndex(xs[1..], key, key(rest[i]))
      {
        assert key(rest[i]) in Keys(rest, key);
        FirstIndexTail(xs, key, key(rest[i]));
      }
      if k !in seen {
        var r := [xs[0]] + rest;
        assert DedupFrom(xs, key, seen) == r;
        assert FirstIndex(xs, key, k) == 0;
        forall i, j | 0 <= i < j < |r| && key(r[i]) in Keys(xs, key) && key(r[j]) in Keys(xs, key)
          ensures FirstIndex(xs, key, key(r[i])) < FirstIndex(xs, key, key(r[j]))
        {
          assert r[j] == rest[j - 1];
          if i > 0 {
            assert r[i] == rest[i - 1];
          }
        }
      } else {
        assert DedupFrom(xs, key, seen) == rest;
      }
    }
  }

  /** One step of the walk, at position `i`. */
  lemma DedupStep<T, K>(xs: seq<T>, key: T -> K, seen: set<K>, i: int)
    requires 0 <= i < |xs|
    ensures DedupFrom(xs[i..], key, seen) ==
      if key(xs[i]) in seen then DedupFrom(xs[i + 1..], key, seen)
      else [xs[i]] + DedupFrom(xs[i + 1..], key, seen + {key(xs[i])})
  {
    assert xs[i..][0] == xs[i];
    assert xs[i..][1..] == xs[i + 1..];
  }

  /** First-seen deduplication of a whole sequence. */
  function DedupBy<T, K(==)>(xs: seq<T>, key: T -> K): seq<T>
  {
    DedupFrom(xs, key, {})
  }

  /** Deduplicating a concatenation deduplicates the front, then the back against the front's keys. */
  lemma {:induction false} DedupAppend<T, K>(a: seq<T>, b: seq<T>, key: T -> K, seen: set<K>)
    ensures DedupFrom(a + b, key, seen) == DedupFrom(a, key, seen) + DedupFrom(b, key, seen + Keys(a, key))
  {
    if |a| == 0 {
      assert a + b == b;
      assert seen + Keys(a, key) == seen;
    } else {
      var k := key(a[0]);
      assert (a + b)[0] == a[0];
      assert (a + b)[1..] == a[1..] + b;
      KeysCons(a, key);
      if k in seen {
        DedupAppend(a[1..], b, key, seen);
        assert seen + Keys(a[1..], key) == seen + Keys(a, key);
      } else {
        DedupAppend(a[1..], b, key, seen + {k});
        assert seen + {k} + Keys(a[1..], key) == seen + Keys(a, key);
      }
    }
  }

  /** A sequence whose keys are already unique and fresh is kept whole. */
  lemma {:induction false} DedupUnique<T, K>(xs: seq<T>, key: T -> K, seen: set<K>)
    requires UniqueKeys(xs, key)
    requires Keys(xs, key) !! seen
    ensures DedupFrom(xs, key, seen) == xs
  {
    if |xs| > 0 {
      var k := key(xs[0]);
      assert k in Keys(xs, key);
      assert UniqueKeys(xs[1..], key);
      assert Keys(xs[1..], key) !! seen + {k} by {
        forall x | x in Keys(xs[1..], key) ensures x !in seen + {k} {
          var i :| 0 <= i < |xs[1..]| && key(xs[1..][i]) == x;
          assert key(xs[i + 1]) == x;
        }
      }
      DedupUnique(xs[1..], key, seen + {k});
      assert xs == [xs[0]] + xs[1..];
    }
  }

  /** When the front has unique keys, the deduplicated result starts with the whole front. */
  lemma FrontKept<T, K>(a: seq<T>, b: seq<T>, key: T -> K)
    requires UniqueKeys(a, key)
    ensures |DedupBy(a + b, key)| >= |a|
    ensures DedupBy(a + b, key)[..|a|] == a
  {
    DedupAppend(a, b, key, {});
    DedupUnique(a, key, {});
  }
}

=== FILE: frames.dfy ===
/** Cells and column labels of the pandas frames the pipeline builds. */
module Frames {
  import Text

  /** One value of a frame row: a boolean flag, an integer, a real, pandas' NaN, or a
      `(topic, weight)` pair that the extractor returned and the row carries unexpanded. */
  datatype Cell = B(b: bool) | I(i: int) | R(r: real) | NaN | Pair(topic: nat, weight: real)

  /** A cell as the dense row holds it: an unexpanded pair stands for its weight. */
  function Dense(c: Cell): Cell
  {
    if c.Pair? then R(c.weight) else c
  }

  /** No label occurs twice, so every column of the frame is addressable by name. */
  predicate Distinct(labels: seq<string>)
  {
    forall i, j :: 0 <= i < j < |labels| ==> labels[i] != labels[j]
  }

  /** `[prefix + str(i) for i in range(n)]`. */
  function NumberedLabels(prefix: string, n: nat): (labels: seq<string>)
    ensures |labels| == n
    ensures forall i :: 0 <= i < n ==> labels[i] == prefix + Text.Decimal(i)
  {
    seq(n, i requires 0 <= i => prefix + Text.Decimal(i))
  }

  /** The numbered labels never repeat, whatever the prefix. */
  lemma NumberedLabelsDistinct(prefix: string, n: nat)
    ensures Distinct(NumberedLabels(prefix, n))
  {
    var labels := NumberedLabels(prefix, n);
    forall i, j | 0 <= i < j < n
      ensures labels[i] != labels[j]
    {
      if labels[i] == labels[j] {
        assert Text.Decimal(i) == labels[i][|prefix|..];
        assert Text.Decimal(j) == labels[j][|prefix|..];
        Text.DecimalInjective(i, j);
      }
    }
  }

  /** A name that is too short for, or differs at position `k` from, the prefix is none of
      the numbered labels. */
  lemma NotNumbered(name: string, prefix: string, n: nat, k: nat)
    requires k < |prefix| && (|name| <= k || name[k] != prefix[k])
    ensures name !in NumberedLabels(prefix, n)
  {
    var labels := NumberedLabels(prefix, n);
    forall i | 0 <= i < n ensures labels[i] != name {
      assert labels[i][k] == prefix[k];
    }
  }

  /** Two lists without repeats and without a common name join into a list without repeats. */
  lemma DistinctConcat(a: seq<string>, b: seq<string>)
    requires Distinct(a) && Distinct(b)
    requires forall x :: x in a ==> x !in b
    ensures Distinct(a + b)
  {
    var c := a + b;
    forall i, j | 0 <= i < j < |c| ensures c[i] != c[j] {
      if i < |a| <= j {
        assert c[i] in a && c[j] == b[j - |a|];
      } else if |a| <= i {
        assert c[i] == b[i - |a|] && c[j] == b[j - |a|];
      }
    }
  }

  /** Every numbered label starts with its prefix. */
  lemma NumberedStart(x: string, prefix: string, n: nat)
    requires x in NumberedLabels(prefix, n)
    ensures |prefix| <= |x| && x[..|prefix|] == prefix
  {
    var i :| 0 <= i < n && NumberedLabels(prefix, n)[i] == x;
    assert x == prefix + Text.Decimal(i);
  }

  /** Two rows that differ only in a middle block, where one block is the other read densely,
      share their front and tail and are dense-equal in between. */
  lemma SpliceDense(front: seq<Cell>, w: seq<Cell>, d: seq<Cell>, tail: seq<Cell>)
    requires |w| == |d| && forall k :: 0 <= k < |w| ==> d[k] == Dense(w[k])
    ensures var c1, c2 := front + w + tail, front + d + tail;
      |c1| == |c2| && c1[..|front|] == c2[..|front|] && c1[|c1| - |tail|..] == c2[|c2| - |tail|..] &&
      forall k :: |front| <= k < |c1| - |tail| ==> c2[k] == Dense(c1[k])
  {
    var c1, c2 := front + w + tail, front + d + tail;
    assert c1[..|front|] == front && c2[..|front|] == front;
    assert c1[|c1| - |tail|..] == tail && c2[|c2| - |tail|..] == tail;
    forall k | |front| <= k < |c1| - |tail| ensures c2[k] == Dense(c1[k]) {
      assert c1[k] == w[k - |front|] && c2[k] == d[k - |front|];
    }
  }

  /** Where the parts of a row built as `[x] + u + [y] + p + t` sit. */
  lemma Layout<X>(x: X, u: seq<X>, y: X, p: seq<X>, t: seq<X>)
    ensures var c := [x] + u + [y] + p + t;
      c[0] == x && c[1..1 + |u|] == u && c[1 + |u|] == y &&
      c[2 + |u|..|c| - |t|] == p && c[|c| - |t|..] == t
  {
  }
}

=== FILE: lda_maker.dfy ===
/** The topic extractor's interface, the Cyrillic character filter of
    vk_text_likeness/lda_maker.py, and the dense topic vectors built from its output. */
module LdaMaker {
  import opened Wrappers

  /** Sparse extractor output: `(topic index, weight)` pairs. */
  type TopicWeights = seq<(nat, real)>

  /** A fitted `LdaMaker`: its topic count and its `get(doc)`, left uninterpreted. */
  datatype TopicModel = TopicModel(numTopics: nat, get: string -> TopicWeights)

  /** Every topic index the extractor returns addresses a slot of a `num_topics`-long vector,
      as gensim's LDA guarantees; the Python code would index out of range otherwise. */
  ghost predicate WellFormed(m: TopicModel)
  {
    forall doc: string, i :: 0 <= i < |m.get(doc)| ==> m.get(doc)[i].0 < m.numTopics
  }

  predicate InRange(pairs: TopicWeights, n: nat)
  {
    forall i :: 0 <= i < |pairs| ==> pairs[i].0 < n
  }

  /** The characters `_keep_only_russian_chars` keeps: 'а'..'я' and 'А'..'Я'. */
  predicate IsRussianLetter(c: char)
  {
    ('\U{0430}' <= c <= '\U{044F}') || ('\U{0410}' <= c <= '\U{042F}')
  }

  /** `_keep_only_russian_chars`: every other character becomes a space. */
  function KeepOnlyRussianChars(s: string): (r: string)
    ensures |r| == |s|
    ensures forall i :: 0 <= i < |s| ==> r[i] == (if IsRussianLetter(s[i]) then s[i] else ' ')
  {
    if |s| == 0 then ""
    else [if IsRussianLetter(s[0]) then s[0] else ' '] + KeepOnlyRussianChars(s[1..])
  }

  /** Filtering twice is filtering once. */
  lemma KeepOnlyRussianCharsIdempotent(s: string)
    ensures KeepOnlyRussianChars(KeepOnlyRussianChars(s)) == KeepOnlyRussianChars(s)
  {
  }

  /** 'ё' (U+0451) and 'Ё' (U+0401) lie outside both ranges and are blanked out. */
  lemma YoIsBlanked()
    ensures KeepOnlyRussianChars("\U{0451}\U{0401}\U{0436}") == "  \U{0436}"
  {
  }

  /** `[0] * n`. */
  function Zeros(n: nat): (v: seq<real>)
    ensures |v| == n && forall j :: 0 <= j < n ==> v[j] == 0.0
  {
    seq(n, _ => 0.0)
  }

  /** Sum of the weights given to topic `j`. */
  function WeightSum(pairs: TopicWeights, j: nat): real
  {
    if |pairs| == 0 then 0.0
    else (if pairs[0].0 == j then pairs[0].1 else 0.0) + WeightSum(pairs[1..], j)
  }

  /** The weight of the LAST pair for topic `j`, if there is one. */
  function LastWeight(pairs: TopicWeights, j: nat): Option<real>
  {
    if |pairs| == 0 then None
    else
      var later := LastWeight(pairs[1..], j);
      if later.Some? then later
      else if pairs[0].0 == j then Some(pairs[0].1)
      else None
  }

  /** The loop `for k, v in pairs: acc[k] += v`. */
  function AddPairs(acc: seq<real>, pairs: TopicWeights): (r: seq<real>)
    requires InRange(pairs, |acc|)
    ensures |r| == |acc|
    ensures forall j :: 0 <= j < |acc| ==> r[j] == acc[j] + WeightSum(pairs, j)
    decreases |pairs|
  {
    if |pairs| == 0 then acc
    else AddPairs(acc[pairs[0].0 := acc[pairs[0].0] + pairs[0].1], pairs[1..])
  }

  /** The loop `for k, v in pairs: acc[k] = v`: the last writer of a slot wins. */
  function SetPairs(acc: seq<real>, pairs: TopicWeights): (r: seq<real>)
    requires InRange(pairs, |acc|)
    ensures |r| == |acc|
    ensures forall j :: 0 <= j < |acc| ==>
      r[j] == (if LastWeight(pairs, j).Some? then LastWeight(pairs, j).value else acc[j])
    decreases |pairs|
  {
    if |pairs| == 0 then acc
    else SetPairs(acc[pairs[0].0 := pairs[0].1], pairs[1..])
  }

  /** The extractor's pairs for several documents, concatenated in document order. */
  function PairsOf(m: TopicModel, docs: seq<string>): (pairs: TopicWeights)
    requires WellFormed(m)
    ensures InRange(pairs, m.numTopics)
  {
    if |docs| == 0 then []
    else m.get(docs[0]) + PairsOf(m, docs[1..])
  }
}

=== FILE: legacy_predict.dfy ===
/** `PredictStatsModel.predict` of vk-text-likeness/predict.py: three whole-wall counts taken
    over the prediction rows, classifying each row's user by membership in the member-id set
    and in the friend-id set, which may overlap. */
module LegacyPredict {

  /** One row of that generation's prediction frame (it has no `is_member` column). */
  datatype LegacyPrediction = LegacyPrediction(userId: int, postId: int, isLiked: bool, isReposted: bool)

  /** The three counts, in the order of the returned dict. */
  datatype Counts = Counts(directLikes: nat, reposts: nat, nonDirectLikes: nat)

  /** The counts of a prefix of rows, row by row, as the loop adds them. */
  function Tally(preds: seq<LegacyPrediction>, memberIds: set<int>, friendIds: set<int>): Counts
  {
    if |preds| == 0 then Counts(0, 0, 0)
    else Count(Tally(preds[..|preds| - 1], memberIds, friendIds), preds[|preds| - 1], memberIds, friendIds)
  }

  /** One pass of the loop body: the counters after looking at `row`. */
  function Count(c: Counts, row: LegacyPrediction, memberIds: set<int>, friendIds: set<int>): Counts
  {
    Counts(c.directLikes + (if row.isLiked && row.userId in memberIds then 1 else 0),
           c.reposts + (if row.isReposted && row.userId in memberIds then 1 else 0),
           c.nonDirectLikes + (if row.isLiked && row.userId in friendIds then 1 else 0))
  }

  lemma TallySnoc(preds: seq<LegacyPrediction>, row: LegacyPrediction, memberIds: set<int>, friendIds: set<int>)
    ensures Tally(preds + [row], memberIds, friendIds) == Count(Tally(preds, memberIds, friendIds), row, memberIds, friendIds)
  {
    assert (preds + [row])[..|preds|] == preds;
  }

  /** The loop of `predict`, returning the three-key dict. */
  method LegacyStats(preds: seq<LegacyPrediction>, memberIds: set<int>, friendIds: set<int>) returns (result: map<string, nat>)
    ensures result.Keys == {"direct_likes_count", "reposts_count", "non_direct_likes_count"}
    ensures result["direct_likes_count"] == Tally(preds, memberIds, friendIds).directLikes
    ensures result["reposts_count"] == Tally(preds, memberIds, friendIds).reposts
    ensures result["non_direct_likes_count"] == Tally(preds, memberIds, friendIds).nonDirectLikes
  {
    var directLikes, reposts, nonDirectLikes := 0, 0, 0;
    for i := 0 to |preds|
      invariant Tally(preds[..i], memberIds, friendIds) == Counts(directLikes, reposts, nonDirectLikes)
    {
      var row := preds[i];
      assert preds[..i + 1][..i] == preds[..i];
      if row.isLiked {
        if row.userId in memberIds { directLikes := directLikes + 1; }
        if row.userId in friendIds { nonDirectLikes := nonDirectLikes + 1; }
      }
      if row.isReposted {
        if row.userId in memberIds { reposts := reposts + 1; }
      }
    }
    assert preds[..|preds|] == preds;
    result := map["direct_likes_count" := directLikes, "reposts_count" := reposts, "non_direct_likes_count" := nonDirectLikes];
  }

  /** The three counters of `predict`. */
  datatype Counter = DirectLikes | Reposts | NonDirectLikes

  /** The test a row must pass to raise `c` by one. */
  predicate Counted(c: Counter, row: LegacyPrediction, memberIds: set<int>, friendIds: set<int>)
  {
    match c
    case DirectLikes => row.isLiked && row.userId in memberIds
    case Reposts => row.isReposted && row.userId in memberIds
    case NonDirectLikes => row.isLiked && row.userId in friendIds
  }

  /** The positions of the rows that raise `c`. */
  function CountedAt(preds: seq<LegacyPrediction>, c: Counter, memberIds: set<int>, friendIds: set<int>): set<int>
  {
    set i | 0 <= i < |preds| && Counted(c, preds[i], memberIds, friendIds)
  }

  /** The value of counter `c` in `counts`. */
  function Field(counts: Counts, c: Counter): nat
  {
    match c
    case DirectLikes => counts.directLikes
    case Reposts => counts.reposts
    case NonDirectLikes => counts.nonDirectLikes
  }

  /** Adding a row adds its position exactly when it passes the test. */
  lemma CountedAtSnoc(preds: seq<LegacyPrediction>, c: Counter, memberIds: set<int>, friendIds: set<int>)
    requires |preds| > 0
    ensures |CountedAt(preds, c, memberIds, friendIds)| ==
      |CountedAt(preds[..|preds| - 1], c, memberIds, friendIds)| + if Counted(c, preds[|preds| - 1], memberIds, friendIds) then 1 else 0
  {
    var init, n := preds[..|preds| - 1], |preds| - 1;
    var before, after := CountedAt(init, c, memberIds, friendIds), CountedAt(preds, c, memberIds, friendIds);
    assert forall i :: 0 <= i < n ==> init[i] == preds[i];
    assert forall i :: i in after <==> i in before || (i == n && Counted(c, preds[n], memberIds, friendIds));
    if Counted(c, preds[n], memberIds, friendIds) {
      assert n !in before;
      assert after == before + {n};
    } else {
      assert after == before;
    }
  }

  /** Each counter is the number of rows that pass its test: liked rows of members, reposted
      rows of members, and liked rows of users in the friend list. */
  lemma {:induction false} TallyCountsRows(preds: seq<LegacyPrediction>, c: Counter, memberIds: set<int>, friendIds: set<int>)
    ensures Field(Tally(preds, memberIds, friendIds), c) == |CountedAt(preds, c, memberIds, friendIds)|
  {
    if |preds| > 0 {
      TallyCountsRows(preds[..|preds| - 1], c, memberIds, friendIds);
      CountedAtSnoc(preds, c, memberIds, friendIds);
    }
  }

  /** The rows whose user is in at least one of the two sets. */
  function Known(preds: seq<LegacyPrediction>, memberIds: set<int>, friendIds: set<int>): (r: seq<LegacyPrediction>)
    ensures forall x :: x in r <==> x in preds && (x.userId in memberIds || x.userId in friendIds)
  {
    if |preds| == 0 then []
    else
      var rest := Known(preds[..|preds| - 1], memberIds, friendIds);
      var row := preds[|preds| - 1];
      assert forall x :: x in preds <==> x in preds[..|preds| - 1] || x == row;
      if row.userId in memberIds || row.userId in friendIds then rest + [row] else rest
  }

  lemma KnownSnoc(preds: seq<LegacyPrediction>, memberIds: set<int>, friendIds: set<int>)
    requires |preds| > 0
    ensures var init, row := preds[..|preds| - 1], preds[|preds| - 1];
      Known(preds, memberIds, friendIds) ==
      if row.userId in memberIds || row.userId in friendIds then Known(init, memberIds, friendIds) + [row]
      else Known(init, memberIds, friendIds)
  {
  }

  /** A user in neither set contributes nothing: only the known rows matter. */
  lemma {:induction false} OutsidersIgnored(preds: seq<LegacyPrediction>, memberIds: set<int>, friendIds: set<int>)
    ensures Tally(preds, memberIds, friendIds) == Tally(Known(preds, memberIds, friendIds), memberIds, friendIds)
  {
    if |preds| > 0 {
      var init := preds[..|preds| - 1];
      var row := preds[|preds| - 1];
      OutsidersIgnored(init, memberIds, friendIds);
      var k := Known(init, memberIds, friendIds);
      KnownSnoc(preds, memberIds, friendIds);
      if row.userId in memberIds || row.userId in friendIds {
        TallySnoc(k, row, memberIds, friendIds);
      }
    }
  }

  /** The rows of members only. */
  function MemberRows(preds: seq<LegacyPrediction>, memberIds: set<int>): (r: seq<LegacyPrediction>)
    ensures forall x :: x in r <==> x in preds && x.userId in memberIds
  {
    if |preds| == 0 then []
    else
      var rest := MemberRows(preds[..|preds| - 1], memberIds);
      var row := preds[|preds| - 1];
      assert forall x :: x in preds <==> x in preds[..|preds| - 1] || x == row;
      if row.userId in memberIds then rest + [row] else rest
  }

  lemma MemberRowsSnoc(preds: seq<LegacyPrediction>, memberIds: set<int>)
    requires |preds| > 0
    ensures var init, row := preds[..|preds| - 1], preds[|preds| - 1];
      MemberRows(preds, memberIds) ==
      if row.userId in memberIds then MemberRows(init, memberIds) + [row] else MemberRows(init, memberIds)
  {
  }

  /** Friend reposts are never counted: the repost count only sees member rows, and neither
      does the direct-like count. */
  lemma {:induction false} FriendRepostsIgnored(preds: seq<LegacyPrediction>, memberIds: set<int>, friendIds: set<int>)
    ensures Tally(preds, memberIds, friendIds).reposts == Tally(MemberRows(preds, memberIds), memberIds, friendIds).reposts
    ensures Tally(preds, memberIds, friendIds).directLikes == Tally(MemberRows(preds, memberIds), memberIds, friendIds).directLikes
  {
    if |preds| > 0 {
      var init := preds[..|preds| - 1];
      var row := preds[|preds| - 1];
      FriendRepostsIgnored(init, memberIds, friendIds);
      var k := MemberRows(init, memberIds);
      MemberRowsSnoc(preds, memberIds);
      if row.userId in memberIds {
        TallySnoc(k, row, memberIds, friendIds);
      }
    }
  }

  /** A liker who is both a member and in the friend list counts as a direct and a non-direct
      like. */
  lemma BothSetsCountedTwice(u: int, post: int)
    ensures Tally([LegacyPrediction(u, post, true, false)], {u}, {u}) == Counts(1, 0, 1)
  {
  }
}

=== FILE: legacy_users.dfy ===
/** The earlier user code: vk-text-likeness/users_data.py and vk-text-likeness/subscribers_data.py.
    Friends are a flat list, there is no `is_member` tag, the feature helpers index `sex` and
    `country` without a guard, and the topic vector lets the last group win. */
module LegacyUsers {
  import opened Wrappers
  import Frames
  import Text
  import LdaMaker
  import UsersData

  type User = UsersData.User

  /** All the friend lists, concatenated in member order. */
  function Concat(lists: seq<seq<User>>): (all: seq<User>)
    ensures |lists| > 0 ==> |all| >= |lists[0]| && all[..|lists[0]|] == lists[0]
    ensures |lists| == 1 ==> all == lists[0]
  {
    if |lists| == 0 then [] else lists[0] + Concat(lists[1..])
  }

  /** Concatenating two runs of lists concatenates their concatenations, so the lists come
      out whole and in order. */
  lemma {:induction false} ConcatAppend(a: seq<seq<User>>, b: seq<seq<User>>)
    ensures Concat(a + b) == Concat(a) + Concat(b)
  {
    if |a| == 0 {
      assert a + b == b;
    } else {
      assert (a + b)[0] == a[0] && (a + b)[1..] == a[1..] + b;
      ConcatAppend(a[1..], b);
    }
  }

  /** The users whose id is not a member id, in order. */
  function DropMembers(memberIds: set<int>, users: seq<User>): (kept: seq<User>)
    ensures forall x :: x in kept ==> x.id !in memberIds
    ensures forall x :: multiset(kept)[x] == if x.id in memberIds then 0 else multiset(users)[x]
    ensures |users| == 1 ==> kept == if users[0].id in memberIds then [] else users
  {
    SurvivorsCounts(memberIds, users);
    assert |users| == 1 ==> Survivors(memberIds, users[1..]) == [];
    Survivors(memberIds, users)
  }

  /** The walk of the filter loop: each user in turn, appended unless its id is a member id. */
  function Survivors(memberIds: set<int>, users: seq<User>): seq<User>
  {
    if |users| == 0 then []
    else (if users[0].id in memberIds then [] else [users[0]]) + Survivors(memberIds, users[1..])
  }

  lemma {:induction false} SurvivorsCounts(memberIds: set<int>, users: seq<User>)
    ensures forall x :: x in Survivors(memberIds, users) ==> x.id !in memberIds
    ensures forall x :: multiset(Survivors(memberIds, users))[x] == if x.id in memberIds then 0 else multiset(users)[x]
  {
    if |users| > 0 {
      SurvivorsCounts(memberIds, users[1..]);
      assert users == [users[0]] + users[1..];
    }
  }

  lemma {:induction false} SurvivorsAppend(memberIds: set<int>, a: seq<User>, b: seq<User>)
    ensures Survivors(memberIds, a + b) == Survivors(memberIds, a) + Survivors(memberIds, b)
  {
    if |a| == 0 {
      assert a + b == b;
    } else {
      assert (a + b)[0] == a[0] && (a + b)[1..] == a[1..] + b;
      SurvivorsAppend(memberIds, a[1..], b);
    }
  }

  /** The filter keeps order: filtering two lists one after the other filters each in turn. */
  lemma DropMembersAppend(memberIds: set<int>, a: seq<User>, b: seq<User>)
    ensures DropMembers(memberIds, a + b) == DropMembers(memberIds, a) + DropMembers(memberIds, b)
  {
    SurvivorsAppend(memberIds, a, b);
  }

  /** `_fetch_members_friends` of vk-text-likeness/users_data.py: every member's friends
      concatenated in member order, then every friend whose id equals a member id removed.
      Duplicate friends are kept; nothing is tagged. */
  function FilterFriends(members: seq<User>, responses: seq<seq<User>>): (friends: seq<User>)
    ensures forall x :: x in friends ==> x.id !in UsersData.Ids(members)
    ensures forall x :: multiset(friends)[x] ==
                          if x.id in UsersData.Ids(members) then 0 else multiset(Concat(responses))[x]
    ensures |responses| == 1 ==> friends == DropMembers(UsersData.Ids(members), responses[0])
  {
    DropMembers(UsersData.Ids(members), Concat(responses))
  }

  /** The friends come response by response, in member order: those of a run of responses
      are those of its front followed by those of its back. With the one-response case of
      `FilterFriends`, this fixes the whole list. */
  lemma FilterFriendsAppend(members: seq<User>, a: seq<seq<User>>, b: seq<seq<User>>)
    ensures FilterFriends(members, a + b) == FilterFriends(members, a) + FilterFriends(members, b)
  {
    ConcatAppend(a, b);
    DropMembersAppend(UsersData.Ids(members), Concat(a), Concat(b));
  }

  /** A friend returned for two members appears twice. */
  lemma DuplicateFriendKept(a: User, b: User, f: User)
    requires f.id != a.id && f.id != b.id
    ensures multiset(FilterFriends([a, b], [[f], [f]]))[f] == 2
  {
    assert Concat([[f], [f]]) == [f, f] by {
      assert [[f], [f]][1..] == [[f]];
      assert [[f]][1..] == [];
      assert Concat([[f]]) == [f] + Concat([]);
    }
    assert f.id !in UsersData.Ids([a, b]);
  }

  /** `_fetch_members_friends` of vk-text-likeness/subscribers_data.py: the friend lists
      concatenated with no filter at all. */
  function SubscriberFriends(responses: seq<seq<User>>): (friends: seq<User>)
    ensures forall i, j :: 0 <= i < |responses| && 0 <= j < |responses[i]| ==> responses[i][j] in friends
    ensures forall x :: x in friends ==> exists i :: 0 <= i < |responses| && x in responses[i]
    ensures |responses| > 0 ==> |friends| >= |responses[0]| && friends[..|responses[0]|] == responses[0]
    ensures |responses| == 1 ==> friends == responses[0]
  {
    ConcatMembers(responses);
    Concat(responses)
  }

  /** Every response is appended whole, in member order: the friends of a run of responses are
      those of its front followed by those of its back. */
  lemma SubscriberFriendsAppend(a: seq<seq<User>>, b: seq<seq<User>>)
    ensures SubscriberFriends(a + b) == SubscriberFriends(a) + SubscriberFriends(b)
  {
    ConcatAppend(a, b);
  }

  /** A friend returned for two members is listed twice, and members' responses keep their
      order. */
  lemma SubscriberDuplicateKept(f: User, g: User)
    ensures SubscriberFriends([[f], [g, f]]) == [f, g, f]
  {
    SubscriberFriendsAppend([[f]], [[g, f]]);
    assert [[f]] + [[g, f]] == [[f], [g, f]];
  }

  lemma {:induction false} ConcatMembers(lists: seq<seq<User>>)
    ensures forall i, j :: 0 <= i < |lists| && 0 <= j < |lists[i]| ==> lists[i][j] in Concat(lists)
    ensures forall x :: x in Concat(lists) ==> exists i :: 0 <= i < |lists| && x in lists[i]
  {
    if |lists| > 0 {
      var rest := lists[1..];
      ConcatMembers(rest);
      assert Concat(lists) == lists[0] + Concat(rest);
      forall i, j | 0 <= i < |lists| && 0 <= j < |lists[i]| ensures lists[i][j] in Concat(lists) {
        if i > 0 {
          assert lists[i] == rest[i - 1];
          assert lists[i][j] in Concat(rest);
        }
      }
      forall x | x in Concat(lists) ensures exists i :: 0 <= i < |lists| && x in lists[i] {
        if x !in lists[0] {
          assert x in Concat(rest);
          var i :| 0 <= i < |rest| && x in rest[i];
          assert lists[i + 1] == rest[i];
        }
      }
    }
  }

  /** A member who is also a friend of another member stays in the subscribers' friend list. */
  lemma SubscriberFriendsKeepMembers(a: User, b: User)
    ensures b in SubscriberFriends([[b], []]) && b in [a, b]
  {
    assert [[b], []][0][0] == b;
  }

  /** What `_find_user` returns: the record and whether it was found among the members. */
  datatype Found = Found(user: User, isMember: bool)

  /** `_find_user`: members first, then the flat friend list. */
  function FindUser(members: seq<User>, friends: seq<User>, id: int): (r: Option<Found>)
    ensures r.Some? ==> r.value.user.id == id
    ensures r.Some? && r.value.isMember <==> id in UsersData.Ids(members)
    ensures r.Some? && !r.value.isMember <==> id !in UsersData.Ids(members) && id in UsersData.Ids(friends)
    ensures r.None? <==> id !in UsersData.Ids(members) && id !in UsersData.Ids(friends)
    ensures r.Some? && r.value.isMember ==> Some(r.value.user) == UsersData.FindIn(members, id)
    ensures r.Some? && !r.value.isMember ==> Some(r.value.user) == UsersData.FindIn(friends, id)
  {
    var m := UsersData.FindIn(members, id);
    if m.Some? then Some(Found(m.value, true))
    else
      var f := UsersData.FindIn(friends, id);
      if f.Some? then Some(Found(f.value, false)) else None
  }

  /** The users `get_all` tabulates: members then friends, each part only if its flag is set. */
  function Selection(members: seq<User>, friends: seq<User>, doMembers: bool, doMemberFriends: bool): (users: seq<User>)
    ensures |users| == (if doMembers then |members| else 0) + (if doMemberFriends then |friends| else 0)
    ensures forall i :: 0 <= i < OffsetOfFriends(members, doMembers) ==> users[i] == members[i]
    ensures forall i :: OffsetOfFriends(members, doMembers) <= i < |users| ==>
      users[i] == friends[i - OffsetOfFriends(members, doMembers)]
    ensures !doMembers && doMemberFriends ==> users == friends
  {
    (if doMembers then members else []) + (if doMemberFriends then friends else [])
  }

  /** The age cell: NaN unless `bdate` splits into exactly three parts. */
  function LegacyAge(u: User, currentYear: int): (c: Frames.Cell)
    requires UsersData.AgeParses(u)
    ensures c == Frames.NaN <==> u.bdate.None? || Text.Count(u.bdate.value, '.') != 2
    ensures c != Frames.NaN ==> c == Frames.I(UsersData.UserAge(u, currentYear))
  {
    if u.bdate.Some? && |Text.Split(u.bdate.value, '.')| == 3 then Frames.I(UsersData.UserAge(u, currentYear))
    else Frames.NaN
  }

  /** The groups all have a description (the old code indexes it without a guard). */
  predicate AllDescribed(groups: seq<UsersData.Group>)
  {
    forall i :: 0 <= i < |groups| ==> groups[i].description.Some?
  }

  /** `_user_lda_by_groups` of the earlier code: `row[k] = v` for every pair of every group,
      so the last group to mention a topic wins and untouched topics stay 0. */
  function OverwriteTopics(m: LdaMaker.TopicModel, groups: seq<UsersData.Group>): (v: seq<real>)
    requires LdaMaker.WellFormed(m)
    ensures |v| == m.numTopics
    ensures forall j :: 0 <= j < m.numTopics ==>
      var w := LdaMaker.LastWeight(LdaMaker.PairsOf(m, UsersData.Descriptions(groups)), j);
      v[j] == if w.Some? then w.value else 0.0
  {
    LdaMaker.SetPairs(LdaMaker.Zeros(m.numTopics), LdaMaker.PairsOf(m, UsersData.Descriptions(groups)))
  }

  /** When a later group rewrites a topic, its weight replaces the earlier one. */
  lemma LastGroupWins(m: LdaMaker.TopicModel)
    requires LdaMaker.WellFormed(m) && m.numTopics == 2
    requires m.get("a") == [(0, 0.5)] && m.get("b") == [(0, 0.25)]
    ensures OverwriteTopics(m, [UsersData.Group(Some("a")), UsersData.Group(Some("b"))]) == [0.25, 0.0]
  {
    var groups := [UsersData.Group(Some("a")), UsersData.Group(Some("b"))];
    assert UsersData.Descriptions(groups[1..][1..]) == [];
    assert UsersData.Descriptions(groups[1..]) == ["b"];
    assert UsersData.Descriptions(groups) == ["a", "b"];
    var docs := ["a", "b"];
    assert LdaMaker.PairsOf(m, docs[1..][1..]) == [];
    assert LdaMaker.PairsOf(m, docs[1..]) == [(0, 0.25)];
    var pairs := LdaMaker.PairsOf(m, docs);
    assert pairs == [(0, 0.5), (0, 0.25)];
    var tail: LdaMaker.TopicWeights := pairs[1..];
    assert tail == [(0, 0.25)] && tail[1..] == [];
    assert LdaMaker.LastWeight(tail, 0) == Some(0.25);
    assert LdaMaker.LastWeight(tail, 1) == None;
    assert LdaMaker.LastWeight(pairs, 0) == Some(0.25);
    assert LdaMaker.LastWeight(pairs, 1) == None;
  }

  /** `get_row` of vk-text-likeness/users_data.py. The cells are evaluated left to right, so the
      first missing key raises: `sex`, then `country`, then `groups`, then a group's
      `description`. */
  function LegacyRow(m: LdaMaker.TopicModel, currentYear: int, u: User): (r: Result<seq<Frames.Cell>, Fault>)
    requires LdaMaker.WellFormed(m)
    requires UsersData.AgeParses(u)
    ensures r.Success? <==> u.sex.Some? && u.country.Some? && u.groups.Some? && AllDescribed(u.groups.value)
    ensures u.sex.None? ==> r == Failure(KeyError("sex"))
    ensures u.sex.Some? && u.country.None? ==> r == Failure(KeyError("country"))
    ensures r.Success? ==> |r.value| == 7 + m.numTopics
    ensures r.Success? ==> (r.value[0] == Frames.B(true) <==> u.sex == Some(1))
    ensures r.Success? ==> (r.value[1] == Frames.B(true) <==> u.sex == Some(2))
    ensures r.Success? ==> r.value[2] == LegacyAge(u, currentYear)
    ensures r.Success? ==> forall a, b :: 3 <= a < b < 7 ==> !(r.value[a] == Frames.B(true) && r.value[b] == Frames.B(true))
    ensures r.Success? ==> forall c :: 1 <= c <= 4 ==> (r.value[2 + c] == Frames.B(true) <==> u.country == Some(c))
    ensures r.Success? ==> forall j :: 0 <= j < m.numTopics ==>
      r.value[7 + j] == Frames.R(OverwriteTopics(m, u.groups.value)[j])
  {
    if u.sex.None? then Failure(KeyError("sex"))
    else if u.country.None? then Failure(KeyError("country"))
    else if u.groups.None? then Failure(KeyError("groups"))
    else if !AllDescribed(u.groups.value) then Failure(KeyError("description"))
    else
      var topics := OverwriteTopics(m, u.groups.value);
      Success([Frames.B(u.sex == Some(1)), Frames.B(u.sex == Some(2)), LegacyAge(u, currentYear),
               Frames.B(u.country == Some(1)), Frames.B(u.country == Some(2)),
               Frames.B(u.country == Some(3)), Frames.B(u.country == Some(4))]
              + seq(m.numTopics, j requires 0 <= j < m.numTopics => Frames.R(topics[j])))
  }

  /** `_get_row` of vk-text-likeness/subscribers_data.py: the same layout and the same
      unguarded lookups as the users table of that generation. */
  function SubscriberRow(m: LdaMaker.TopicModel, currentYear: int, u: User): (r: Result<seq<Frames.Cell>, Fault>)
    requires LdaMaker.WellFormed(m)
    requires UsersData.AgeParses(u)
    ensures r.Success? <==> u.sex.Some? && u.country.Some? && u.groups.Some? && AllDescribed(u.groups.value)
    ensures u.sex.None? ==> r == Failure(KeyError("sex"))
    ensures u.sex.Some? && u.country.None? ==> r == Failure(KeyError("country"))
    ensures r.Success? ==> |r.value| == 7 + m.numTopics
    ensures r.Success? ==> (r.value[0] == Frames.B(true) <==> u.sex == Some(1))
    ensures r.Success? ==> (r.value[1] == Frames.B(true) <==> u.sex == Some(2))
    ensures r.Success? ==> r.value[2] == LegacyAge(u, currentYear)
    ensures r.Success? ==> forall a, b :: 3 <= a < b < 7 ==> !(r.value[a] == Frames.B(true) && r.value[b] == Frames.B(true))
    ensures r.Success? ==> forall c :: 1 <= c <= 4 ==> (r.value[2 + c] == Frames.B(true) <==> u.country == Some(c))
    ensures r.Success? ==> forall j :: 0 <= j < m.numTopics ==>
      r.value[7 + j] == Frames.R(OverwriteTopics(m, u.groups.value)[j])
  {
    LegacyRow(m, currentYear, u)
  }

  /** A frame: its rows and its index. */
  datatype Frame = Frame(rows: seq<seq<Frames.Cell>>, index: seq<int>)

  /** The rows of the given users, in order; the first failing row raises. */
  function RowsFor(m: LdaMaker.TopicModel, currentYear: int, users: seq<User>): (r: Result<Frame, Fault>)
    requires LdaMaker.WellFormed(m)
    requires forall u :: u in users ==> UsersData.AgeParses(u)
    ensures r.Success? <==> forall u :: u in users ==> LegacyRow(m, currentYear, u).Success?
    ensures r.Success? ==> |r.value.rows| == |users| == |r.value.index|
    ensures r.Success? ==> forall i :: 0 <= i < |users| ==>
      r.value.index[i] == users[i].id && r.value.rows[i] == LegacyRow(m, currentYear, users[i]).value
  {
    var results := seq(|users|, i requires 0 <= i < |users| => LegacyRow(m, currentYear, users[i]));
    var ids := seq(|users|, i requires 0 <= i < |users| => users[i].id);
    assert forall i :: 0 <= i < |users| ==> results[i] == LegacyRow(m, currentYear, users[i]) && ids[i] == users[i].id;
    EveryRowSucceeds(m, currentYear, users, results);
    Collect(results, ids)
  }

  /** Every position's row succeeds exactly when every user's row does. */
  lemma EveryRowSucceeds(m: LdaMaker.TopicModel, currentYear: int, users: seq<User>,
                         results: seq<Result<seq<Frames.Cell>, Fault>>)
    requires LdaMaker.WellFormed(m)
    requires forall u :: u in users ==> UsersData.AgeParses(u)
    requires |results| == |users|
    requires forall i :: 0 <= i < |users| ==> results[i] == LegacyRow(m, currentYear, users[i])
    ensures (forall i :: 0 <= i < |results| ==> results[i].Success?) <==>
            (forall u :: u in users ==> LegacyRow(m, currentYear, u).Success?)
  {
    if forall i :: 0 <= i < |results| ==> results[i].Success? {
      forall u | u in users
        ensures LegacyRow(m, currentYear, u).Success?
      {
        var i :| 0 <= i < |users| && users[i] == u;
        assert results[i].Success?;
      }
    }
  }

  /** A block of consecutive users, when it is selected, gets its rows and ids at the same
      positions of the frame. */
  lemma RowsForBlock(m: LdaMaker.TopicModel, currentYear: int, users: seq<User>, at: nat, block: seq<User>, selected: bool)
    requires LdaMaker.WellFormed(m)
    requires forall u :: u in users ==> UsersData.AgeParses(u)
    requires selected ==> at + |block| <= |users| && forall i :: at <= i < at + |block| ==> users[i] == block[i - at]
    ensures selected && RowsFor(m, currentYear, users).Success? ==>
      RowsAt(m, currentYear, RowsFor(m, currentYear, users).value, at, block)
  {
    if selected {
      assert forall k :: 0 <= k < |block| ==> users[at + k] == block[k];
    }
  }

  /** `f` holds the rows and ids of `block`, in order, starting at position `at`. */
  predicate RowsAt(m: LdaMaker.TopicModel, currentYear: int, f: Frame, at: nat, block: seq<User>)
    requires LdaMaker.WellFormed(m)
  {
    at + |block| <= |f.rows| && at + |block| <= |f.index| &&
    forall k :: 0 <= k < |block| ==>
      UsersData.AgeParses(block[k]) && LegacyRow(m, currentYear, block[k]).Success? &&
      f.index[at + k] == block[k].id && f.rows[at + k] == LegacyRow(m, currentYear, block[k]).value
  }

  /** The rows of a frame built one user at a time: the first failure raises, and otherwise
      the rows and index line up with the results. */
  function Collect(results: seq<Result<seq<Frames.Cell>, Fault>>, ids: seq<int>): (r: Result<Frame, Fault>)
    requires |results| == |ids|
    ensures r.Success? <==> forall i :: 0 <= i < |results| ==> results[i].Success?
    ensures r.Success? ==> |r.value.rows| == |results| == |r.value.index|
    ensures r.Success? ==> forall i :: 0 <= i < |results| ==>
      r.value.index[i] == ids[i] && r.value.rows[i] == results[i].value
  {
    if |results| == 0 then Success(Frame([], []))
    else
      var tail := Collect(results[1..], ids[1..]);
      if results[0].Failure? then Failure(results[0].error)
      else if tail.Failure? then Failure(tail.error)
      else Success(Frame([results[0].value] + tail.value.rows, [ids[0]] + tail.value.index))
  }

  /** `get_all`: the selected users' rows, indexed by their ids in the same order; the first
      user whose row raises makes the whole call raise. */
  function GetAll(m: LdaMaker.TopicModel, currentYear: int, members: seq<User>, friends: seq<User>,
                  doMembers: bool, doMemberFriends: bool): (r: Result<Frame, Fault>)
    requires LdaMaker.WellFormed(m)
    requires forall u :: u in members ==> UsersData.AgeParses(u)
    requires forall u :: u in friends ==> UsersData.AgeParses(u)
    ensures r.Success? <==> forall u :: u in Selection(members, friends, doMembers, doMemberFriends) ==>
                              LegacyRow(m, currentYear, u).Success?
    ensures r.Success? ==> |r.value.rows| == |r.value.index| ==
                           (if doMembers then |members| else 0) + (if doMemberFriends then |friends| else 0)
    ensures r.Success? && doMembers ==> RowsAt(m, currentYear, r.value, 0, members)
    ensures r.Success? && doMemberFriends ==> RowsAt(m, currentYear, r.value, OffsetOfFriends(members, doMembers), friends)
  {
    SelectionParses(members, friends, doMembers, doMemberFriends);
    MembersRows(m, currentYear, members, friends, doMembers, doMemberFriends);
    FriendsRows(m, currentYear, members, friends, doMembers, doMemberFriends);
    RowsFor(m, currentYear, Selection(members, friends, doMembers, doMemberFriends))
  }

  /** With the members selected, their rows open the frame. */
  lemma MembersRows(m: LdaMaker.TopicModel, currentYear: int, members: seq<User>, friends: seq<User>,
                    doMembers: bool, doMemberFriends: bool)
    requires LdaMaker.WellFormed(m)
    requires forall u :: u in members ==> UsersData.AgeParses(u)
    requires forall u :: u in friends ==> UsersData.AgeParses(u)
    ensures forall u :: u in Selection(members, friends, doMembers, doMemberFriends) ==> UsersData.AgeParses(u)
    ensures RowsFor(m, currentYear, Selection(members, friends, doMembers, doMemberFriends)).Success? && doMembers ==>
      RowsAt(m, currentYear, RowsFor(m, currentYear, Selection(members, friends, doMembers, doMemberFriends)).value, 0, members)
  {
    SelectionParses(members, friends, doMembers, doMemberFriends);
    RowsForBlock(m, currentYear, Selection(members, friends, doMembers, doMemberFriends), 0, members, doMembers);
  }

  /** With the friends selected, their rows follow the members' (or open the frame). */
  lemma FriendsRows(m: LdaMaker.TopicModel, currentYear: int, members: seq<User>, friends: seq<User>,
                    doMembers: bool, doMemberFriends: bool)
    requires LdaMaker.WellFormed(m)
    requires forall u :: u in members ==> UsersData.AgeParses(u)
    requires forall u :: u in friends ==> UsersData.AgeParses(u)
    ensures forall u :: u in Selection(members, friends, doMembers, doMemberFriends) ==> UsersData.AgeParses(u)
    ensures RowsFor(m, currentYear, Selection(members, friends, doMembers, doMemberFriends)).Success? && doMemberFriends ==>
      RowsAt(m, currentYear, RowsFor(m, currentYear, Selection(members, friends, doMembers, doMemberFriends)).value,
             OffsetOfFriends(members, doMembers), friends)
  {
    SelectionParses(members, friends, doMembers, doMemberFriends);
    RowsForBlock(m, currentYear, Selection(members, friends, doMembers, doMemberFriends),
                 OffsetOfFriends(members, doMembers), friends, doMemberFriends);
  }

  /** Every selected user's `bdate` parses when the members' and the friends' do. */
  lemma SelectionParses(members: seq<User>, friends: seq<User>, doMembers: bool, doMemberFriends: bool)
    requires forall u :: u in members ==> UsersData.AgeParses(u)
    requires forall u :: u in friends ==> UsersData.AgeParses(u)
    ensures forall u :: u in Selection(members, friends, doMembers, doMemberFriends) ==> UsersData.AgeParses(u)
  {
  }

  /** Where the friends' block starts in the selection: after the members, if they are selected. */
  function OffsetOfFriends(members: seq<User>, doMembers: bool): nat
  {
    if doMembers then |members| else 0
  }


}

=== FILE: memo.dfy ===
/** The `cache_by_entity_id` decorator (vk_text_likeness/tools.py). */
module Memo {
  import Dedup

  /** One call of a decorated function: its leading positional arguments (`self` first),
      which the cache ignores, and the `id` of its last positional argument. */
  datatype Call<A> = Call(leading: seq<A>, entityId: int)

  /** The result of one call: the value returned, the cache afterwards, and whether the
      wrapped function itself ran. */
  datatype Outcome<V> = Outcome(value: V, cache: map<int, V>, ran: bool)

  /** One call through the decorator. `computed` is what the wrapped function would return if it
      ran now; the decorator only asks for it on a miss. The cache is the single dict created
      when the function was decorated, so every instance of the class shares it. */
  function Invoke<A, V>(cache: map<int, V>, call: Call<A>, computed: V): (o: Outcome<V>)
    ensures o.ran <==> call.entityId !in cache
    ensures o.cache.Keys == cache.Keys + {call.entityId}
    ensures forall id :: id in cache ==> o.cache[id] == cache[id]
    ensures o.value == o.cache[call.entityId]
    ensures o.ran ==> o.value == computed
  {
    if call.entityId in cache then Outcome(cache[call.entityId], cache, false)
    else Outcome(computed, cache[call.entityId := computed], true)
  }

  /** A run of several calls: the values returned, the final cache, and the ids for which the
      wrapped function ran, in order. */
  datatype Trace<V> = Trace(values: seq<V>, cache: map<int, V>, ran: seq<int>)

  function CallId<A, V>(c: (Call<A>, V)): int { c.0.entityId }

  /** The ids of a sequence of calls. */
  function CallIds<A, V>(calls: seq<(Call<A>, V)>): set<int>
  {
    Dedup.Keys(calls, CallId)
  }

  /** Each call paired with the value the wrapped function would return for it, in order. */
  function Replay<A, V>(cache: map<int, V>, calls: seq<(Call<A>, V)>): (t: Trace<V>)
    decreases |calls|
    ensures |t.values| == |calls|
    ensures t.cache.Keys == cache.Keys + CallIds(calls)
    ensures forall id :: id in cache ==> t.cache[id] == cache[id]
  {
    if |calls| == 0 then Trace([], cache, [])
    else
      var o := Invoke(cache, calls[0].0, calls[0].1);
      var t := Replay(o.cache, calls[1..]);
      Dedup.KeysCons(calls, CallId);
      Trace([o.value] + t.values, t.cache, (if o.ran then [calls[0].0.entityId] else []) + t.ran)
  }

  /** Every call returns the value the final cache holds for its id. */
  lemma {:induction false} ReplayValues<A, V>(cache: map<int, V>, calls: seq<(Call<A>, V)>)
    ensures var t := Replay(cache, calls);
      forall i :: 0 <= i < |calls| ==> t.values[i] == t.cache[calls[i].0.entityId]
    decreases |calls|
  {
    if |calls| > 0 {
      var o := Invoke(cache, calls[0].0, calls[0].1);
      var t := Replay(o.cache, calls[1..]);
      ReplayValues(o.cache, calls[1..]);
      var r := Replay(cache, calls);
      assert r.values == [o.value] + t.values && r.cache == t.cache;
      forall i | 0 <= i < |calls| ensures r.values[i] == r.cache[calls[i].0.entityId] {
        if i > 0 {
          assert calls[i] == calls[1..][i - 1] && r.values[i] == t.values[i - 1];
        }
      }
    }
  }

  /** The wrapped function runs for exactly the ids the cache did not hold. */
  lemma {:induction false} RanIds<A, V>(cache: map<int, V>, calls: seq<(Call<A>, V)>)
    ensures forall id :: id in Replay(cache, calls).ran <==> id in CallIds(calls) && id !in cache
    decreases |calls|
  {
    if |calls| > 0 {
      var o := Invoke(cache, calls[0].0, calls[0].1);
      RanIds(o.cache, calls[1..]);
      Dedup.KeysCons(calls, CallId);
    }
  }

  predicate Distinct(xs: seq<int>)
  {
    forall i, j :: 0 <= i < j < |xs| ==> xs[i] != xs[j]
  }

  /** ... and never twice for one id. */
  lemma {:induction false} RanUnique<A, V>(cache: map<int, V>, calls: seq<(Call<A>, V)>)
    ensures Distinct(Replay(cache, calls).ran)
    decreases |calls|
  {
    if |calls| > 0 {
      var id0 := calls[0].0.entityId;
      var next := Invoke(cache, calls[0].0, calls[0].1).cache;
      var rest := Replay(next, calls[1..]).ran;
      RanCons(cache, calls);
      RanUnique(next, calls[1..]);
      if id0 !in cache {
        RanIds(next, calls[1..]);
        DistinctCons(id0, rest);
      }
    }
  }

  lemma RanCons<A, V>(cache: map<int, V>, calls: seq<(Call<A>, V)>)
    requires |calls| > 0
    ensures var id0 := calls[0].0.entityId;
      var next := Invoke(cache, calls[0].0, calls[0].1).cache;
      id0 in next &&
      Replay(cache, calls).ran == (if id0 in cache then [] else [id0]) + Replay(next, calls[1..]).ran
  {
  }

  lemma DistinctCons(x: int, xs: seq<int>)
    requires Distinct(xs) && x !in xs
    ensures Distinct([x] + xs)
  {
    var ys := [x] + xs;
    forall i, j | 0 <= i < j < |ys| ensures ys[i] != ys[j] {
      assert ys[j] == xs[j - 1];
      if i > 0 { assert ys[i] == xs[i - 1]; }
    }
  }

  /** The wrapped function runs at most once per distinct entity id: exactly once for each
      id the cache did not hold. */
  lemma RunsOncePerId<A, V>(cache: map<int, V>, calls: seq<(Call<A>, V)>)
    ensures |Replay(cache, calls).ran| == |CallIds(calls) - cache.Keys|
  {
    var ran := Replay(cache, calls).ran;
    RanIds(cache, calls);
    RanUnique(cache, calls);
    UniqueCard(ran);
    assert (set x | x in ran) == CallIds(calls) - cache.Keys;
  }

  lemma {:induction false} UniqueCard(xs: seq<int>)
    requires Distinct(xs)
    ensures |set x | x in xs| == |xs|
  {
    if |xs| > 0 {
      var last := xs[|xs| - 1];
      var front := xs[..|xs| - 1];
      UniqueCard(front);
      assert xs == front + [last];
      assert (set x | x in xs) == (set x | x in front) + {last};
      assert last !in front;
    }
  }

  /** A new id keeps the value computed by its FIRST call; every later call with that id
      returns it, whatever the wrapped function would have returned then. */
  lemma {:induction false} FirstCallWins<A, V>(cache: map<int, V>, calls: seq<(Call<A>, V)>, id: int)
    requires id in CallIds(calls) && id !in cache
    ensures Replay(cache, calls).cache[id] == calls[Dedup.FirstIndex(calls, CallId, id)].1
    decreases |calls|
  {
    var o := Invoke(cache, calls[0].0, calls[0].1);
    Dedup.KeysCons(calls, CallId);
    if calls[0].0.entityId != id {
      FirstCallWins(o.cache, calls[1..], id);
      FirstIndexTail(calls, id);
    }
  }

  lemma FirstIndexTail<A, V>(calls: seq<(Call<A>, V)>, id: int)
    requires id in CallIds(calls) && CallId(calls[0]) != id
    ensures id in CallIds(calls[1..])
    ensures calls[Dedup.FirstIndex(calls, CallId, id)] == calls[1..][Dedup.FirstIndex(calls[1..], CallId, id)]
  {
    Dedup.KeysCons(calls, CallId);
  }

  /** The cache key is only the last argument's id: calls that differ in `self` or any other
      leading argument return the same values and leave the same cache. */
  lemma {:induction false} LeadingArgsIgnored<A, V>(cache: map<int, V>, calls: seq<(Call<A>, V)>, other: seq<(Call<A>, V)>)
    requires |other| == |calls|
    requires forall i :: 0 <= i < |calls| ==> other[i].0.entityId == calls[i].0.entityId && other[i].1 == calls[i].1
    ensures Replay(cache, other) == Replay(cache, calls)
    decreases |calls|
  {
    if |calls| > 0 {
      var o := Invoke(cache, calls[0].0, calls[0].1);
      LeadingArgsIgnored(o.cache, calls[1..], other[1..]);
    }
  }
}

=== FILE: orchestrator.dfy ===
/** The `GroupPredict` constructor of vk_text_likeness/predict_main.py and of the earlier
    vk_text_likeness/predict.py, as a state machine over the checkpoint files. Each stage
    loads its artifacts and recomputes (fetching or fitting) only when the checkpoint is
    missing, then saves what it computed. Fetching, fitting and the groups-error flag are
    inputs; `exit(1)` and an escaping exception are absorbing states. */
module Orchestrator {
  import opened Wrappers
  import Text
  import Checkpoint

  type Blob = Checkpoint.Blob
  type Files = Checkpoint.Files

  /** The pickled artifacts. */
  datatype Artifact = Members | MemberFriends | Posts | UserLda | WallLda | LikeModel | RepostModel

  /** The checkpoint name of each artifact. */
  function Name(a: Artifact): (n: string)
  {
    match a
    case Members => "raw_users_data.members"
    case MemberFriends => "raw_users_data.member_friends"
    case Posts => "raw_wall_data.posts"
    case UserLda => "table_users_data.lda_maker"
    case WallLda => "table_wall_data.lda_maker"
    case LikeModel => "predict_action_model.like_model"
    case RepostModel => "predict_action_model.repost_model"
  }

  /** The checkpoint file of an artifact for one group. */
  function FileOf(gid: nat, a: Artifact): Checkpoint.Path
  {
    Checkpoint.Path(Name(a), gid)
  }

  /** Distinct artifacts of one group never share a checkpoint file name. */
  lemma FilesDistinct(gid: nat, a: Artifact, b: Artifact)
    requires a != b
    ensures FileOf(gid, a) != FileOf(gid, b)
    ensures Checkpoint.FileName(Name(a), gid) != Checkpoint.FileName(Name(b), gid)
  {
    Checkpoint.FileNameParts(Name(a), gid);
    Checkpoint.FileNameParts(Name(b), gid);
    assert |Name(a)| != |Name(b)|;
  }

  /** The `_init_*` steps. */
  datatype Stage = RawUsers | RawWall | RawUsersMore | TableUsers | TableWall | Actions | ActionModel | StatsModel

  datatype Generation = Current | Earlier

  /** The order the constructor calls the steps in. */
  function Stages(g: Generation): (s: seq<Stage>)
    ensures g == Current ==> |s| == 8 && s[2] == RawUsersMore
    ensures g == Earlier ==> |s| == 7 && RawUsersMore !in s
    ensures s[0] == RawUsers && s[|s| - 2] == ActionModel && s[|s| - 1] == StatsModel
  {
    match g
    case Current => [RawUsers, RawWall, RawUsersMore, TableUsers, TableWall, Actions, ActionModel, StatsModel]
    case Earlier => [RawUsers, TableUsers, RawWall, TableWall, Actions, ActionModel, StatsModel]
  }

  /** The refit test of the action-model step: as written, `like_model is None or
      repost_model`; as evidently intended, refit when either model is missing. */
  datatype RefitRule = AsWritten | Intended

  predicate Refit(rule: RefitRule, like: Option<Blob>, repost: Option<Blob>)
  {
    match rule
    case AsWritten => like.None? || repost.Some?
    case Intended => like.None? || repost.None?
  }

  /** The container the fetch leaves the friend lists in. As written it is a
      `defaultdict(lambda: [])`, whose lambda `pickle.dump` cannot serialise; a plain dict (or a
      named default factory) pickles. */
  datatype FriendsDict = LambdaDefaultDict | PicklableDict

  /** What the constructor cannot see: the group, what each computation produces, the
      groups-error flag before and after `fetch_more`, the refit rule in force, and the
      container of the friend lists. */
  datatype Env = Env(gid: nat, produce: (Stage, Artifact) -> Blob, groupsErrorBefore: bool, groupsErrorAfter: bool,
                     rule: RefitRule, friends: FriendsDict)

  /** Whether `pickle.dump` can serialise the artifact; only the friend lists in a lambda
      `defaultdict` cannot. */
  predicate Picklable(env: Env, a: Artifact)
  {
    a != MemberFriends || env.friends == PicklableDict
  }

  datatype Event = Enter(stage: Stage) | Compute(stage: Stage)

  datatype Status = Running | Exited(code: int) | Raised

  /** The files, the outcomes of the saves still to come (a save past the end completes), the
      artifacts in memory, the log of steps, and whether the process is still running. */
  datatype State = State(files: Files, faults: seq<Checkpoint.WriteFault>, mem: map<Artifact, Option<Blob>>,
                         log: seq<Event>, status: Status)

  function Loaded(env: Env, files: Files, a: Artifact): Option<Blob>
  {
    Checkpoint.Load(files, FileOf(env.gid, a))
  }

  /** One `_save_pickle` call; an escaping exception stops the process. A dump the file
      system would accept still raises (a pickling error, not an `IOError`) when the artifact
      cannot be pickled. */
  function SaveArt(env: Env, st: State, a: Artifact, blob: Blob): (r: State)
    ensures r.log == st.log && r.mem == st.mem
    ensures st.status != Running ==> r == st
    ensures forall b :: b != a ==> Loaded(env, r.files, b) == Loaded(env, st.files, b)
    ensures st.status == Running && st.faults == [] && Picklable(env, a) ==>
      r.status == Running && r.faults == [] && Loaded(env, r.files, a) == Some(blob)
    ensures st.status == Running && st.faults == [] && !Picklable(env, a) ==>
      r.status == Raised && r.faults == [] && Loaded(env, r.files, a) == None
  {
    if st.status != Running then st
    else
      var planned := if |st.faults| == 0 then Checkpoint.Written else st.faults[0];
      var fault := if planned == Checkpoint.Written && !Picklable(env, a) then Checkpoint.DumpRaised else planned;
      var s := Checkpoint.Save(st.files, FileOf(env.gid, a), blob, fault);
      forall b | b != a ensures Loaded(env, s.files, b) == Loaded(env, st.files, b) {
        FilesDistinct(env.gid, a, b);
        Checkpoint.SaveFrame(st.files, FileOf(env.gid, a), blob, fault, FileOf(env.gid, b));
      }
      st.(files := s.files, faults := if |st.faults| == 0 then [] else st.faults[1..],
          status := if s.raised then Raised else Running)
  }

  /** Whether step `s` recomputes, given the files it finds. */
  predicate Ran(env: Env, g: Generation, s: Stage, files: Files)
  {
    match s
    case RawUsers =>
      Loaded(env, files, Members).None? || (g == Earlier && Loaded(env, files, MemberFriends).None?)
    case RawWall => Loaded(env, files, Posts).None?
    case RawUsersMore => Loaded(env, files, MemberFriends).None? || env.groupsErrorBefore
    case TableUsers => Loaded(env, files, UserLda).None?
    case TableWall => Loaded(env, files, WallLda).None?
    case Actions => false
    case ActionModel => Refit(env.rule, Loaded(env, files, LikeModel), Loaded(env, files, RepostModel))
    case StatsModel => false
  }

  /** Whether step `s` recomputes and then tries to save friend lists that cannot be pickled. */
  predicate PickleFails(env: Env, g: Generation, s: Stage, files: Files)
  {
    env.friends == LambdaDefaultDict && Ran(env, g, s, files) && MemberFriends in Handles(g, s)
  }

  /** The artifacts step `s` loads, and saves when it recomputes. */
  function Handles(g: Generation, s: Stage): set<Artifact>
  {
    match s
    case RawUsers => if g == Current then {Members} else {Members, MemberFriends}
    case RawWall => {Posts}
    case RawUsersMore => {Members, MemberFriends}
    case TableUsers => {UserLda}
    case TableWall => {WallLda}
    case Actions => {}
    case ActionModel => {LikeModel, RepostModel}
    case StatsModel => {}
  }

  /** The artifacts whose checkpoint step `s` leaves readable when its saves complete: the
      friends step reloads only the friends, and saves the members only when it refetches. */
  function Provides(g: Generation, s: Stage): (p: set<Artifact>)
    ensures p <= Handles(g, s)
  {
    if s == RawUsersMore then {MemberFriends} else Handles(g, s)
  }

  /** Some step of the stage list provides `a`. */
  predicate ProvidedBy(g: Generation, stages: seq<Stage>, a: Artifact)
  {
    exists i :: 0 <= i < |stages| && a in Provides(g, stages[i])
  }

  /** A step that loads one artifact and, when it is missing, computes and saves it. */
  function LoadOrCompute(env: Env, st: State, s: Stage, a: Artifact): (r: State)
    requires st.status == Running
    ensures r.log == st.log + [Enter(s)] + (if Loaded(env, st.files, a).None? then [Compute(s)] else [])
    ensures r.mem == st.mem[a := if Loaded(env, st.files, a).Some? then Loaded(env, st.files, a) else Some(env.produce(s, a))]
    ensures Loaded(env, st.files, a).Some? ==> r.files == st.files && r.faults == st.faults && r.status == Running
    ensures forall b :: b != a ==> Loaded(env, r.files, b) == Loaded(env, st.files, b)
    ensures st.faults == [] && Picklable(env, a) ==> r.status == Running && r.faults == [] && Loaded(env, r.files, a).Some?
  {
    var loaded := Loaded(env, st.files, a);
    var s1 := st.(log := st.log + [Enter(s)], mem := st.mem[a := loaded]);
    if loaded.Some? then s1
    else
      var blob := env.produce(s, a);
      SaveArt(env, s1.(log := s1.log + [Compute(s)], mem := s1.mem[a := Some(blob)]), a, blob)
  }

  /** `_init_raw_users_data_more`: reload the friends; refetch when they are missing or the
      groups-error flag is set, save members and friends, and exit with code 1 if the flag is
      still set afterwards. */
  function UsersMore(env: Env, st: State): (r: State)
    requires st.status == Running
    ensures var run := Loaded(env, st.files, MemberFriends).None? || env.groupsErrorBefore;
      r.log == st.log + [Enter(RawUsersMore)] + (if run then [Compute(RawUsersMore)] else []) &&
      (!run ==> r.files == st.files && r.faults == st.faults && r.status == Running) &&
      (st.faults == [] && (!run || env.friends == PicklableDict) ==>
                           r.faults == [] && (r.status == Exited(1) <==> run && env.groupsErrorAfter) &&
                           (r.status != Exited(1) ==> r.status == Running) &&
                           Loaded(env, r.files, Members).Some? == (run || Loaded(env, st.files, Members).Some?) &&
                           Loaded(env, r.files, MemberFriends).Some?) &&
      (st.faults == [] && run && env.friends == LambdaDefaultDict ==>
                           r.status == Raised && Loaded(env, r.files, Members).Some? && Loaded(env, r.files, MemberFriends).None?)
    ensures forall b :: b != Members && b != MemberFriends ==> Loaded(env, r.files, b) == Loaded(env, st.files, b)
  {
    var loaded := Loaded(env, st.files, MemberFriends);
    var s1 := st.(log := st.log + [Enter(RawUsersMore)], mem := st.mem[MemberFriends := loaded]);
    if loaded.Some? && !env.groupsErrorBefore then s1
    else
      var members, friends := env.produce(RawUsersMore, Members), env.produce(RawUsersMore, MemberFriends);
      var s2 := s1.(log := s1.log + [Compute(RawUsersMore)], mem := s1.mem[Members := Some(members)][MemberFriends := Some(friends)]);
      var s3 := SaveArt(env, s2, Members, members);
      var s4 := SaveArt(env, s3, MemberFriends, friends);
      if s4.status == Running && env.groupsErrorAfter then s4.(status := Exited(1)) else s4
  }

  /** `_init_raw_users_data` of the earlier constructor: reload members and friends, and
      refetch and save both when either is missing. */
  function EarlierUsers(env: Env, st: State): (r: State)
    requires st.status == Running
    ensures var run := Loaded(env, st.files, Members).None? || Loaded(env, st.files, MemberFriends).None?;
      r.log == st.log + [Enter(RawUsers)] + (if run then [Compute(RawUsers)] else []) &&
      (!run ==> r.files == st.files && r.faults == st.faults && r.status == Running) &&
      (st.faults == [] && (!run || env.friends == PicklableDict) ==>
                           r.faults == [] && r.status == Running &&
                           Loaded(env, r.files, Members).Some? && Loaded(env, r.files, MemberFriends).Some?) &&
      (st.faults == [] && run && env.friends == LambdaDefaultDict ==>
                           r.status == Raised && Loaded(env, r.files, Members).Some? && Loaded(env, r.files, MemberFriends).None?)
    ensures forall b :: b != Members && b != MemberFriends ==> Loaded(env, r.files, b) == Loaded(env, st.files, b)
  {
    var members := Loaded(env, st.files, Members);
    var friends := Loaded(env, st.files, MemberFriends);
    var s1 := st.(log := st.log + [Enter(RawUsers)], mem := st.mem[Members := members][MemberFriends := friends]);
    if members.Some? && friends.Some? then s1
    else
      var m, f := env.produce(RawUsers, Members), env.produce(RawUsers, MemberFriends);
      var s2 := s1.(log := s1.log + [Compute(RawUsers)], mem := s1.mem[Members := Some(m)][MemberFriends := Some(f)]);
      SaveArt(env, SaveArt(env, s2, Members, m), MemberFriends, f)
  }

  /** `_init_predict_action_model`: load both models, refit and save both when the rule says so. */
  function ActionModels(env: Env, st: State): (r: State)
    requires st.status == Running
    ensures var like, repost := Loaded(env, st.files, LikeModel), Loaded(env, st.files, RepostModel);
      var run := Refit(env.rule, like, repost);
      r.log == st.log + [Enter(ActionModel)] + (if run then [Compute(ActionModel)] else []) &&
      (!run ==> r.files == st.files && r.faults == st.faults && r.status == Running &&
                r.mem == st.mem[LikeModel := like][RepostModel := repost]) &&
      LikeModel in r.mem && RepostModel in r.mem &&
      (st.faults == [] && run ==> r.faults == [] && r.status == Running &&
                                  Loaded(env, r.files, LikeModel).Some? && Loaded(env, r.files, RepostModel).Some? &&
                                  r.mem[LikeModel].Some? && r.mem[RepostModel].Some?)
    ensures forall b :: b != LikeModel && b != RepostModel ==> Loaded(env, r.files, b) == Loaded(env, st.files, b)
  {
    var like := Loaded(env, st.files, LikeModel);
    var repost := Loaded(env, st.files, RepostModel);
    var s1 := st.(log := st.log + [Enter(ActionModel)], mem := st.mem[LikeModel := like][RepostModel := repost]);
    if !Refit(env.rule, like, repost) then s1
    else
      var l, p := env.produce(ActionModel, LikeModel), env.produce(ActionModel, RepostModel);
      var s2 := s1.(log := s1.log + [Compute(ActionModel)], mem := s1.mem[LikeModel := Some(l)][RepostModel := Some(p)]);
      SaveArt(env, SaveArt(env, s2, LikeModel, l), RepostModel, p)
  }

  /** Without write faults the action-model step keeps every readable checkpoint readable, and
      both models readable unless the rule as written skipped the refit. */
  lemma ActionModelsProvide(env: Env, st: State)
    requires st.status == Running && st.faults == []
    requires env.rule == Intended || Refit(env.rule, Loaded(env, st.files, LikeModel), Loaded(env, st.files, RepostModel))
    ensures var r := ActionModels(env, st);
      Loaded(env, r.files, LikeModel).Some? && Loaded(env, r.files, RepostModel).Some? &&
      forall b :: Loaded(env, st.files, b).Some? ==> Loaded(env, r.files, b).Some?
  {
    var r := ActionModels(env, st);
    if !Refit(env.rule, Loaded(env, st.files, LikeModel), Loaded(env, st.files, RepostModel)) {
      assert r.files == st.files;
    }
  }

  /** One step of the constructor; nothing happens once the process has stopped. */
  function Step(env: Env, g: Generation, s: Stage, st: State): (r: State)
    ensures st.status != Running ==> r == st
    ensures st.status == Running ==>
      r.log == st.log + [Enter(s)] + (if Ran(env, g, s, st.files) then [Compute(s)] else [])
  {
    if st.status != Running then st
    else if Fetching(s) then FetchStep(env, g, s, st)
    else TableStep(env, g, s, st)
  }

  /** The steps that call the API. */
  predicate Fetching(s: Stage)
  {
    s == RawUsers || s == RawWall || s == RawUsersMore
  }

  function FetchStep(env: Env, g: Generation, s: Stage, st: State): (r: State)
    requires st.status == Running && Fetching(s)
    ensures r.log == st.log + [Enter(s)] + (if Ran(env, g, s, st.files) then [Compute(s)] else [])
  {
    if s == RawUsers then
      if g == Current then LoadOrCompute(env, st, RawUsers, Members) else EarlierUsers(env, st)
    else if s == RawWall then LoadOrCompute(env, st, RawWall, Posts)
    else UsersMore(env, st)
  }

  /** The steps that build tables and models; the two whose constructors only store their
      inputs just enter. */
  function TableStep(env: Env, g: Generation, s: Stage, st: State): (r: State)
    requires st.status == Running && !Fetching(s)
    ensures r.log == st.log + [Enter(s)] + (if Ran(env, g, s, st.files) then [Compute(s)] else [])
  {
    if s == TableUsers then LoadOrCompute(env, st, TableUsers, UserLda)
    else if s == TableWall then LoadOrCompute(env, st, TableWall, WallLda)
    else if s == ActionModel then ActionModels(env, st)
    else st.(log := st.log + [Enter(s)])
  }

  /** A step that does not recompute writes nothing, and no step touches the checkpoint of an
      artifact it does not handle. */
  lemma StepFrame(env: Env, g: Generation, s: Stage, st: State)
    ensures var r := Step(env, g, s, st);
      (st.status == Running && !Ran(env, g, s, st.files) ==>
         r.files == st.files && r.faults == st.faults && r.status == Running) &&
      forall b :: b !in Handles(g, s) ==> Loaded(env, r.files, b) == Loaded(env, st.files, b)
  {
    if st.status == Running {
      if Fetching(s) {
        FetchFrame(env, g, s, st);
      } else {
        TableFrame(env, g, s, st);
      }
    }
  }

  lemma FetchFrame(env: Env, g: Generation, s: Stage, st: State)
    requires st.status == Running && Fetching(s)
    ensures var r := FetchStep(env, g, s, st);
      (!Ran(env, g, s, st.files) ==> r.files == st.files && r.faults == st.faults && r.status == Running) &&
      forall b :: b !in Handles(g, s) ==> Loaded(env, r.files, b) == Loaded(env, st.files, b)
  {
    if s == RawUsers {
      if g == Current {
        var r := LoadOrCompute(env, st, RawUsers, Members);
      } else {
        var r := EarlierUsers(env, st);
      }
    } else if s == RawWall {
      var r := LoadOrCompute(env, st, RawWall, Posts);
    } else {
      var r := UsersMore(env, st);
    }
  }

  lemma TableFrame(env: Env, g: Generation, s: Stage, st: State)
    requires st.status == Running && !Fetching(s)
    ensures var r := TableStep(env, g, s, st);
      (!Ran(env, g, s, st.files) ==> r.files == st.files && r.faults == st.faults && r.status == Running) &&
      forall b :: b !in Handles(g, s) ==> Loaded(env, r.files, b) == Loaded(env, st.files, b)
  {
    if s == TableUsers {
      var r := LoadOrCompute(env, st, TableUsers, UserLda);
    } else if s == TableWall {
      var r := LoadOrCompute(env, st, TableWall, WallLda);
    } else if s == ActionModel {
      var r := ActionModels(env, st);
    }
  }

  /** Without write faults a step keeps running, except that the friends step exits with code 1
      exactly when it refetched and the groups error persists. */
  lemma StepStatus(env: Env, g: Generation, s: Stage, st: State)
    requires st.status == Running && st.faults == []
    ensures var r := Step(env, g, s, st);
      !PickleFails(env, g, s, st.files) ==>
        r.faults == [] &&
        (r.status == Running || (s == RawUsersMore && r.status == Exited(1))) &&
        (r.status == Exited(1) <==> s == RawUsersMore && Ran(env, g, s, st.files) && env.groupsErrorAfter)
    ensures var r := Step(env, g, s, st);
      PickleFails(env, g, s, st.files) ==> r.status == Raised && Loaded(env, r.files, MemberFriends).None?
  {
  }

  /** `StepProvides` for the fetching steps. */
  lemma StepProvidesUsers(env: Env, g: Generation, s: Stage, st: State)
    requires st.status == Running && st.faults == []
    requires s == RawUsers || s == RawWall || s == RawUsersMore
    ensures var r := Step(env, g, s, st);
      !PickleFails(env, g, s, st.files) ==>
        forall b :: b in Provides(g, s) || Loaded(env, st.files, b).Some? ==> Loaded(env, r.files, b).Some?
  {
    match s
    case RawUsers =>
      if g == Current {
        var r := LoadOrCompute(env, st, RawUsers, Members);
        assert Step(env, g, s, st) == r;
      } else {
        var r := EarlierUsers(env, st);
        assert Step(env, g, s, st) == r;
        assert Provides(g, s) == {Members, MemberFriends};
      }
    case RawWall =>
      var r := LoadOrCompute(env, st, RawWall, Posts);
      assert Step(env, g, s, st) == r;
    case RawUsersMore =>
      var r := UsersMore(env, st);
      assert Step(env, g, s, st) == r;
  }

  /** `StepProvides` for the remaining steps. */
  lemma StepProvidesTables(env: Env, g: Generation, s: Stage, st: State)
    requires st.status == Running && st.faults == []
    requires s != RawUsers && s != RawWall && s != RawUsersMore
    requires s != ActionModel || env.rule == Intended || Ran(env, g, s, st.files)
    ensures var r := Step(env, g, s, st);
      forall b :: b in Provides(g, s) || Loaded(env, st.files, b).Some? ==> Loaded(env, r.files, b).Some?
  {
    assert Step(env, g, s, st) == TableStep(env, g, s, st);
    TableProvides(env, g, s, st);
  }

  /** Without write faults a load-or-compute step leaves its artifact readable and keeps every
      readable checkpoint readable. */
  lemma LoadProvides(env: Env, st: State, s: Stage, a: Artifact)
    requires st.status == Running && st.faults == [] && Picklable(env, a)
    ensures var r := LoadOrCompute(env, st, s, a);
      forall b :: b == a || Loaded(env, st.files, b).Some? ==> Loaded(env, r.files, b).Some?
  {
  }

  lemma TableProvides(env: Env, g: Generation, s: Stage, st: State)
    requires st.status == Running && st.faults == [] && !Fetching(s)
    requires s != ActionModel || env.rule == Intended || Ran(env, g, s, st.files)
    ensures var r := TableStep(env, g, s, st);
      forall b :: b in Provides(g, s) || Loaded(env, st.files, b).Some? ==> Loaded(env, r.files, b).Some?
  {
    if s == TableUsers {
      assert Provides(g, s) == {UserLda};
      LoadProvides(env, st, TableUsers, UserLda);
    } else if s == TableWall {
      assert Provides(g, s) == {WallLda};
      LoadProvides(env, st, TableWall, WallLda);
    } else if s == ActionModel {
      ActionModelsProvide(env, st);
      assert Provides(g, s) == {LikeModel, RepostModel};
    } else {
      assert Provides(g, s) == {};
    }
  }

  /** Without write faults a step leaves readable every checkpoint it found readable and every
      one it provides, except the action models under the rule as written when it skips them. */
  lemma StepProvides(env: Env, g: Generation, s: Stage, st: State)
    requires st.status == Running && st.faults == []
    requires s != ActionModel || env.rule == Intended || Ran(env, g, s, st.files)
    ensures var r := Step(env, g, s, st);
      !PickleFails(env, g, s, st.files) ==>
        forall b :: b in Provides(g, s) || Loaded(env, st.files, b).Some? ==> Loaded(env, r.files, b).Some?
  {
    if s == RawUsers || s == RawWall || s == RawUsersMore {
      StepProvidesUsers(env, g, s, st);
    } else {
      StepProvidesTables(env, g, s, st);
    }
  }

  /** The steps in order. */
  function RunStages(env: Env, g: Generation, stages: seq<Stage>, st: State): State
  {
    if |stages| == 0 then st else RunStages(env, g, stages[1..], Step(env, g, stages[0], st))
  }

  /** A constructor run from a given directory, with the outcomes of its saves. */
  function Run(env: Env, g: Generation, files: Files, faults: seq<Checkpoint.WriteFault>): State
  {
    RunStages(env, g, Stages(g), State(files, faults, map[], [], Running))
  }

  /** The steps entered, in log order. */
  function Entered(log: seq<Event>): seq<Stage>
  {
    if |log| == 0 then [] else Entered(log[..|log| - 1]) + (if log[|log| - 1].Enter? then [log[|log| - 1].stage] else [])
  }

  lemma {:induction false} EnteredAppend(log: seq<Event>, more: seq<Event>)
    ensures Entered(log + more) == Entered(log) + Entered(more)
    decreases |more|
  {
    if |more| == 0 {
      assert log + more == log;
    } else {
      var n := |more| - 1;
      assert (log + more)[..|log + more| - 1] == log + more[..n];
      assert (log + more)[|log + more| - 1] == more[n];
      EnteredAppend(log, more[..n]);
    }
  }

  /** One step adds exactly its own stage to the entered list, or nothing once stopped. */
  lemma StepEnters(env: Env, g: Generation, s: Stage, st: State)
    ensures Step(env, g, s, st).status == Running ==> st.status == Running
    ensures st.status == Running ==> Entered(Step(env, g, s, st).log) == Entered(st.log) + [s]
    ensures st.status != Running ==> Step(env, g, s, st) == st
  {
    if st.status == Running {
      EnteredOneStep(st.log, s, Ran(env, g, s, st.files));
    }
  }

  /** The log entries of one step add its stage once. */
  lemma EnteredOneStep(log: seq<Event>, s: Stage, ran: bool)
    ensures Entered(log + [Enter(s)] + (if ran then [Compute(s)] else [])) == Entered(log) + [s]
  {
    var extra := [Enter(s)] + (if ran then [Compute(s)] else []);
    assert log + [Enter(s)] + (if ran then [Compute(s)] else []) == log + extra;
    EnteredAppend(log, extra);
    assert [Enter(s)][..0] == [];
    if ran {
      assert extra[..1] == [Enter(s)];
    } else {
      assert extra == [Enter(s)];
    }
  }

  /** How many of the steps a run gets to enter. */
  function Reached(env: Env, g: Generation, stages: seq<Stage>, st: State): (k: nat)
    ensures k <= |stages|
  {
    if |stages| == 0 || st.status != Running then 0
    else 1 + Reached(env, g, stages[1..], Step(env, g, stages[0], st))
  }

  /** The steps are entered in order: a prefix of the stage list, all of it when the process
      is still running at the end. */
  lemma {:induction false} RunOrder(env: Env, g: Generation, stages: seq<Stage>, st: State)
    ensures var r, k := RunStages(env, g, stages, st), Reached(env, g, stages, st);
      Entered(r.log) == Entered(st.log) + stages[..k] && (r.status == Running ==> k == |stages|)
  {
    if |stages| == 0 {
      assert stages[..0] == [];
    } else if st.status != Running {
      StoppedStays(env, g, stages, st);
      assert stages[..0] == [];
    } else {
      var next := Step(env, g, stages[0], st);
      StepEnters(env, g, stages[0], st);
      RunOrder(env, g, stages[1..], next);
      PrefixCons(Entered(st.log), stages, Reached(env, g, stages[1..], next), Entered(RunStages(env, g, stages[1..], next).log));
    }
  }

  lemma PrefixCons<T>(before: seq<T>, stages: seq<T>, k: nat, after: seq<T>)
    requires 0 < |stages| && k < |stages|
    requires after == before + [stages[0]] + stages[1..][..k]
    ensures after == before + stages[..k + 1]
  {
    assert [stages[0]] + stages[1..][..k] == stages[..k + 1];
  }

  /** A stopped process stays exactly as it is. */
  lemma {:induction false} StoppedStays(env: Env, g: Generation, stages: seq<Stage>, st: State)
    requires st.status != Running
    ensures RunStages(env, g, stages, st) == st
  {
    if |stages| > 0 {
      StoppedStays(env, g, stages[1..], st);
    }
  }

  /** Every artifact has a readable checkpoint. */
  predicate AllSaved(env: Env, files: Files)
  {
    forall a :: Loaded(env, files, a).Some?
  }

  /** Without write faults, with the intended refit rule, picklable friend lists and no groups
      error after the fetch, a run ends running with a readable checkpoint for every artifact a
      step handled, and loses none it found. */
  lemma {:induction false} RunSaves(env: Env, g: Generation, stages: seq<Stage>, st: State)
    requires env.rule == Intended && env.friends == PicklableDict && !env.groupsErrorAfter
    requires st.status == Running && st.faults == []
    ensures var r := RunStages(env, g, stages, st);
      r.status == Running && r.faults == [] &&
      forall a :: Loaded(env, st.files, a).Some? || ProvidedBy(g, stages, a) ==> Loaded(env, r.files, a).Some?
  {
    if |stages| > 0 {
      var next := Step(env, g, stages[0], st);
      StepStatus(env, g, stages[0], st);
      StepProvides(env, g, stages[0], st);
      RunSaves(env, g, stages[1..], next);
      var r := RunStages(env, g, stages, st);
      forall a | Loaded(env, st.files, a).Some? || ProvidedBy(g, stages, a)
        ensures Loaded(env, r.files, a).Some?
      {
        if a !in Provides(g, stages[0]) && !Loaded(env, st.files, a).Some? {
          var i :| 0 <= i < |stages| && a in Provides(g, stages[i]);
          assert a in Provides(g, stages[1..][i - 1]);
          assert ProvidedBy(g, stages[1..], a);
        }
      }
    }
  }

  /** Every artifact is handled by some step of either constructor. */
  lemma StagesProvideAll(g: Generation, a: Artifact)
    ensures ProvidedBy(g, Stages(g), a)
  {
    var s := Stages(g);
    match a
    case Members => assert a in Provides(g, s[0]);
    case MemberFriends => if g == Current { assert a in Provides(g, s[2]); } else { assert a in Provides(g, s[0]); }
    case Posts => if g == Current { assert a in Provides(g, s[1]); } else { assert a in Provides(g, s[2]); }
    case UserLda => if g == Current { assert a in Provides(g, s[3]); } else { assert a in Provides(g, s[1]); }
    case WallLda => if g == Current { assert a in Provides(g, s[4]); } else { assert a in Provides(g, s[3]); }
    case LikeModel => assert a in Provides(g, s[|s| - 2]);
    case RepostModel => assert a in Provides(g, s[|s| - 2]);
  }

  /** With every checkpoint readable and no groups error, only the action-model step under the
      rule as written recomputes. */
  lemma RanOnResume(env: Env, g: Generation, s: Stage, files: Files)
    requires !env.groupsErrorBefore && AllSaved(env, files)
    ensures Ran(env, g, s, files) <==> s == ActionModel && env.rule == AsWritten
  {
    assert Loaded(env, files, Members).Some? && Loaded(env, files, MemberFriends).Some?;
    assert Loaded(env, files, Posts).Some? && Loaded(env, files, UserLda).Some? && Loaded(env, files, WallLda).Some?;
    assert Loaded(env, files, LikeModel).Some? && Loaded(env, files, RepostModel).Some?;
  }

  /** The steps of a run that finds every checkpoint readable: with the intended rule none
      recomputes and the files are untouched; as written, the action models are refit. */
  lemma {:induction false} ResumeRun(env: Env, g: Generation, stages: seq<Stage>, st: State)
    requires !env.groupsErrorBefore && st.status == Running && st.faults == [] && AllSaved(env, st.files)
    ensures var r := RunStages(env, g, stages, st);
      r.status == Running && r.faults == [] && AllSaved(env, r.files) && st.log <= r.log &&
      (env.rule == Intended ==> r.files == st.files && forall i :: |st.log| <= i < |r.log| ==> r.log[i].Enter?) &&
      (env.rule == AsWritten && ActionModel in stages ==> Compute(ActionModel) in r.log)
  {
    if |stages| > 0 {
      var s := stages[0];
      var next := Step(env, g, s, st);
      RanOnResume(env, g, s, st.files);
      StepFrame(env, g, s, st);
      StepStatus(env, g, s, st);
      StepProvides(env, g, s, st);
      ResumeRun(env, g, stages[1..], next);
      var r := RunStages(env, g, stages, st);
      assert |next.log| >= |st.log| + 1 && next.log[|st.log|] == Enter(s);
      if env.rule == Intended {
        assert next.log == st.log + [Enter(s)];
        forall i | |st.log| <= i < |r.log| ensures r.log[i].Enter? {
          if i >= |next.log| {
          }
        }
      }
      if env.rule == AsWritten && s == ActionModel {
        assert next.log[|st.log| + 1] == Compute(ActionModel);
        assert r.log[|st.log| + 1] == Compute(ActionModel);
      } else if env.rule == AsWritten && ActionModel in stages {
        assert ActionModel in stages[1..];
      }
    }
  }

  /** With the intended rule and picklable friend lists, a second run over the files a
      fault-free first run left behind computes nothing and leaves every checkpoint as it was. */
  lemma SecondRunComputesNothing(env: Env, g: Generation, files: Files)
    requires env.rule == Intended && env.friends == PicklableDict && !env.groupsErrorBefore && !env.groupsErrorAfter
    ensures var first := Run(env, g, files, []);
      var second := Run(env, g, first.files, []);
      first.status == Running && second.status == Running && second.files == first.files &&
      forall e :: e in second.log ==> e.Enter?
  {
    var st := State(files, [], map[], [], Running);
    RunSaves(env, g, Stages(g), st);
    forall a ensures ProvidedBy(g, Stages(g), a) {
      StagesProvideAll(g, a);
    }
    var first := Run(env, g, files, []);
    ResumeRun(env, g, Stages(g), State(first.files, [], map[], [], Running));
  }

  /** As written, the friend lists are a lambda `defaultdict`: a run that finds no friends
      checkpoint refetches, raises while saving them, and leaves no friends checkpoint behind,
      so the next run does the same. */
  lemma FriendsNeverSaved(env: Env, g: Generation, files: Files)
    requires env.friends == LambdaDefaultDict && Loaded(env, files, MemberFriends).None?
    ensures var r := Run(env, g, files, []);
      r.status == Raised && Loaded(env, r.files, MemberFriends).None?
  {
    var stages := Stages(g);
    var st := State(files, [], map[], [], Running);
    if g == Current {
      var s1 := Step(env, g, RawUsers, st);
      StepStatus(env, g, RawUsers, st);
      StepFrame(env, g, RawUsers, st);
      var s2 := Step(env, g, RawWall, s1);
      StepStatus(env, g, RawWall, s1);
      StepFrame(env, g, RawWall, s1);
      assert s2.status == Running && s2.faults == [] && Loaded(env, s2.files, MemberFriends).None?;
      var s3 := Step(env, g, RawUsersMore, s2);
      StepStatus(env, g, RawUsersMore, s2);
      StoppedStays(env, g, stages[3..], s3);
      var rest := stages[1..];
      assert rest[0] == RawWall && rest[1..][0] == RawUsersMore && rest[1..][1..] == stages[3..];
      assert RunStages(env, g, stages, st) == RunStages(env, g, rest, s1);
      assert RunStages(env, g, rest, s1) == RunStages(env, g, rest[1..], s2);
      assert RunStages(env, g, rest[1..], s2) == RunStages(env, g, stages[3..], s3);
    } else {
      StepStatus(env, g, RawUsers, st);
      StoppedStays(env, g, stages[1..], Step(env, g, RawUsers, st));
    }
  }

  /** As written, a resumed run refits the action models although both checkpoints load. */
  lemma AsWrittenRefitsOnResume(env: Env, g: Generation, files: Files)
    requires env.rule == AsWritten && !env.groupsErrorBefore && AllSaved(env, files)
    ensures Compute(ActionModel) in Run(env, g, files, []).log
  {
    ResumeRun(env, g, Stages(g), State(files, [], map[], [], Running));
    assert ActionModel in Stages(g);
  }

  /** As written, a readable like model with a missing repost model passes the test: nothing
      is refit and the repost model in memory is None. The intended rule refits both. */
  lemma MissingRepostModel(env: Env, st: State)
    requires st.status == Running && st.faults == []
    requires Loaded(env, st.files, LikeModel).Some? && Loaded(env, st.files, RepostModel).None?
    ensures env.rule == AsWritten ==>
      Compute(ActionModel) !in ActionModels(env, st).log[|st.log|..] && ActionModels(env, st).mem[RepostModel] == None
    ensures env.rule == Intended ==>
      ActionModels(env, st).mem[LikeModel].Some? && ActionModels(env, st).mem[RepostModel].Some?
  {
    var r := ActionModels(env, st);
    if env.rule == AsWritten {
      assert r.log[|st.log|..] == [Enter(ActionModel)];
    }
  }

  /** The current constructor stops with code 1 when the friends step refetched and the
      groups-error flag is still set, unless saving the friend lists raised first; either way
      no later step is entered. */
  lemma ExitAfterGroupsError(env: Env, st: State)
    requires st.status == Running && st.faults == []
    requires Loaded(env, st.files, MemberFriends).None? || env.groupsErrorBefore
    requires env.groupsErrorAfter
    ensures var r := Step(env, Current, RawUsersMore, st);
      r.status == (if env.friends == PicklableDict then Exited(1) else Raised) &&
      RunStages(env, Current, Stages(Current)[3..], r) == r
  {
    var r := Step(env, Current, RawUsersMore, st);
    StoppedStays(env, Current, Stages(Current)[3..], r);
  }
}

=== FILE: predict_data.dfy ===
/** `PredictActionData` of vk_text_likeness/predict_data.py: for every post, one row per
    distinct user who liked or reposted it, in the order the users first appear in the like
    list followed by the repost list (the insertion order of the per-post `defaultdict`). */
module PredictData {
  import opened Wrappers
  import Frames
  import Dedup
  import UsersData
  import WallData
  import ActionData

  type User = UsersData.User
  type Post = WallData.Post

  /** A prediction row before it is turned into cells. */
  datatype PredictRow = PredictRow(user: User, post: Post, isLiked: bool, isReposted: bool)

  function Id(x: int): int { x }

  lemma KeysId(xs: seq<int>)
    ensures forall x :: x in Dedup.Keys(xs, Id) <==> x in xs
  {
    forall x | x in xs ensures x in Dedup.Keys(xs, Id) {
      var i :| 0 <= i < |xs| && xs[i] == x;
      assert Id(xs[i]) == x;
    }
  }

  /** The keys of the per-post `user_actions` dict, in insertion order: the distinct likers in
      like order, then the reposters who did not like, in repost order. */
  function Actors(p: Post): (ids: seq<int>)
    ensures forall i, j :: 0 <= i < j < |ids| ==> ids[i] != ids[j]
    ensures forall x :: x in ids <==> x in p.likes || x in p.reposts
    ensures forall i, j :: 0 <= i < j < |ids| && ids[j] in p.likes ==> ids[i] in p.likes
  {
    var both := p.likes + p.reposts;
    var ids := Dedup.DedupBy(both, Id);
    Dedup.DedupFromProps(both, Id, {});
    KeysId(both);
    KeysId(ids);
    var front := Dedup.DedupFrom(p.likes, Id, {});
    var back := Dedup.DedupFrom(p.reposts, Id, Dedup.Keys(p.likes, Id));
    Dedup.DedupAppend(p.likes, p.reposts, Id, {});
    assert {} + Dedup.Keys(p.likes, Id) == Dedup.Keys(p.likes, Id);
    Dedup.DedupFromProps(p.likes, Id, {});
    Dedup.DedupFromProps(p.reposts, Id, Dedup.Keys(p.likes, Id));
    KeysId(p.likes);
    KeysId(front);
    KeysId(back);
    assert ids == front + back;
    forall i, j | 0 <= i < j < |ids| && ids[j] in p.likes ensures ids[i] in p.likes {
      if j < |front| {
        assert ids[i] == front[i];
        assert front[i] in front;
      }
    }
    assert forall i, j :: 0 <= i < j < |ids| ==> Id(ids[i]) != Id(ids[j]);
    ids
  }

  /** The post's actors come in the order of their first appearance in the like list followed
      by the repost list. */
  lemma ActorsFirstSeen(p: Post)
    ensures forall x :: x in Actors(p) ==> x in Dedup.Keys(p.likes + p.reposts, Id)
    ensures forall i, j :: 0 <= i < j < |Actors(p)| ==>
      Dedup.FirstIndex(p.likes + p.reposts, Id, Actors(p)[i]) < Dedup.FirstIndex(p.likes + p.reposts, Id, Actors(p)[j])
  {
    var both := p.likes + p.reposts;
    assert Actors(p) == Dedup.DedupBy(both, Id);
    Dedup.DedupFromOrdered(both, Id, {});
    KeysId(both);
    forall i, j | 0 <= i < j < |Actors(p)|
      ensures Dedup.FirstIndex(both, Id, Actors(p)[i]) < Dedup.FirstIndex(both, Id, Actors(p)[j])
    {
      assert Id(Actors(p)[i]) == Actors(p)[i] && Id(Actors(p)[j]) == Actors(p)[j];
    }
  }

  /** The user `find_user` resolves an id to, when it has groups for the row to be built. */
  predicate Resolvable(members: seq<User>, d: UsersData.FriendLists, id: int)
  {
    var u := UsersData.FindUser(members, d, id);
    u.Some? && u.value.groups.Some?
  }

  /** The rows of one post for the given user ids. An id `find_user` cannot resolve raises
      (indexing `None`); a resolved user without groups raises `KeyError` in its feature row. */
  function RowsForIds(members: seq<User>, d: UsersData.FriendLists, p: Post, ids: seq<int>): (r: Result<seq<PredictRow>, Fault>)
    ensures r.Success? <==> forall i :: 0 <= i < |ids| ==> Resolvable(members, d, ids[i])
    ensures r.Success? ==> |r.value| == |ids|
    ensures r.Success? ==> forall i :: 0 <= i < |ids| ==>
      r.value[i] == PredictRow(UsersData.FindUser(members, d, ids[i]).value, p, ids[i] in p.likes, ids[i] in p.reposts)
    ensures r.Failure? ==>
              exists i :: 0 <= i < |ids| && !Resolvable(members, d, ids[i]) &&
                          r.error == if UsersData.FindUser(members, d, ids[i]).None? then NoneSubscript(ids[i]) else KeyError("groups")
  {
    if |ids| == 0 then Success([])
    else
      var u := UsersData.FindUser(members, d, ids[0]);
      if u.None? then Failure(NoneSubscript(ids[0]))
      else if u.value.groups.None? then Failure(KeyError("groups"))
      else
        var rest := RowsForIds(members, d, p, ids[1..]);
        assert forall i :: 1 <= i < |ids| ==> ids[i] == ids[1..][i - 1];
        if rest.Failure? then
          var k :| 0 <= k < |ids[1..]| && !Resolvable(members, d, ids[1..][k]) &&
            rest.error == if UsersData.FindUser(members, d, ids[1..][k]).None? then NoneSubscript(ids[1..][k]) else KeyError("groups");
          assert ids[k + 1] == ids[1..][k];
          Failure(rest.error)
        else
          Success([PredictRow(u.value, p, ids[0] in p.likes, ids[0] in p.reposts)] + rest.value)
  }

  /** The rows of one post. */
  function PostBlock(members: seq<User>, d: UsersData.FriendLists, p: Post): (r: Result<seq<PredictRow>, Fault>)
    ensures r.Success? ==> |r.value| == |Actors(p)|
    ensures r.Success? ==> forall i, j :: 0 <= i < j < |r.value| ==> r.value[i].user.id != r.value[j].user.id
  {
    RowsForIds(members, d, p, Actors(p))
  }

  /** `get_all`: the post blocks concatenated in wall order. */
  function PredictAll(members: seq<User>, d: UsersData.FriendLists, posts: seq<Post>): (r: Result<seq<PredictRow>, Fault>)
    ensures r.Success? <==> forall i :: 0 <= i < |posts| ==> PostBlock(members, d, posts[i]).Success?
  {
    if |posts| == 0 then Success([])
    else
      assert forall i :: 1 <= i < |posts| ==> posts[i] == posts[1..][i - 1];
      var block :- PostBlock(members, d, posts[0]);
      var rest :- PredictAll(members, d, posts[1..]);
      Success(block + rest)
  }

  /** Rows are grouped by post in wall order: the table of two runs of posts is the two tables
      one after the other. */
  lemma {:induction false} GroupedByPost(members: seq<User>, d: UsersData.FriendLists, a: seq<Post>, b: seq<Post>)
    ensures PredictAll(members, d, a + b).Success? <==>
      PredictAll(members, d, a).Success? && PredictAll(members, d, b).Success?
    ensures PredictAll(members, d, a + b).Success? ==>
      PredictAll(members, d, a + b).value == PredictAll(members, d, a).value + PredictAll(members, d, b).value
  {
    if |a| == 0 {
      assert a + b == b;
    } else {
      assert (a + b)[0] == a[0] && (a + b)[1..] == a[1..] + b;
      GroupedByPost(members, d, a[1..], b);
      PredictAllCons(members, d, a + b);
      PredictAllCons(members, d, a);
    }
  }

  lemma PredictAllCons(members: seq<User>, d: UsersData.FriendLists, posts: seq<Post>)
    requires |posts| > 0
    ensures PredictAll(members, d, posts).Success? <==>
      PostBlock(members, d, posts[0]).Success? && PredictAll(members, d, posts[1..]).Success?
    ensures PredictAll(members, d, posts).Success? ==>
      PredictAll(members, d, posts).value == PostBlock(members, d, posts[0]).value + PredictAll(members, d, posts[1..]).value
  {
  }

  /** Every row names a post of the wall, a user who liked or reposted it (no row for a user
      who did neither), the record `find_user` gives for that id, and the two flags. */
  lemma {:induction false} RowsSound(members: seq<User>, d: UsersData.FriendLists, posts: seq<Post>)
    requires PredictAll(members, d, posts).Success?
    ensures forall r :: r in PredictAll(members, d, posts).value ==>
      r.post in posts && (r.isLiked <==> r.user.id in r.post.likes) && (r.isReposted <==> r.user.id in r.post.reposts) &&
      (r.isLiked || r.isReposted) && UsersData.FindUser(members, d, r.user.id) == Some(r.user)
  {
    if |posts| > 0 {
      var p := posts[0];
      RowsSound(members, d, posts[1..]);
      var block := PostBlock(members, d, p).value;
      var ids := Actors(p);
      forall r | r in block
        ensures r.post == p && (r.isLiked <==> r.user.id in p.likes) && (r.isReposted <==> r.user.id in p.reposts) &&
                (r.isLiked || r.isReposted) && UsersData.FindUser(members, d, r.user.id) == Some(r.user)
      {
        var i :| 0 <= i < |block| && block[i] == r;
        assert ids[i] in ids;
      }
    }
  }

  /** Every user who liked or reposted a post of the wall has a row for it. */
  lemma {:induction false} RowsComplete(members: seq<User>, d: UsersData.FriendLists, posts: seq<Post>, i: int, id: int)
    requires PredictAll(members, d, posts).Success?
    requires 0 <= i < |posts| && (id in posts[i].likes || id in posts[i].reposts)
    ensures exists r :: r in PredictAll(members, d, posts).value && r.post == posts[i] && r.user.id == id
  {
    if i == 0 {
      var ids := Actors(posts[0]);
      var k :| 0 <= k < |ids| && ids[k] == id;
      var block := PostBlock(members, d, posts[0]).value;
      assert block[k] in PredictAll(members, d, posts).value;
    } else {
      RowsComplete(members, d, posts[1..], i - 1, id);
    }
  }

  /** A liker whom `find_user` cannot resolve makes the whole call raise. */
  lemma UnknownUserRaises(p: Post, id: int)
    requires p.likes == [id] && p.reposts == []
    ensures PredictAll([], [], [p]) == Failure(NoneSubscript(id))
  {
    assert p.likes + p.reposts == [id];
    assert [id][1..] == [];
    assert Dedup.DedupFrom([id], Id, {}) == [id] + Dedup.DedupFrom([], Id, {id});
    assert Actors(p) == [id];
    assert Actors(p)[1..] == [];
  }

  /** `get_labels`. */
  function PredictLabels(f: ActionData.Featurizer): (labels: seq<string>)
    ensures |labels| == 12 + f.users.numTopics + f.posts.numTopics
    ensures labels[0] == "user_id" && labels[8 + f.users.numTopics] == "post_id"
    ensures labels[1..8 + f.users.numTopics] == UsersData.UserLabels(f.users.numTopics)
    ensures labels[9 + f.users.numTopics..|labels| - 2] == WallData.WallLabels(f.posts.numTopics)
    ensures labels[|labels| - 2..] == ["is_liked", "is_reposted"]
  {
    var user, post := UsersData.UserLabels(f.users.numTopics), WallData.WallLabels(f.posts.numTopics);
    Frames.Layout("user_id", user, "post_id", post, ["is_liked", "is_reposted"]);
    ["user_id"] + user + ["post_id"] + post + ["is_liked", "is_reposted"]
  }

  /** The prediction columns are the training columns without `is_member`. */
  lemma PredictLabelsDropMember(f: ActionData.Featurizer)
    ensures var l := ActionData.ActionLabels(f);
      PredictLabels(f) == l[..|l| - 3] + l[|l| - 2..]
  {
    var l := ActionData.ActionLabels(f);
    var front := ["user_id"] + UsersData.UserLabels(f.users.numTopics) + ["post_id"] + WallData.WallLabels(f.posts.numTopics);
    assert l == front + ["is_member", "is_liked", "is_reposted"];
    assert l[..|l| - 3] == front && l[|l| - 2..] == ["is_liked", "is_reposted"];
  }

  /** So the prediction columns never repeat either. */
  lemma PredictLabelsDistinct(f: ActionData.Featurizer)
    ensures Frames.Distinct(PredictLabels(f))
  {
    var l, q := ActionData.ActionLabels(f), PredictLabels(f);
    var n := |l| - 3;
    PredictLabelsDropMember(f);
    ActionData.ActionLabelsDistinct(f);
    forall i, j | 0 <= i < j < |q| ensures q[i] != q[j] {
      var i', j' := if i < n then i else i + 1, if j < n then j else j + 1;
      assert q[i] == l[i'] && q[j] == l[j'];
    }
  }

  /** `get_row`: user id, user features, post id, post features, then the two flags, lined up
      with the labels. */
  function PredictCells(f: ActionData.Featurizer, r: PredictRow): (cells: seq<Frames.Cell>)
    requires ActionData.Ready(f)
    requires r.user.groups.Some? && UsersData.AgeParses(r.user)
    ensures |cells| == |PredictLabels(f)|
    ensures cells[0] == Frames.I(r.user.id)
    ensures cells[1..8 + f.users.numTopics] == UsersData.UserFeatures(f.users, f.currentYear, r.user)
    ensures cells[8 + f.users.numTopics] == Frames.I(r.post.id)
    ensures cells[9 + f.users.numTopics..|cells| - 2] == WallData.PostFeatures(f.posts, r.post)
    ensures cells[|cells| - 2..] == [Frames.B(r.isLiked), Frames.B(r.isReposted)]
  {
    var user := UsersData.UserFeatures(f.users, f.currentYear, r.user);
    var post := WallData.PostFeatures(f.posts, r.post);
    var cells := [Frames.I(r.user.id)] + user + [Frames.I(r.post.id)] + post + [Frames.B(r.isLiked), Frames.B(r.isReposted)];
    Frames.Layout(Frames.I(r.user.id), user, Frames.I(r.post.id), post, [Frames.B(r.isLiked), Frames.B(r.isReposted)]);
    cells
  }

  /** A prediction row is the training row of the same user, post and flags with the
      `is_member` cell taken out, whatever that flag is. */
  lemma PredictRowDropsMember(f: ActionData.Featurizer, r: PredictRow, isMember: bool)
    requires ActionData.Ready(f)
    requires r.user.groups.Some? && UsersData.AgeParses(r.user)
    ensures var a := ActionData.Cells(f, ActionData.ActionRow(r.user, r.post, isMember, r.isLiked, r.isReposted));
      PredictCells(f, r) == a[..|a| - 3] + a[|a| - 2..]
  {
    var a := ActionData.Cells(f, ActionData.ActionRow(r.user, r.post, isMember, r.isLiked, r.isReposted));
    var front := [Frames.I(r.user.id)] + UsersData.UserFeatures(f.users, f.currentYear, r.user) + [Frames.I(r.post.id)]
      + WallData.PostFeatures(f.posts, r.post);
    assert a == front + [Frames.B(isMember), Frames.B(r.isLiked), Frames.B(r.isReposted)];
    assert a[..|a| - 3] == front;
  }

  /** `get_row` as written: the same table classes as the training row, so it raises where
      `ActionData.CellsAsWritten` raises and carries the extractor's pairs unexpanded. */
  function PredictCellsAsWritten(f: ActionData.Featurizer, r: PredictRow): (c: Result<seq<Frames.Cell>, Fault>)
    requires ActionData.Ready(f) && UsersData.AgeParses(r.user)
    ensures c.Failure? <==> UsersData.UserTopicsAsWritten(f.users, r.user).Failure?
    ensures c.Success? ==> (|c.value| == |PredictLabels(f)| <==> |f.posts.get(r.post.text)| == f.posts.numTopics)
  {
    ActionData.CellsAsWritten(f, r.user, r.post, [r.isLiked, r.isReposted])
  }

  /** Where the as-written row is built and the extractor lists every topic once, in order,
      the corrected row has the same ids, user features and flags, and reads each of the
      as-written post pairs as its weight. */
  lemma {:induction false} PredictCellsAgreeWhenComplete(f: ActionData.Featurizer, r: PredictRow)
    requires ActionData.Ready(f) && r.user.groups.Some? && UsersData.AgeParses(r.user)
    requires PredictCellsAsWritten(f, r).Success?
    requires |f.posts.get(r.post.text)| == f.posts.numTopics
    requires forall j :: 0 <= j < f.posts.numTopics ==> f.posts.get(r.post.text)[j].0 == j
    ensures var c, n := PredictCellsAsWritten(f, r).value, 9 + f.users.numTopics;
      |c| == |PredictCells(f, r)| && c[..n] == PredictCells(f, r)[..n] && c[|c| - 2..] == PredictCells(f, r)[|c| - 2..] &&
      forall k :: n <= k < |c| - 2 ==> PredictCells(f, r)[k] == Frames.Dense(c[k])
  {
    ActionData.AsWrittenAgreesWhenComplete(f, r.user, r.post, [r.isLiked, r.isReposted]);
    var d := [Frames.I(r.user.id)] + UsersData.UserFeatures(f.users, f.currentYear, r.user) + [Frames.I(r.post.id)]
      + WallData.PostFeatures(f.posts, r.post) + ActionData.FlagCells([r.isLiked, r.isReposted]);
    assert PredictCells(f, r) == d by {
      assert ActionData.FlagCells([r.isLiked, r.isReposted]) == [Frames.B(r.isLiked), Frames.B(r.isReposted)];
    }
  }
}

=== FILE: predict_model.dfy ===
/** vk_text_likeness/predict_model.py: the column handling around the two classifiers
    (`PredictActionModel`) and the per-post bucket counting of `PredictStatsModel.predict`.
    The classifiers are parameters; only what is fed to them and what is read back is modelled. */
module PredictModel {
  import Frames
  import UsersData
  import WallData
  import ActionData

  /** The five columns `fit` and `predict` drop before calling the classifiers. */
  const NonFeature: set<string> := {"user_id", "post_id", "is_member", "is_liked", "is_reposted"}

  /** `df.drop(names, axis=1)` on one row: the cells whose label is not dropped, in order. */
  function KeepColumns<T>(labels: seq<string>, cells: seq<T>, drop: set<string>): (kept: seq<T>)
    requires |labels| == |cells|
    ensures |kept| <= |cells|
    ensures forall x :: x in kept ==> x in cells
  {
    if |labels| == 0 then []
    else
      var rest := KeepColumns(labels[1..], cells[1..], drop);
      assert forall x :: x in cells[1..] ==> x in cells;
      (if labels[0] in drop then [] else [cells[0]]) + rest
  }

  /** Nothing is dropped when no label is among the names. */
  lemma {:induction false} KeepAll<T>(labels: seq<string>, cells: seq<T>, drop: set<string>)
    requires |labels| == |cells|
    requires forall i :: 0 <= i < |labels| ==> labels[i] !in drop
    ensures KeepColumns(labels, cells, drop) == cells
  {
    if |labels| > 0 {
      assert forall i :: 1 <= i < |labels| ==> labels[i] == labels[1..][i - 1];
      KeepAll(labels[1..], cells[1..], drop);
      assert cells == [cells[0]] + cells[1..];
    }
  }

  /** Everything is dropped when every label is among the names. */
  lemma {:induction false} KeepNone<T>(labels: seq<string>, cells: seq<T>, drop: set<string>)
    requires |labels| == |cells|
    requires forall i :: 0 <= i < |labels| ==> labels[i] in drop
    ensures KeepColumns(labels, cells, drop) == []
  {
    if |labels| > 0 {
      assert forall i :: 1 <= i < |labels| ==> labels[i] == labels[1..][i - 1];
      KeepNone(labels[1..], cells[1..], drop);
    }
  }

  lemma {:induction false} KeepColumnsConcat<T>(l1: seq<string>, c1: seq<T>, l2: seq<string>, c2: seq<T>, drop: set<string>)
    requires |l1| == |c1| && |l2| == |c2|
    ensures KeepColumns(l1 + l2, c1 + c2, drop) == KeepColumns(l1, c1, drop) + KeepColumns(l2, c2, drop)
  {
    if |l1| == 0 {
      assert l1 + l2 == l2 && c1 + c2 == c2;
    } else {
      assert (l1 + l2)[0] == l1[0] && (l1 + l2)[1..] == l1[1..] + l2;
      assert (c1 + c2)[0] == c1[0] && (c1 + c2)[1..] == c1[1..] + c2;
      KeepColumnsConcat(l1[1..], c1[1..], l2, c2, drop);
    }
  }

  /** No numbered label clashes with a dropped column name. */
  lemma NumberedKept(prefix: string, n: nat)
    requires prefix == "user_lda" || prefix == "post_lda"
    ensures forall i :: 0 <= i < n ==> Frames.NumberedLabels(prefix, n)[i] !in NonFeature
  {
    var labels := Frames.NumberedLabels(prefix, n);
    Frames.NotNumbered("is_member", prefix, n, 0);
    Frames.NotNumbered("is_liked", prefix, n, 0);
    Frames.NotNumbered("is_reposted", prefix, n, 0);
    if prefix == "user_lda" {
      Frames.NotNumbered("user_id", prefix, n, 5);
      Frames.NotNumbered("post_id", prefix, n, 0);
    } else {
      Frames.NotNumbered("user_id", prefix, n, 0);
      Frames.NotNumbered("post_id", prefix, n, 5);
    }
    forall i | 0 <= i < n ensures labels[i] !in NonFeature {
      assert labels[i] in labels;
    }
  }

  /** Neither feature block has a label among the dropped names. */
  lemma FeatureLabelsKept(nu: nat, np: nat)
    ensures forall i :: 0 <= i < |UsersData.UserLabels(nu)| ==> UsersData.UserLabels(nu)[i] !in NonFeature
    ensures forall i :: 0 <= i < |WallData.WallLabels(np)| ==> WallData.WallLabels(np)[i] !in NonFeature
  {
    var ul := UsersData.UserLabels(nu);
    var wl := WallData.WallLabels(np);
    NumberedKept("user_lda", nu);
    NumberedKept("post_lda", np);
    forall i | 0 <= i < |ul| ensures ul[i] !in NonFeature {
      if i < 7 { assert ul[i] == ul[..7][i]; } else { assert ul[i] == ul[7..][i - 7]; }
    }
    forall i | 0 <= i < |wl| ensures wl[i] !in NonFeature {
      if i > 0 { assert wl[i] == wl[1..][i - 1]; }
    }
  }

  /** The feature columns of an action row. */
  function FeatureRow(f: ActionData.Featurizer, r: ActionData.ActionRow): seq<Frames.Cell>
    requires ActionData.Ready(f)
    requires r.user.groups.Some? && UsersData.AgeParses(r.user)
  {
    KeepColumns(ActionData.ActionLabels(f), ActionData.Cells(f, r), NonFeature)
  }

  /** Dropping exactly the five names leaves the user features followed by the post features. */
  lemma FeatureRowIsFeatures(f: ActionData.Featurizer, r: ActionData.ActionRow)
    requires ActionData.Ready(f)
    requires r.user.groups.Some? && UsersData.AgeParses(r.user)
    ensures FeatureRow(f, r) ==
      UsersData.UserFeatures(f.users, f.currentYear, r.user) + WallData.PostFeatures(f.posts, r.post)
    ensures KeepColumns(ActionData.ActionLabels(f), ActionData.ActionLabels(f), NonFeature) ==
      UsersData.UserLabels(f.users.numTopics) + WallData.WallLabels(f.posts.numTopics)
  {
    var labels := ActionData.ActionLabels(f);
    var cells := ActionData.Cells(f, r);
    var nu := f.users.numTopics;
    ActionLabelsLayout(f);
    Split(labels, cells, NonFeature, 1, 8 + nu, 9 + nu, |labels| - 3);
    Split(labels, labels, NonFeature, 1, 8 + nu, 9 + nu, |labels| - 3);
  }

  /** Where the five names sit among the action labels: first, between the user and post
      blocks, and last three; no feature label is one of them. */
  lemma ActionLabelsLayout(f: ActionData.Featurizer)
    ensures var labels, nu := ActionData.ActionLabels(f), f.users.numTopics;
      labels[0] in NonFeature && labels[8 + nu] in NonFeature &&
      (forall i :: 1 <= i < 8 + nu ==> labels[i] !in NonFeature) &&
      (forall i :: 9 + nu <= i < |labels| - 3 ==> labels[i] !in NonFeature) &&
      (forall i :: |labels| - 3 <= i < |labels| ==> labels[i] in NonFeature)
  {
    var labels, nu := ActionData.ActionLabels(f), f.users.numTopics;
    var userLabels, wallLabels := UsersData.UserLabels(nu), WallData.WallLabels(f.posts.numTopics);
    FeatureLabelsKept(nu, f.posts.numTopics);
    forall i | 1 <= i < 8 + nu ensures labels[i] !in NonFeature {
      assert labels[i] == labels[1..8 + nu][i - 1] == userLabels[i - 1];
    }
    forall i | 9 + nu <= i < |labels| - 3 ensures labels[i] !in NonFeature {
      assert labels[i] == labels[9 + nu..|labels| - 3][i - 9 - nu] == wallLabels[i - 9 - nu];
    }
    forall i | |labels| - 3 <= i < |labels| ensures labels[i] in NonFeature {
      assert labels[i] == labels[|labels| - 3..][i - |labels| + 3];
    }
  }

  /** Drop the five names from rows laid out as the action labels, by cutting both at the
      block boundaries. */
  lemma Split<T>(labels: seq<string>, cells: seq<T>, drop: set<string>, a: nat, b: nat, c: nat, e: nat)
    requires |labels| == |cells| && a == 1 && a <= b && c == b + 1 && c <= e && e + 3 == |labels|
    requires labels[0] in drop && labels[b] in drop
    requires forall i :: e <= i < |labels| ==> labels[i] in drop
    requires forall i :: a <= i < b ==> labels[i] !in drop
    requires forall i :: c <= i < e ==> labels[i] !in drop
    ensures KeepColumns(labels, cells, drop) == cells[a..b] + cells[c..e]
  {
    var l1, l2, l3, l4, l5 := labels[..a], labels[a..b], labels[b..c], labels[c..e], labels[e..];
    var c1, c2, c3, c4, c5 := cells[..a], cells[a..b], cells[b..c], cells[c..e], cells[e..];
    Slices5(labels, a, b, c, e);
    Slices5(cells, a, b, c, e);
    forall i | 0 <= i < |l1| ensures l1[i] in drop { assert l1[i] == labels[0]; }
    forall i | 0 <= i < |l2| ensures l2[i] !in drop { assert l2[i] == labels[a + i]; }
    forall i | 0 <= i < |l3| ensures l3[i] in drop { assert l3[i] == labels[b]; }
    forall i | 0 <= i < |l4| ensures l4[i] !in drop { assert l4[i] == labels[c + i]; }
    forall i | 0 <= i < |l5| ensures l5[i] in drop { assert l5[i] == labels[e + i]; }
    Keep5(l1, l2, l3, l4, l5, c1, c2, c3, c4, c5, drop);
  }

  lemma Slices5<X>(s: seq<X>, a: nat, b: nat, c: nat, e: nat)
    requires a <= b <= c <= e <= |s|
    ensures s == s[..a] + s[a..b] + s[b..c] + s[c..e] + s[e..]
  {
  }

  lemma Keep5<T>(l1: seq<string>, l2: seq<string>, l3: seq<string>, l4: seq<string>, l5: seq<string>,
                 c1: seq<T>, c2: seq<T>, c3: seq<T>, c4: seq<T>, c5: seq<T>, drop: set<string>)
    requires |l1| == |c1| && |l2| == |c2| && |l3| == |c3| && |l4| == |c4| && |l5| == |c5|
    requires forall i :: 0 <= i < |l1| ==> l1[i] in drop
    requires forall i :: 0 <= i < |l2| ==> l2[i] !in drop
    requires forall i :: 0 <= i < |l3| ==> l3[i] in drop
    requires forall i :: 0 <= i < |l4| ==> l4[i] !in drop
    requires forall i :: 0 <= i < |l5| ==> l5[i] in drop
    ensures KeepColumns(l1 + l2 + l3 + l4 + l5, c1 + c2 + c3 + c4 + c5, drop) == c2 + c4
  {
    KeepNone(l1, c1, drop);
    KeepAll(l2, c2, drop);
    KeepNone(l3, c3, drop);
    KeepAll(l4, c4, drop);
    KeepNone(l5, c5, drop);
    KeepColumnsConcat(l1, c1, l2, c2, drop);
    assert KeepColumns(l1 + l2, c1 + c2, drop) == c2;
    KeepColumnsConcat(l1 + l2, c1 + c2, l3, c3, drop);
    assert KeepColumns(l1 + l2 + l3, c1 + c2 + c3, drop) == c2;
    KeepColumnsConcat(l1 + l2 + l3, c1 + c2 + c3, l4, c4, drop);
    assert KeepColumns(l1 + l2 + l3 + l4, c1 + c2 + c3 + c4, drop) == c2 + c4;
    KeepColumnsConcat(l1 + l2 + l3 + l4, c1 + c2 + c3 + c4, l5, c5, drop);
  }

  /** What `fit` hands to the two classifiers: the feature matrix and the two label columns. */
  datatype Training = Training(x: seq<seq<Frames.Cell>>, liked: seq<bool>, reposted: seq<bool>)

  /** `fit`: one feature row per action row, with that row's flags as the targets. */
  function TrainingSet(f: ActionData.Featurizer, rows: seq<ActionData.ActionRow>): (t: Training)
    requires ActionData.Ready(f)
    requires forall r :: r in rows ==> r.user.groups.Some? && UsersData.AgeParses(r.user)
    ensures |t.x| == |t.liked| == |t.reposted| == |rows|
    ensures forall i :: 0 <= i < |rows| ==>
      t.x[i] == UsersData.UserFeatures(f.users, f.currentYear, rows[i].user) + WallData.PostFeatures(f.posts, rows[i].post)
    ensures forall i :: 0 <= i < |rows| ==> t.liked[i] == rows[i].isLiked && t.reposted[i] == rows[i].isReposted
  {
    forall i | 0 <= i < |rows| ensures FeatureRow(f, rows[i]) ==
      UsersData.UserFeatures(f.users, f.currentYear, rows[i].user) + WallData.PostFeatures(f.posts, rows[i].post)
    {
      assert rows[i] in rows;
      FeatureRowIsFeatures(f, rows[i]);
    }
    Training(seq(|rows|, i requires 0 <= i < |rows| => FeatureRow(f, rows[i])),
             seq(|rows|, i requires 0 <= i < |rows| => rows[i].isLiked),
             seq(|rows|, i requires 0 <= i < |rows| => rows[i].isReposted))
  }

  /** One row of the prediction frame. */
  datatype Prediction = Prediction(postId: int, userId: int, isMember: bool, isLiked: bool, isReposted: bool)

  /** `PredictActionModel.predict`: the rows in order, keeping `user_id`, `post_id` and
      `is_member`, with the two flags replaced by the classifiers' answers on the features. */
  function PredictActions(f: ActionData.Featurizer, like: seq<Frames.Cell> -> bool, repost: seq<Frames.Cell> -> bool,
                          rows: seq<ActionData.ActionRow>): (preds: seq<Prediction>)
    requires ActionData.Ready(f)
    requires forall r :: r in rows ==> r.user.groups.Some? && UsersData.AgeParses(r.user)
    ensures |preds| == |rows|
    ensures forall i :: 0 <= i < |rows| ==>
      preds[i].userId == rows[i].user.id && preds[i].postId == rows[i].post.id && preds[i].isMember == rows[i].isMember
    ensures forall i :: 0 <= i < |rows| ==>
      var x := UsersData.UserFeatures(f.users, f.currentYear, rows[i].user) + WallData.PostFeatures(f.posts, rows[i].post);
      preds[i].isLiked == like(x) && preds[i].isReposted == repost(x)
  {
    var t := TrainingSet(f, rows);
    seq(|rows|, i requires 0 <= i < |rows| =>
      Prediction(rows[i].post.id, rows[i].user.id, rows[i].isMember, like(t.x[i]), repost(t.x[i])))
  }

  /** The four counters of `PredictStatsModel.predict`. */
  datatype Bucket = DirectLikes | DirectReposts | NonDirectLikes | NonDirectReposts

  /** Whether a prediction row increments bucket `b`. */
  predicate InBucket(p: Prediction, b: Bucket)
  {
    match b
    case DirectLikes => p.isLiked && p.isMember
    case NonDirectLikes => p.isLiked && !p.isMember
    case DirectReposts => p.isReposted && p.isMember
    case NonDirectReposts => p.isReposted && !p.isMember
  }

  /** The number of rows for post `post` that fall in bucket `b`. */
  function CountIn(preds: seq<Prediction>, post: int, b: Bucket): nat
  {
    if |preds| == 0 then 0
    else CountIn(preds[..|preds| - 1], post, b) + (if preds[|preds| - 1].postId == post && InBucket(preds[|preds| - 1], b) then 1 else 0)
  }

  /** One row of the stats frame. */
  datatype Stats = Stats(directLikes: nat, directReposts: nat, nonDirectLikes: nat, nonDirectReposts: nat)

  /** Some row for `post` is liked or reposted. */
  predicate HasEvent(preds: seq<Prediction>, post: int)
  {
    exists i :: 0 <= i < |preds| && preds[i].postId == post && (preds[i].isLiked || preds[i].isReposted)
  }

  /** A post has an event iff one of its buckets is non-zero. */
  lemma {:induction false} HasEventIffCounted(preds: seq<Prediction>, post: int)
    ensures HasEvent(preds, post) <==>
      CountIn(preds, post, DirectLikes) > 0 || CountIn(preds, post, DirectReposts) > 0 ||
      CountIn(preds, post, NonDirectLikes) > 0 || CountIn(preds, post, NonDirectReposts) > 0
  {
    if |preds| > 0 {
      var init := preds[..|preds| - 1];
      HasEventIffCounted(init, post);
      if HasEvent(init, post) {
        var i :| 0 <= i < |init| && init[i].postId == post && (init[i].isLiked || init[i].isReposted);
        assert preds[i] == init[i];
      }
      if HasEvent(preds, post) && !HasEvent(init, post) {
        var i :| 0 <= i < |preds| && preds[i].postId == post && (preds[i].isLiked || preds[i].isReposted);
      }
      if !HasEvent(preds, post) {
        var last := preds[|preds| - 1];
        assert !(last.postId == post && (last.isLiked || last.isReposted));
        assert !HasEvent(init, post) by {
          forall i | 0 <= i < |init| ensures !(init[i].postId == post && (init[i].isLiked || init[i].isReposted)) {
            assert init[i] == preds[i];
          }
        }
      }
    }
  }

  /** `PredictStatsModel.predict`: four `Counter`s filled in one pass over the predictions; the
      output has a row for every key of any counter, and a counter lookup that misses reads 0. */
  method PredictStats(preds: seq<Prediction>) returns (stats: map<int, Stats>)
    ensures forall post :: post in stats <==> HasEvent(preds, post)
    ensures forall post :: post in stats ==>
              stats[post] == Stats(CountIn(preds, post, DirectLikes), CountIn(preds, post, DirectReposts),
                                   CountIn(preds, post, NonDirectLikes), CountIn(preds, post, NonDirectReposts))
  {
    var dl: multiset<int> := multiset{};
    var dr: multiset<int> := multiset{};
    var nl: multiset<int> := multiset{};
    var nr: multiset<int> := multiset{};
    for i := 0 to |preds|
      invariant forall post :: dl[post] == CountIn(preds[..i], post, DirectLikes)
      invariant forall post :: dr[post] == CountIn(preds[..i], post, DirectReposts)
      invariant forall post :: nl[post] == CountIn(preds[..i], post, NonDirectLikes)
      invariant forall post :: nr[post] == CountIn(preds[..i], post, NonDirectReposts)
    {
      var row := preds[i];
      assert preds[..i + 1][..i] == preds[..i] && preds[..i + 1][i] == row;
      if row.isLiked {
        if row.isMember { dl := dl + multiset{row.postId}; } else { nl := nl + multiset{row.postId}; }
      }
      if row.isReposted {
        if row.isMember { dr := dr + multiset{row.postId}; } else { nr := nr + multiset{row.postId}; }
      }
    }
    assert preds[..|preds|] == preds;
    var postIds := set post | post in dl + dr + nl + nr;
    stats := map post | post in postIds :: Stats(dl[post], dr[post], nl[post], nr[post]);
    forall post ensures post in stats <==> HasEvent(preds, post) {
      HasEventIffCounted(preds, post);
    }
  }

  /** The number of rows for post `post` with the given flag set. */
  function CountFlagged(preds: seq<Prediction>, post: int, liked: bool): nat
  {
    if |preds| == 0 then 0
    else
      var last := preds[|preds| - 1];
      CountFlagged(preds[..|preds| - 1], post, liked) + (if last.postId == post && (if liked then last.isLiked else last.isReposted) then 1 else 0)
  }

  /** A row increments at most one like counter, so a post's two like counts add up to its
      liked rows; likewise for reposts. */
  lemma {:induction false} LikesPartitioned(preds: seq<Prediction>, post: int)
    ensures CountIn(preds, post, DirectLikes) + CountIn(preds, post, NonDirectLikes) == CountFlagged(preds, post, true)
    ensures CountIn(preds, post, DirectReposts) + CountIn(preds, post, NonDirectReposts) == CountFlagged(preds, post, false)
  {
    if |preds| > 0 {
      LikesPartitioned(preds[..|preds| - 1], post);
    }
  }

  /** A post none of whose rows is liked or reposted is left out of the output. */
  lemma QuietPostAbsent(preds: seq<Prediction>, post: int, stats: map<int, Stats>)
    requires forall i :: 0 <= i < |preds| && preds[i].postId == post ==> !preds[i].isLiked && !preds[i].isReposted
    requires forall p :: p in stats <==> HasEvent(preds, p)
    ensures post !in stats
  {
  }

  /** A reported post reads 0 in a bucket none of its rows falls into. */
  lemma {:induction false} EmptyBucketReadsZero(preds: seq<Prediction>, post: int, b: Bucket)
    requires forall i :: 0 <= i < |preds| && preds[i].postId == post ==> !InBucket(preds[i], b)
    ensures CountIn(preds, post, b) == 0
  {
    if |preds| > 0 {
      EmptyBucketReadsZero(preds[..|preds| - 1], post, b);
    }
  }
}

=== FILE: text.dfy ===
/** Decimal rendering and parsing (Python's `str(n)` and `int(s)`) and `str.split`. */
module Text {
  import opened Wrappers

  predicate IsDigit(c: char) { '0' <= c <= '9' }

  predicate AllDigits(s: string) { forall i :: 0 <= i < |s| ==> IsDigit(s[i]) }

  function DigitChar(d: nat): (c: char)
    requires d < 10
    ensures IsDigit(c) && c as int - '0' as int == d
  {
    ('0' as int + d) as char
  }

  /** `str(n)` for a non-negative integer. */
  function Decimal(n: nat): (s: string)
    ensures |s| > 0 && AllDigits(s)
  {
    if n < 10 then [DigitChar(n)] else Decimal(n / 10) + [DigitChar(n % 10)]
  }

  /** The value of a string of decimal digits, most significant first. */
  function DigitsValue(s: string): nat
    requires AllDigits(s)
  {
    if |s| == 0 then 0
    else DigitsValue(s[..|s| - 1]) * 10 + (s[|s| - 1] as int - '0' as int)
  }

  /** `int(s)` restricted to plain ASCII digit strings; None where such a string is absent. */
  function ParseDecimal(s: string): (r: Option<nat>)
    ensures r.Some? <==> |s| > 0 && AllDigits(s)
  {
    if |s| > 0 && AllDigits(s) then Some(DigitsValue(s)) else None
  }

  lemma {:induction false} DecimalValue(n: nat)
    ensures DigitsValue(Decimal(n)) == n
    decreases n
  {
    if n >= 10 {
      var s := Decimal(n);
      assert s[..|s| - 1] == Decimal(n / 10);
      DecimalValue(n / 10);
    }
  }

  /** `int(str(n)) == n`. */
  lemma ParseDecimalRoundTrip(n: nat)
    ensures ParseDecimal(Decimal(n)) == Some(n)
  {
    DecimalValue(n);
  }

  /** Distinct numbers render to distinct strings. */
  lemma DecimalInjective(a: nat, b: nat)
    requires Decimal(a) == Decimal(b)
    ensures a == b
  {
    DecimalValue(a);
    DecimalValue(b);
  }

  /** Number of occurrences of `c` in `s`. */
  function Count(s: string, c: char): nat
  {
    if |s| == 0 then 0 else (if s[0] == c then 1 else 0) + Count(s[1..], c)
  }

  /** Python's `s.split(sep)` for a one-character separator. */
  function Split(s: string, sep: char): (parts: seq<string>)
    ensures |parts| == Count(s, sep) + 1
    ensures forall i :: 0 <= i < |parts| ==> sep !in parts[i]
  {
    if |s| == 0 then [""]
    else
      var rest := Split(s[1..], sep);
      if s[0] == sep then [""] + rest
      else [[s[0]] + rest[0]] + rest[1..]
  }

  /** `sep.join(parts)`. */
  function Join(parts: seq<string>, sep: char): string
    requires |parts| > 0
  {
    if |parts| == 1 then parts[0] else parts[0] + [sep] + Join(parts[1..], sep)
  }

  /** Splitting and re-joining gives back the string, so no character is lost. */
  lemma {:induction false} SplitJoin(s: string, sep: char)
    ensures Join(Split(s, sep), sep) == s
  {
    if |s| > 0 {
      var rest := Split(s[1..], sep);
      SplitJoin(s[1..], sep);
      if s[0] == sep {
        assert s == [s[0]] + s[1..];
      } else if |rest| == 1 {
        assert s == [s[0]] + s[1..];
      } else {
        assert rest == [rest[0]] + rest[1..];
        assert Join(rest, sep) == rest[0] + [sep] + Join(rest[1..], sep);
        assert s == [s[0]] + s[1..];
      }
    }
  }

  /** The text after the last `sep` (the whole string when there is none). */
  function AfterLast(s: string, sep: char): (t: string)
    ensures sep !in t
    ensures |t| <= |s| && t == s[|s| - |t|..]
    ensures |t| < |s| ==> s[|s| - |t| - 1] == sep
  {
    if |s| == 0 then ""
    else if s[|s| - 1] == sep then ""
    else AfterLast(s[..|s| - 1], sep) + [s[|s| - 1]]
  }

  lemma {:induction false} JoinLast(parts: seq<string>, sep: char)
    requires |parts| > 1
    ensures Join(parts, sep) == Join(parts[..|parts| - 1], sep) + [sep] + parts[|parts| - 1]
  {
    if |parts| > 2 {
      JoinLast(parts[1..], sep);
      assert parts[1..][..|parts| - 2] == parts[..|parts| - 1][1..];
    }
  }

  /** The last part of `s.split(sep)` is the text after the last separator. */
  lemma SplitLast(s: string, sep: char)
    ensures var parts := Split(s, sep); parts[|parts| - 1] == AfterLast(s, sep)
  {
    var parts := Split(s, sep);
    var last := parts[|parts| - 1];
    SplitJoin(s, sep);
    if |parts| > 1 {
      JoinLast(parts, sep);
      var front := Join(parts[..|parts| - 1], sep);
      assert s == front + [sep] + last;
      assert s[|s| - |last|..] == last;
      assert s[|s| - |last| - 1] == sep;
    }
  }
}

=== FILE: users_data.dfy ===
/** vk_text_likeness/users_data.py: the member/friend graph (`RawUsersData`) and the user
    feature rows (`TableUsersData`). */
module UsersData {
  import opened Wrappers
  import Text
  import Frames
  import Dedup
  import LdaMaker

  /** A group a user belongs to; only its description feeds the topic model. */
  datatype Group = Group(description: Option<string>)

  /** A user record as the API returns it, plus the `is_member` tag the code adds.
      `country` holds `user['country']['id']`. Absent keys are `None`. */
  datatype User = User(
    id: int,
    isMember: Option<bool>,
    sex: Option<int>,
    bdate: Option<string>,
    country: Option<int>,
    groups: Option<seq<Group>>)

  function UserId(u: User): int { u.id }

  /** The ids of a list of users. */
  function Ids(users: seq<User>): set<int> { Dedup.Keys(users, UserId) }

  // ---------------------------------------------------------------- RawUsersData

  /** `_fetch_members` after the request: every fetched member is tagged `is_member = True`
      and nothing else about it changes. */
  function TagMembers(fetched: seq<User>): (members: seq<User>)
    ensures |members| == |fetched|
    ensures forall i :: 0 <= i < |members| ==>
      members[i].isMember == Some(true) && members[i].(isMember := fetched[i].isMember) == fetched[i]
  {
    seq(|fetched|, i requires 0 <= i < |fetched| => fetched[i].(isMember := Some(true)))
  }

  /** One key of the `member_friends` defaultdict: a member id and the friends appended under it. */
  datatype FriendEntry = FriendEntry(memberId: int, friends: seq<User>)

  /** The `member_friends` defaultdict, in insertion order (the order `.values()` yields). */
  type FriendLists = seq<FriendEntry>

  function EntryKey(e: FriendEntry): int { e.memberId }

  function Keys(d: FriendLists): set<int> { Dedup.Keys(d, EntryKey) }

  /** `member_friends[k]` for a key that is present, `[]` for one that is not. */
  function FriendsOf(d: FriendLists, k: int): seq<User>
  {
    if |d| == 0 then []
    else if d[0].memberId == k then d[0].friends
    else FriendsOf(d[1..], k)
  }

  /** `member_friends.values()` concatenated in insertion order. */
  function Flatten(d: FriendLists): seq<User>
  {
    if |d| == 0 then [] else d[0].friends + Flatten(d[1..])
  }

  /** `member_friends[k].append(u)`: the entry for `k` is created at the end on first use. */
  function AppendUnder(d: FriendLists, k: int, u: User): (r: FriendLists)
    ensures forall k' :: FriendsOf(r, k') == FriendsOf(d, k') + (if k' == k then [u] else [])
    ensures Keys(r) == Keys(d) + {k}
    ensures Dedup.UniqueKeys(d, EntryKey) ==> Dedup.UniqueKeys(r, EntryKey)
    ensures forall x :: x in Flatten(r) ==> x in Flatten(d) || x == u
  {
    if |d| == 0 then
      var r := [FriendEntry(k, [u])];
      Dedup.KeysCons(r, EntryKey);
      r
    else
      Dedup.KeysCons(d, EntryKey);
      Dedup.UniqueKeysCons(d, EntryKey);
      if d[0].memberId == k then
        var r := [d[0].(friends := d[0].friends + [u])] + d[1..];
        Dedup.KeysCons(r, EntryKey);
        Dedup.UniqueKeysCons(r, EntryKey);
        assert r[1..] == d[1..];
        r
      else
        var rest := AppendUnder(d[1..], k, u);
        var r := [d[0]] + rest;
        Dedup.KeysCons(r, EntryKey);
        Dedup.UniqueKeysCons(r, EntryKey);
        assert r[1..] == rest;
        r
  }

  /** The friends of one member that survive the filter, tagged `is_member = False`. */
  function Kept(memberIds: set<int>, friends: seq<User>): (kept: seq<User>)
    ensures |kept| <= |friends|
    ensures forall x :: x in kept ==> x.isMember == Some(false) && x.id !in memberIds
  {
    if |friends| == 0 then []
    else if friends[0].id !in memberIds then [friends[0].(isMember := Some(false))] + Kept(memberIds, friends[1..])
    else Kept(memberIds, friends[1..])
  }

  /** The inner loop of `_fetch_members_friends` for one member: each friend whose id is not a
      member id is tagged `is_member = False` and appended under the member's id. */
  function AttachFriends(d: FriendLists, memberIds: set<int>, k: int, friends: seq<User>): (r: FriendLists)
    ensures forall k' :: FriendsOf(r, k') == FriendsOf(d, k') + (if k' == k then Kept(memberIds, friends) else [])
    ensures Keys(r) == Keys(d) + (if |Kept(memberIds, friends)| > 0 then {k} else {})
    ensures Dedup.UniqueKeys(d, EntryKey) ==> Dedup.UniqueKeys(r, EntryKey)
    ensures forall x :: x in Flatten(r) ==> x in Flatten(d) || x in Kept(memberIds, friends)
    decreases |friends|
  {
    if |friends| == 0 then d
    else if friends[0].id !in memberIds then
      AttachFriends(AppendUnder(d, k, friends[0].(isMember := Some(false))), memberIds, k, friends[1..])
    else AttachFriends(d, memberIds, k, friends[1..])
  }

  /** The friends fetched for the members `members[..n]` that land under key `k`: the kept
      part of each such member's successful response, in member order. */
  function FriendsFor(memberIds: set<int>, members: seq<User>, responses: seq<Option<seq<User>>>, k: int): seq<User>
    requires |responses| == |members|
  {
    if |members| == 0 then []
    else
      var n := |members| - 1;
      FriendsFor(memberIds, members[..n], responses[..n], k)
        + (if members[n].id == k && responses[n].Some? then Kept(memberIds, responses[n].value) else [])
  }

  /** The loop of `_fetch_members_friends` over a prefix of the members. `responses[i]` is the
      outcome of `friends.get` for `members[i]`: `None` when it raised `ApiError`, which the
      code swallows. */
  function FriendsLoop(memberIds: set<int>, members: seq<User>, responses: seq<Option<seq<User>>>): (d: FriendLists)
    requires |responses| == |members|
    ensures Dedup.UniqueKeys(d, EntryKey)
    ensures forall k :: FriendsOf(d, k) == FriendsFor(memberIds, members, responses, k)
    ensures forall k :: k in Keys(d) <==> |FriendsFor(memberIds, members, responses, k)| > 0
    ensures forall x :: x in Flatten(d) ==> x.isMember == Some(false) && x.id !in memberIds
  {
    if |members| == 0 then []
    else
      var n := |members| - 1;
      var d0 := FriendsLoop(memberIds, members[..n], responses[..n]);
      if responses[n].None? then d0
      else AttachFriends(d0, memberIds, members[n].id, responses[n].value)
  }

  /** `_fetch_members_friends`: friends already among the members are dropped; the others are
      tagged non-members and listed under the member whose call returned them. */
  function FetchFriends(members: seq<User>, responses: seq<Option<seq<User>>>): (d: FriendLists)
    requires |responses| == |members|
    ensures Dedup.UniqueKeys(d, EntryKey)
    ensures forall k :: FriendsOf(d, k) == FriendsFor(Ids(members), members, responses, k)
    ensures forall k :: k in Keys(d) <==> |FriendsFor(Ids(members), members, responses, k)| > 0
    ensures forall x :: x in Flatten(d) ==> x.isMember == Some(false) && x.id !in Ids(members)
  {
    FriendsLoop(Ids(members), members, responses)
  }

  /** With distinct member ids, a member's list is exactly its own kept friends; so a member
      whose `friends.get` failed, or all of whose friends are members, has no entry at all. */
  lemma {:induction false} OwnFriendsOnly(memberIds: set<int>, members: seq<User>, responses: seq<Option<seq<User>>>, i: int)
    requires |responses| == |members|
    requires Dedup.UniqueKeys(members, UserId)
    requires 0 <= i < |members|
    ensures FriendsFor(memberIds, members, responses, members[i].id)
      == (if responses[i].Some? then Kept(memberIds, responses[i].value) else [])
  {
    var n := |members| - 1;
    var k := members[i].id;
    assert Dedup.UniqueKeys(members[..n], UserId);
    if i < n {
      OwnFriendsOnly(memberIds, members[..n], responses[..n], i);
      assert members[n].id != k;
    } else {
      NoneFor(memberIds, members[..n], responses[..n], k);
    }
  }

  lemma {:induction false} NoneFor(memberIds: set<int>, members: seq<User>, responses: seq<Option<seq<User>>>, k: int)
    requires |responses| == |members|
    requires forall j :: 0 <= j < |members| ==> members[j].id != k
    ensures FriendsFor(memberIds, members, responses, k) == []
  {
    if |members| > 0 {
      var n := |members| - 1;
      NoneFor(memberIds, members[..n], responses[..n], k);
    }
  }

  /** A member whose friends call failed gets no entry (distinct member ids). */
  lemma FailedCallNoEntry(members: seq<User>, responses: seq<Option<seq<User>>>, i: int)
    requires |responses| == |members|
    requires Dedup.UniqueKeys(members, UserId)
    requires 0 <= i < |members| && responses[i].None?
    ensures members[i].id !in Keys(FetchFriends(members, responses))
  {
    OwnFriendsOnly(Ids(members), members, responses, i);
  }

  /** The first user of the list with that id, if any. */
  function FindIn(users: seq<User>, id: int): (r: Option<User>)
    ensures r.Some? <==> id in Ids(users)
    ensures r.Some? ==> r.value == users[Dedup.FirstIndex(users, UserId, id)]
  {
    if |users| == 0 then None
    else
      Dedup.KeysCons(users, UserId);
      if users[0].id == id then Some(users[0]) else FindIn(users[1..], id)
  }

  /** `find_user`: the members are searched first, then each friend list in insertion order. */
  function FindUser(members: seq<User>, d: FriendLists, id: int): (r: Option<User>)
    ensures r.None? <==> id !in Ids(members) && id !in Ids(Flatten(d))
    ensures r.Some? ==> r.value.id == id
    ensures id in Ids(members) ==> r == FindIn(members, id)
  {
    var m := FindIn(members, id);
    if m.Some? then m else FindIn(Flatten(d), id)
  }

  /** `get_all_users`: members, then every friend list in insertion order, each id once, the
      first record seen for an id winning. */
  method GetAllUsers(members: seq<User>, d: FriendLists) returns (everything: seq<User>)
    ensures everything == Dedup.DedupBy(members + Flatten(d), UserId)
    ensures Dedup.UniqueKeys(everything, UserId)
    ensures Ids(everything) == Ids(members) + Ids(Flatten(d))
    ensures Dedup.FirstSeen(everything, members + Flatten(d), UserId)
  {
    var all := members + Flatten(d);
    everything := [];
    var ids: set<int> := {};
    var i := 0;
    while i < |all|
      invariant 0 <= i <= |all|
      invariant ids == Ids(everything)
      invariant everything + Dedup.DedupFrom(all[i..], UserId, ids) == Dedup.DedupBy(all, UserId)
    {
      var user := all[i];
      Dedup.DedupStep(all, UserId, ids, i);
      if user.id !in ids {
        var rest := Dedup.DedupFrom(all[i + 1..], UserId, ids + {user.id});
        assert (everything + [user]) + rest == everything + ([user] + rest);
        IdsSnoc(everything, user);
        everything := everything + [user];
        ids := ids + {user.id};
      }
      i := i + 1;
    }
    assert all[|all|..] == [];
    AllUsersProps(members, d);
  }

  lemma IdsSnoc(users: seq<User>, u: User)
    ensures Ids(users + [u]) == Ids(users) + {u.id}
  {
    Dedup.KeysConcat(users, [u], UserId);
    Dedup.KeysCons([u], UserId);
  }

  lemma AllUsersProps(members: seq<User>, d: FriendLists)
    ensures var everything := Dedup.DedupBy(members + Flatten(d), UserId);
      Dedup.UniqueKeys(everything, UserId) && Ids(everything) == Ids(members) + Ids(Flatten(d)) &&
      Dedup.FirstSeen(everything, members + Flatten(d), UserId)
  {
    Dedup.DedupFromProps(members + Flatten(d), UserId, {});
    Dedup.KeysConcat(members, Flatten(d), UserId);
  }

  /** The deduplicated user list, as a function. */
  function AllUsers(members: seq<User>, d: FriendLists): seq<User>
  {
    Dedup.DedupBy(members + Flatten(d), UserId)
  }

  /** Membership precedence: a user whose id is a member id is listed as that member's record,
      and with distinct member ids the list starts with all the members in order. */
  lemma MembersComeFirst(members: seq<User>, d: FriendLists)
    ensures forall i :: 0 <= i < |AllUsers(members, d)| && AllUsers(members, d)[i].id in Ids(members) ==>
      AllUsers(members, d)[i] == members[Dedup.FirstIndex(members, UserId, AllUsers(members, d)[i].id)]
    ensures Dedup.UniqueKeys(members, UserId) ==>
      |AllUsers(members, d)| >= |members| && AllUsers(members, d)[..|members|] == members
  {
    var all := AllUsers(members, d);
    Dedup.DedupFromProps(members + Flatten(d), UserId, {});
    forall i | 0 <= i < |all| && all[i].id in Ids(members)
      ensures all[i] == members[Dedup.FirstIndex(members, UserId, all[i].id)]
    {
      Dedup.FirstIndexConcat(members, Flatten(d), UserId, all[i].id);
    }
    if Dedup.UniqueKeys(members, UserId) {
      Dedup.FrontKept(members, Flatten(d), UserId);
    }
  }

  /** `find_user` agrees with `get_all_users`: it returns exactly the record the deduplicated
      list holds for that id, and None for an id the list lacks. */
  lemma FindUserMatchesAllUsers(members: seq<User>, d: FriendLists, id: int)
    ensures FindUser(members, d, id).Some? <==> id in Ids(AllUsers(members, d))
    ensures FindUser(members, d, id).Some? ==>
      FindUser(members, d, id).value in AllUsers(members, d)
  {
    var xs := members + Flatten(d);
    var all := Dedup.DedupBy(xs, UserId);
    FindUserIsFirst(members, d, id);
    Dedup.DedupFromProps(xs, UserId, {});
    assert Ids(all) == Ids(xs);
    if id in Ids(all) {
      var i :| 0 <= i < |all| && UserId(all[i]) == id;
      assert all[i] == xs[Dedup.FirstIndex(xs, UserId, id)];
    }
  }

  /** `find_user` is a first-match search of the members followed by the friend lists. */
  lemma FindUserIsFirst(members: seq<User>, d: FriendLists, id: int)
    ensures FindUser(members, d, id) == FindIn(members + Flatten(d), id)
  {
    Dedup.KeysConcat(members, Flatten(d), UserId);
    if id in Ids(members) {
      Dedup.FirstIndexConcat(members, Flatten(d), UserId, id);
      assert (members + Flatten(d))[Dedup.FirstIndex(members, UserId, id)] == members[Dedup.FirstIndex(members, UserId, id)];
    } else if id in Ids(Flatten(d)) {
      Dedup.FirstIndexConcatBack(members, Flatten(d), UserId, id);
      var j := Dedup.FirstIndex(Flatten(d), UserId, id);
      assert (members + Flatten(d))[|members| + j] == Flatten(d)[j];
    }
  }

  /** Through the graph `_fetch_members`/`_fetch_members_friends` build, `find_user` resolves a
      member id to a member record and any other known id to a non-member friend. */
  lemma FindUserMembership(fetched: seq<User>, responses: seq<Option<seq<User>>>, id: int)
    requires |responses| == |fetched|
    ensures var members := TagMembers(fetched);
      var r := FindUser(members, FetchFriends(members, responses), id);
      r.Some? ==> r.value.isMember == Some(id in Ids(fetched))
  {
    var members := TagMembers(fetched);
    assert Ids(members) == Ids(fetched) by {
      forall x | x in Ids(fetched) ensures x in Ids(members) {
        var i :| 0 <= i < |fetched| && fetched[i].id == x;
        assert members[i].id == x;
      }
    }
    var d := FetchFriends(members, responses);
    var r := FindUser(members, d, id);
    if r.Some? && id !in Ids(members) {
      var f := FindIn(Flatten(d), id);
      assert f.value in Flatten(d);
    }
  }

  // ---------------------------------------------------------------- TableUsersData

  /** `int()` of the year succeeds: the model reads a year as plain decimal digits. */
  predicate AgeParses(u: User)
  {
    u.bdate.None? || |Text.Split(u.bdate.value, '.')| != 3
      || Text.ParseDecimal(Text.Split(u.bdate.value, '.')[2]).Some?
  }

  /** `_user_age`: `currentYear` stands for `date.today().year`. */
  function UserAge(u: User, currentYear: int): (age: int)
    requires AgeParses(u)
    ensures u.bdate.None? || Text.Count(u.bdate.value, '.') != 2 ==> age == -1
    ensures u.bdate.Some? && Text.Count(u.bdate.value, '.') == 2 ==>
      Text.AllDigits(Text.AfterLast(u.bdate.value, '.'))
      && age == currentYear - Text.DigitsValue(Text.AfterLast(u.bdate.value, '.'))
  {
    if u.bdate.Some? then
      var parts := Text.Split(u.bdate.value, '.');
      if |parts| == 3 then
        Text.SplitLast(u.bdate.value, '.');
        currentYear - Text.ParseDecimal(parts[2]).value
      else -1
    else -1
  }

  /** The seven demographic cells of `get_row`: is_woman, is_man, age, and one flag per
      country id 1..4 (Russia, Ukraine, Belarus, Kazakhstan); a missing key gives False. */
  function Demographics(u: User, currentYear: int): (row: seq<Frames.Cell>)
    requires AgeParses(u)
    ensures |row| == 7
    ensures row[0] == Frames.B(true) <==> u.sex == Some(1)
    ensures row[1] == Frames.B(true) <==> u.sex == Some(2)
    ensures !(row[0] == Frames.B(true) && row[1] == Frames.B(true))
    ensures row[2] == Frames.I(UserAge(u, currentYear))
    ensures forall c :: 1 <= c <= 4 ==> (row[2 + c] == Frames.B(true) <==> u.country == Some(c))
    ensures forall a, b :: 3 <= a < b < 7 ==> !(row[a] == Frames.B(true) && row[b] == Frames.B(true))
  {
    [Frames.B(u.sex == Some(1)), Frames.B(u.sex == Some(2)), Frames.I(UserAge(u, currentYear)),
     Frames.B(u.country == Some(1)), Frames.B(u.country == Some(2)),
     Frames.B(u.country == Some(3)), Frames.B(u.country == Some(4))]
  }

  /** The descriptions of the groups that have one, in group order. */
  function Descriptions(groups: seq<Group>): (docs: seq<string>)
    ensures |docs| <= |groups|
    ensures forall doc :: doc in docs <==> exists i :: 0 <= i < |groups| && groups[i].description == Some(doc)
  {
    if |groups| == 0 then []
    else
      var rest := Descriptions(groups[1..]);
      assert forall i :: 1 <= i < |groups| ==> groups[i] == groups[1..][i - 1];
      if groups[0].description.Some? then [groups[0].description.value] + rest else rest
  }

  /** The positions of the described groups from `i` on, in increasing order. */
  function DescribedFrom(groups: seq<Group>, i: nat): (at: seq<nat>)
    requires i <= |groups|
    ensures forall k :: 0 <= k < |at| ==> i <= at[k] < |groups| && groups[at[k]].description.Some?
    decreases |groups| - i
  {
    if i == |groups| then []
    else
      var rest := DescribedFrom(groups, i + 1);
      if groups[i].description.Some? then [i] + rest else rest
  }

  /** The positions of all described groups. */
  function DescribedAt(groups: seq<Group>): seq<nat>
  {
    DescribedFrom(groups, 0)
  }

  /** One step of `DescribedFrom`. */
  lemma DescribedFromStep(groups: seq<Group>, i: nat)
    requires i < |groups|
    ensures DescribedFrom(groups, i) ==
      (if groups[i].description.Some? then [i] else []) + DescribedFrom(groups, i + 1)
  {
  }

  /** `DescribedFrom` lists the described positions from `i` on in increasing order. */
  lemma {:induction false} DescribedFromIncreasing(groups: seq<Group>, i: nat)
    requires i <= |groups|
    ensures forall k, l :: 0 <= k < l < |DescribedFrom(groups, i)| ==> DescribedFrom(groups, i)[k] < DescribedFrom(groups, i)[l]
    decreases |groups| - i
  {
    if i < |groups| {
      DescribedFromIncreasing(groups, i + 1);
      DescribedFromStep(groups, i);
      var at, rest := DescribedFrom(groups, i), DescribedFrom(groups, i + 1);
      if groups[i].description.Some? {
        ConsIncreasing(i, rest);
      } else {
        assert at == rest;
      }
    }
  }

  /** A number below every entry of an increasing list, put in front, keeps it increasing. */
  lemma ConsIncreasing(x: nat, rest: seq<nat>)
    requires forall k :: 0 <= k < |rest| ==> x < rest[k]
    requires forall k, l :: 0 <= k < l < |rest| ==> rest[k] < rest[l]
    ensures forall k, l :: 0 <= k < l < |[x] + rest| ==> ([x] + rest)[k] < ([x] + rest)[l]
  {
    var at := [x] + rest;
    forall k, l | 0 <= k < l < |at| ensures at[k] < at[l] {
      assert at[l] == rest[l - 1];
      if k > 0 { assert at[k] == rest[k - 1]; }
    }
  }

  /** `DescribedFrom` misses no described position from `i` on. */
  lemma {:induction false} DescribedFromComplete(groups: seq<Group>, i: nat)
    requires i <= |groups|
    ensures forall j :: i <= j < |groups| && groups[j].description.Some? ==> j in DescribedFrom(groups, i)
    decreases |groups| - i
  {
    if i < |groups| {
      DescribedFromComplete(groups, i + 1);
      DescribedFromStep(groups, i);
      var at, rest := DescribedFrom(groups, i), DescribedFrom(groups, i + 1);
      forall j | i <= j < |groups| && groups[j].description.Some? ensures j in at {
        if j == i { assert at[0] == i; } else { assert j in rest; }
      }
    }
  }

  /** So the described positions of all groups are in increasing order and none is missing. */
  lemma DescribedAtSpec(groups: seq<Group>)
    ensures var at := DescribedAt(groups);
      (forall k, l :: 0 <= k < l < |at| ==> at[k] < at[l]) &&
      (forall j :: 0 <= j < |groups| && groups[j].description.Some? ==> j in at)
  {
    DescribedFromIncreasing(groups, 0);
    DescribedFromComplete(groups, 0);
  }

  /** The descriptions are those of the described groups, one per group, in group order. */
  lemma DescriptionsInGroupOrder(groups: seq<Group>)
    ensures |Descriptions(groups)| == |DescribedAt(groups)|
    ensures forall k :: 0 <= k < |DescribedAt(groups)| ==>
      Descriptions(groups)[k] == groups[DescribedAt(groups)[k]].description.value
  {
    DescriptionsFrom(groups, 0);
    assert groups[0..] == groups;
  }

  lemma {:induction false} DescriptionsFrom(groups: seq<Group>, i: nat)
    requires i <= |groups|
    ensures |Descriptions(groups[i..])| == |DescribedFrom(groups, i)|
    ensures forall k :: 0 <= k < |DescribedFrom(groups, i)| ==>
      Descriptions(groups[i..])[k] == groups[DescribedFrom(groups, i)[k]].description.value
    decreases |groups| - i
  {
    if i < |groups| {
      DescriptionsFrom(groups, i + 1);
      DescriptionsStep(groups, i);
      DescribedFromStep(groups, i);
      var docs, at := Descriptions(groups[i..]), DescribedFrom(groups, i);
      var tail, rest := Descriptions(groups[i + 1..]), DescribedFrom(groups, i + 1);
      if groups[i].description.Some? {
        assert docs[0] == groups[i].description.value && at[0] == i;
        forall k | 0 < k < |at| ensures docs[k] == groups[at[k]].description.value {
          assert docs[k] == tail[k - 1] && at[k] == rest[k - 1];
        }
      }
    }
  }

  /** One step of `Descriptions` over the groups from `i` on. */
  lemma DescriptionsStep(groups: seq<Group>, i: nat)
    requires i < |groups|
    ensures Descriptions(groups[i..]) ==
      (if groups[i].description.Some? then [groups[i].description.value] else []) + Descriptions(groups[i + 1..])
  {
    assert groups[i..][0] == groups[i] && groups[i..][1..] == groups[i + 1..];
  }

  /** `_user_lda_by_groups` as the code is written: weights of every described group are
      summed per topic, then divided by the number of described groups. With no described
      group and at least one topic, `result[i] /= 0` raises ZeroDivisionError; a user without
      `groups` raises KeyError. */
  function UserTopicsAsWritten(m: LdaMaker.TopicModel, u: User): (r: Result<seq<real>, Fault>)
    requires LdaMaker.WellFormed(m)
    ensures r == Failure(KeyError("groups")) <==> u.groups.None?
    ensures r == Failure(ZeroDivisionError) <==>
      u.groups.Some? && |Descriptions(u.groups.value)| == 0 && m.numTopics > 0
    ensures r.Success? ==> r.value == UserTopics(m, u.groups.value)
  {
    if u.groups.None? then Failure(KeyError("groups"))
    else
      var docs := Descriptions(u.groups.value);
      var sums := LdaMaker.AddPairs(LdaMaker.Zeros(m.numTopics), LdaMaker.PairsOf(m, docs));
      if |docs| == 0 then
        if m.numTopics == 0 then Success([]) else Failure(ZeroDivisionError)
      else Success(seq(m.numTopics, j requires 0 <= j < m.numTopics => sums[j] / |docs| as real))
  }

  /** The averaged topic vector, with the zero-group case short-circuited to the zero vector:
      each slot times the number of described groups is the total weight those groups'
      descriptions give that topic. */
  function UserTopics(m: LdaMaker.TopicModel, groups: seq<Group>): (v: seq<real>)
    requires LdaMaker.WellFormed(m)
    ensures |v| == m.numTopics
    ensures |Descriptions(groups)| == 0 ==> v == LdaMaker.Zeros(m.numTopics)
    ensures |Descriptions(groups)| > 0 ==> forall j :: 0 <= j < m.numTopics ==>
      v[j] == LdaMaker.WeightSum(LdaMaker.PairsOf(m, Descriptions(groups)), j) / |Descriptions(groups)| as real
  {
    var docs := Descriptions(groups);
    var sums := LdaMaker.AddPairs(LdaMaker.Zeros(m.numTopics), LdaMaker.PairsOf(m, docs));
    if |docs| == 0 then LdaMaker.Zeros(m.numTopics)
    else seq(m.numTopics, j requires 0 <= j < m.numTopics => sums[j] / |docs| as real)
  }

  /** A user with one group yielding [0.2, 0.8] and one group without a description gets
      [0.2, 0.8]: the undescribed group is skipped, not averaged in as zeros. */
  lemma AverageSkipsUndescribedGroups(m: LdaMaker.TopicModel)
    requires LdaMaker.WellFormed(m)
    requires m.numTopics == 2 && m.get("news") == [(0, 0.2), (1, 0.8)]
    ensures UserTopics(m, [Group(Some("news")), Group(None)]) == [0.2, 0.8]
  {
    var groups := [Group(Some("news")), Group(None)];
    assert Descriptions(groups[1..]) == [];
    assert Descriptions(groups) == ["news"];
    var pairs := m.get("news");
    assert LdaMaker.PairsOf(m, ["news"]) == pairs + LdaMaker.PairsOf(m, []);
    assert LdaMaker.PairsOf(m, ["news"]) == pairs;
    var tail: LdaMaker.TopicWeights := pairs[1..];
    assert tail == [(1, 0.8)] && tail[1..] == [];
    assert LdaMaker.WeightSum(tail[1..], 0) == 0.0 && LdaMaker.WeightSum(tail[1..], 1) == 0.0;
    assert LdaMaker.WeightSum(tail, 0) == 0.0 && LdaMaker.WeightSum(tail, 1) == 0.8;
    assert LdaMaker.WeightSum(pairs, 0) == 0.2;
    assert LdaMaker.WeightSum(pairs, 1) == 0.8;
    var v := UserTopics(m, groups);
    assert v[0] == 0.2 / 1.0 && v[1] == 0.8 / 1.0;
  }

  /** `get_labels`: 7 demographic names then `user_lda0 .. user_lda{n-1}`, all distinct. */
  function UserLabels(numTopics: nat): (labels: seq<string>)
    ensures |labels| == 7 + numTopics
    ensures labels[..7] == ["is_woman", "is_man", "age", "is_in_russia", "is_in_ukraine", "is_in_byelorussia", "is_in_kazakstan"]
    ensures labels[7..] == Frames.NumberedLabels("user_lda", numTopics)
    ensures Frames.Distinct(labels)
  {
    var fixed := ["is_woman", "is_man", "age", "is_in_russia", "is_in_ukraine", "is_in_byelorussia", "is_in_kazakstan"];
    var numbered := Frames.NumberedLabels("user_lda", numTopics);
    Frames.NumberedLabelsDistinct("user_lda", numTopics);
    forall i | 0 <= i < 7 ensures fixed[i] !in numbered {
      Frames.NotNumbered(fixed[i], "user_lda", numTopics, 0);
    }
    var labels := fixed + numbered;
    assert labels[..7] == fixed;
    assert labels[7..] == numbered;
    labels
  }

  /** `get_row` with the zero-group guard: the demographic cells followed by the averaged
      topic vector, one cell per label of `UserLabels`. */
  function UserFeatures(m: LdaMaker.TopicModel, currentYear: int, u: User): (row: seq<Frames.Cell>)
    requires LdaMaker.WellFormed(m)
    requires u.groups.Some? && AgeParses(u)
    ensures |row| == |UserLabels(m.numTopics)|
    ensures row[..7] == Demographics(u, currentYear)
    ensures forall j :: 0 <= j < m.numTopics ==> row[7 + j] == Frames.R(UserTopics(m, u.groups.value)[j])
  {
    var topics := UserTopics(m, u.groups.value);
    Demographics(u, currentYear) + seq(m.numTopics, j requires 0 <= j < m.numTopics => Frames.R(topics[j]))
  }

  /** `get_row` as written: the topic part raises as `UserTopicsAsWritten` does; otherwise the
      row is the guarded one. */
  function UserRowAsWritten(m: LdaMaker.TopicModel, currentYear: int, u: User): (r: Result<seq<Frames.Cell>, Fault>)
    requires LdaMaker.WellFormed(m)
    requires AgeParses(u)
    ensures r.Failure? <==> UserTopicsAsWritten(m, u).Failure?
    ensures r.Success? ==> r.value == UserFeatures(m, currentYear, u)
  {
    var topics :- UserTopicsAsWritten(m, u);
    Success(Demographics(u, currentYear) + seq(m.numTopics, j requires 0 <= j < m.numTopics => Frames.R(topics[j])))
  }

  /** A user with a `groups` list but no described group cannot get a row as written. */
  lemma ZeroDivisionWitness(m: LdaMaker.TopicModel)
    requires LdaMaker.WellFormed(m) && m.numTopics == 15
    ensures UserTopicsAsWritten(m, User(7, Some(false), None, None, None, Some([Group(None)])))
      == Failure(ZeroDivisionError)
  {
    assert Descriptions([Group(None)]) == [];
  }

  /** Some user with `groups` has a group described by `doc`. */
  predicate DescribedIn(users: seq<User>, doc: string)
  {
    exists i, k :: 0 <= i < |users| && users[i].groups.Some? && 0 <= k < |users[i].groups.value| &&
      users[i].groups.value[k].description == Some(doc)
  }

  /** The set of present descriptions over users that have `groups`. */
  function Corpus(users: seq<User>): (corpus: set<string>)
    ensures forall doc :: doc in corpus <==> DescribedIn(users, doc)
  {
    var corpus := set i, doc | 0 <= i < |users| && users[i].groups.Some? && doc in Descriptions(users[i].groups.value) :: doc;
    forall doc | doc in corpus ensures DescribedIn(users, doc) {
      var i :| 0 <= i < |users| && users[i].groups.Some? && doc in Descriptions(users[i].groups.value);
      var k :| 0 <= k < |users[i].groups.value| && users[i].groups.value[k].description == Some(doc);
    }
    forall doc | DescribedIn(users, doc) ensures doc in corpus {
      var i, k :| 0 <= i < |users| && users[i].groups.Some? && 0 <= k < |users[i].groups.value| &&
        users[i].groups.value[k].description == Some(doc);
      assert doc in Descriptions(users[i].groups.value);
    }
    corpus
  }

  /** `_get_corpora_for_lda` as written: `user['groups']` raises KeyError for any user whose
      `groups.get` failed; otherwise the set of present descriptions, undescribed groups skipped. */
  function CorpusAsWritten(users: seq<User>): (r: Result<set<string>, Fault>)
    ensures r.Failure? <==> exists i :: 0 <= i < |users| && users[i].groups.None?
    ensures r.Success? ==> r.value == Corpus(users)
  {
    if exists i :: 0 <= i < |users| && users[i].groups.None? then Failure(KeyError("groups"))
    else Success(Corpus(users))
  }

  /** One user whose groups could not be fetched stops the whole corpus as written. */
  lemma CorpusKeyErrorWitness()
    ensures CorpusAsWritten([User(1, Some(true), None, None, None, None)]) == Failure(KeyError("groups"))
  {
    var users := [User(1, Some(true), None, None, None, None)];
    assert users[0].groups.None?;
  }
}

=== FILE: wall_data.dfy ===
/** `TableWallData` of vk_text_likeness/wall_data.py: the per-post feature row, its labels and
    the topic-model corpus. Posts arrive already fetched; their like and repost lists are the
    user ids the network returned. */
module WallData {
  import opened Wrappers
  import Frames
  import LdaMaker

  /** A wall post: its id, its text and the ids of the users who liked and reposted it. */
  datatype Post = Post(id: int, text: string, likes: seq<int>, reposts: seq<int>)

  /** `get_labels`: `text_len`, then `post_lda0 .. post_lda{n-1}`. */
  function WallLabels(numTopics: nat): (labels: seq<string>)
    ensures |labels| == 1 + numTopics
    ensures labels[0] == "text_len"
    ensures labels[1..] == Frames.NumberedLabels("post_lda", numTopics)
    ensures Frames.Distinct(labels)
  {
    var numbered := Frames.NumberedLabels("post_lda", numTopics);
    Frames.NumberedLabelsDistinct("post_lda", numTopics);
    Frames.NotNumbered("text_len", "post_lda", numTopics, 0);
    var labels := ["text_len"] + numbered;
    assert labels[1..] == numbered;
    assert forall i :: 1 <= i < |labels| ==> labels[i] == numbered[i - 1];
    labels
  }

  /** `_get_corpora_for_lda`: one document per post, in wall order. */
  function WallCorpus(posts: seq<Post>): (docs: seq<string>)
    ensures |docs| == |posts|
    ensures forall i :: 0 <= i < |posts| ==> docs[i] == posts[i].text
  {
    if |posts| == 0 then []
    else WallCorpus(posts[..|posts| - 1]) + [posts[|posts| - 1].text]
  }

  /** Two posts with the same text give two copies of that document. */
  lemma CorpusKeepsDuplicates(p: Post, q: Post)
    requires p.text == q.text
    ensures multiset(WallCorpus([p, q]))[p.text] == 2
  {
    assert WallCorpus([p, q]) == [p.text, p.text];
  }

  /** The corpus of a longer wall extends the corpus of its prefix. */
  lemma {:induction false} CorpusAppend(a: seq<Post>, b: seq<Post>)
    ensures WallCorpus(a + b) == WallCorpus(a) + WallCorpus(b)
  {
    var l, r := WallCorpus(a + b), WallCorpus(a) + WallCorpus(b);
    assert |l| == |r|;
    forall i | 0 <= i < |l| ensures l[i] == r[i] {
      if i < |a| { assert (a + b)[i] == a[i]; } else { assert (a + b)[i] == b[i - |a|]; }
    }
  }

  /** `_post_text_len`. */
  function TextLen(p: Post): (n: nat)
    ensures n == |p.text|
  {
    |p.text|
  }

  /** `get_row` as written: the text length followed by the extractor's sparse (topic, weight)
      pairs for the text, appended unchanged. */
  function PostRowAsWritten(m: LdaMaker.TopicModel, p: Post): (row: seq<Frames.Cell>)
    ensures |row| == 1 + |m.get(p.text)|
    ensures row[0] == Frames.I(|p.text|)
    ensures forall i :: 0 <= i < |m.get(p.text)| ==>
      row[1 + i] == Frames.Pair(m.get(p.text)[i].0, m.get(p.text)[i].1)
  {
    var pairs := m.get(p.text);
    [Frames.I(TextLen(p))] + seq(|pairs|, i requires 0 <= i < |pairs| => Frames.Pair(pairs[i].0, pairs[i].1))
  }

  /** The as-written row does not line up with the labels whenever the extractor leaves a topic
      out, which it does for every topic below its probability threshold. */
  lemma PostRowMisaligned(m: LdaMaker.TopicModel, p: Post)
    requires m.numTopics == 15 && m.get(p.text) == [(3, 0.9)]
    ensures |PostRowAsWritten(m, p)| == 2 && |WallLabels(m.numTopics)| == 16
    ensures PostRowAsWritten(m, p)[1] != Frames.R(0.0)
  {
  }

  /** The dense row the labels describe: the text length, then one weight per topic, 0 for
      the topics the extractor left out. */
  function PostFeatures(m: LdaMaker.TopicModel, p: Post): (row: seq<Frames.Cell>)
    requires LdaMaker.WellFormed(m)
    ensures |row| == |WallLabels(m.numTopics)|
    ensures row[0] == Frames.I(|p.text|)
    ensures forall j :: 0 <= j < m.numTopics ==>
      var w := LdaMaker.LastWeight(m.get(p.text), j);
      row[1 + j] == Frames.R(if w.Some? then w.value else 0.0)
  {
    var v := LdaMaker.SetPairs(LdaMaker.Zeros(m.numTopics), m.get(p.text));
    [Frames.I(TextLen(p))] + seq(m.numTopics, j requires 0 <= j < m.numTopics => Frames.R(v[j]))
  }

  /** Where the extractor lists every topic once, in order, the dense row carries exactly the
      weights the as-written row carried. */
  lemma {:induction false} DenseAgreesWhenComplete(m: LdaMaker.TopicModel, p: Post)
    requires LdaMaker.WellFormed(m)
    requires |m.get(p.text)| == m.numTopics
    requires forall j :: 0 <= j < m.numTopics ==> m.get(p.text)[j].0 == j
    ensures forall c :: 1 <= c <= m.numTopics ==>
      PostFeatures(m, p)[c] == Frames.R(PostRowAsWritten(m, p)[c].weight)
  {
    var pairs := m.get(p.text);
    forall c | 1 <= c <= m.numTopics
      ensures PostFeatures(m, p)[c] == Frames.R(PostRowAsWritten(m, p)[c].weight)
    {
      LastWeightAt(pairs, c - 1);
    }
  }

  /** The same agreement, cell by cell over the whole post block. */
  lemma DenseRowWhenComplete(m: LdaMaker.TopicModel, p: Post)
    requires LdaMaker.WellFormed(m)
    requires |m.get(p.text)| == m.numTopics
    requires forall j :: 0 <= j < m.numTopics ==> m.get(p.text)[j].0 == j
    ensures |PostRowAsWritten(m, p)| == |PostFeatures(m, p)|
    ensures forall c :: 0 <= c < |PostFeatures(m, p)| ==>
      PostFeatures(m, p)[c] == Frames.Dense(PostRowAsWritten(m, p)[c])
  {
    DenseAgreesWhenComplete(m, p);
  }

  /** In a pair list whose i-th pair is topic i, topic j's last weight is the j-th pair's. */
  lemma {:induction false} LastWeightAt(pairs: LdaMaker.TopicWeights, j: nat)
    requires j < |pairs|
    requires forall i :: 0 <= i < |pairs| ==> pairs[i].0 == i
    ensures LdaMaker.LastWeight(pairs, j) == Some(pairs[j].1)
  {
    LastWeightShifted(pairs, 0, j);
  }

  /** Generalisation of `LastWeightAt` to a list whose i-th pair is topic `base + i`. */
  lemma {:induction false} LastWeightShifted(pairs: LdaMaker.TopicWeights, base: nat, j: nat)
    requires base <= j < base + |pairs|
    requires forall i :: 0 <= i < |pairs| ==> pairs[i].0 == base + i
    ensures LdaMaker.LastWeight(pairs, j) == Some(pairs[j - base].1)
    decreases |pairs|
  {
    var tail := pairs[1..];
    if j == base {
      LastWeightAbsent(tail, base + 1, j);
    } else {
      LastWeightShifted(tail, base + 1, j);
    }
  }

  /** Topics below `base` do not occur in a list whose i-th pair is topic `base + i`. */
  lemma {:induction false} LastWeightAbsent(pairs: LdaMaker.TopicWeights, base: nat, j: nat)
    requires j < base
    requires forall i :: 0 <= i < |pairs| ==> pairs[i].0 == base + i
    ensures LdaMaker.LastWeight(pairs, j) == None
    decreases |pairs|
  {
    if |pairs| > 0 {
      LastWeightAbsent(pairs[1..], base + 1, j);
    }
  }
}

=== FILE: wrappers.dfy ===
/** Failure-compatible wrappers and the Python exceptions the model surfaces. */
module Wrappers {

  /** An optional value: Python's `None` or a present value. */
  datatype Option<+T> = None | Some(value: T) {
    predicate IsFailure() { None? }

    function PropagateFailure<U>(): Option<U>
      requires None?
    {
      None
    }

    function Extract(): T
      requires Some?
    {
      value
    }
  }

  /** A computation that either returns a value or raises. */
  datatype Result<+T, +E> = Success(value: T) | Failure(error: E) {
    predicate IsFailure() { Failure? }

    function PropagateFailure<U>(): Result<U, E>
      requires Failure?
    {
      Failure(error)
    }

    function Extract(): T
      requires Success?
    {
      value
    }
  }

  /** The exceptions the modelled Python code can raise on real data. */
  datatype Fault =
    | KeyError(key: string)          // a dict lookup of a missing key
    | ZeroDivisionError              // `x /= 0` on Python numbers
    | NoneSubscript(userId: int)     // `find_user(...)` returned None and was indexed
}
